=== FILE: README.md ===
# antigravity-proxy translation engine in Dafny

A functional model of the request/response translation core of antigravity-proxy.
The proxy speaks three chat-completion wire formats: OpenAI Chat Completions, the
Anthropic Messages API, and Google Cloud Code (Gemini-style `contents`/`parts`). The
model covers seven pieces:

- the Anthropic ⇄ Google converter (`src/format-converter.js`). This is the thinking-block
  pipeline for assistant turns (signature gate, trailing trim, reorder), the conversion of
  blocks to Google parts, the two-pass tool-schema sanitiser, request assembly, and
  response conversion;
- the OpenAI → Anthropic request converter;
- the Anthropic → OpenAI response converter;
- the streaming adapter, as a fold over a finite event sequence;
- the OpenAI error classifier;
- session-id derivation;
- the pure parts of direct refresh-token authentication: the token predicate, the
  32-bit string hash and the TTL cache as an explicit state transition.

JavaScript objects are closed datatypes. Content blocks are a sum type with one variant
per `type` tag, plus `Absent` for a `null` entry and `Other` for unknown tags. Schemas are
a small JSON tree whose objects are ordered association lists. Overwriting a key keeps
its position, as in JS, and new keys are appended. The model keeps every key in insertion
order. JS does not do this for integer-like keys such as `"0"` or `"12"`: it lists them
first, in ascending numeric order (see "## Left out"). A null content block, Google part or
system block is representable (`Absent`, `NullPart`). Reading its `type` throws a `TypeError`
in JS, and the model returns that as `Err`. Other null or non-object entries are not
representable (see "## Left out"). Everything random, clock-based, cryptographic,
networked or defined in files outside the model is a parameter. This covers random ids,
`Date.now`, SHA-256, `randomUUID`, `JSON.parse`/`JSON.stringify`, `getModelFamily`,
`isThinkingModel`, the error-message regular expressions, and the OAuth refresh and
project discovery calls. The constants from `src/constants.js` take their upstream values
(`MIN_SIGNATURE_LENGTH` = 50, `GEMINI_MAX_OUTPUT_TOKENS` = 16384). One proof depends on
the first value: `GoogleResponse.SkipSentinelNotEchoed` needs the 32-character
`skip_thought_signature_validator` sentinel to be shorter than 50. The boundary lemmas
(`ThinkingBlocks.RestoreSignatureBoundary`, `GoogleResponse.CallSignatureBoundary`) and
`GoogleRequest.MaxTokensCapped` are stated in terms of the named constants. They hold for
any value, except that the boundary lemmas need a positive minimum, because an empty
signature is falsy. `src/constants.js` is not part of this model.

Files and modules:

| file | module | content |
|---|---|---|
| wrappers.dfy | Wrappers | `Option`, `Result` |
| js.dfy | Js | JSON values, JS truthiness, ordered-object operations, string helpers |
| anthropic.dfy | Anthropic | blocks, messages, requests and responses; `isThinkingPart` / `hasValidSignature` |
| thinking.dfy | ThinkingBlocks | signature gate, trailing trim, reorder, and the three-stage pipeline |
| google_parts.dfy | GoogleParts | block → part conversion; the part-level unsigned-thinking filter |
| schema.dfy | Schema | `sanitizeSchema` and `cleanSchemaForGemini` |
| google_request.dfy | GoogleRequest | `convertRole`, `convertAnthropicToGoogle` |
| google_response.dfy | GoogleResponse | `convertGoogleToAnthropic` |
| openai_request.dfy | OpenAIRequest | `convertOpenAIToAnthropic` |
| openai_response.dfy | OpenAIResponse | `convertAnthropicToOpenAI` |
| stream_adapter.dfy | StreamAdapter | `adaptAnthropicStreamToOpenAI`, `buildChunk` |
| error_formatter.dfy | ErrorFormatter | `parseErrorOpenAI` |
| session.dfy | Session | `deriveSessionId` |
| direct_auth.dfy | DirectAuth | `isRefreshToken`, `hashToken`, the `buildDirectAuth` cache, `clearDirectAuthCache` |

Two behaviours of the schema code are easy to misread:

- A schema that is only `{const: 'red'}` has no `type`, so the sanitiser gives it the
  default type `object`. It becomes `{enum: ['red'], type: 'object', properties: {reason},
  required: ['reason']}` (see `Schema.SanitizeConstOnly`).
- The Gemini cleaner lists `format` among the keywords it deletes. Its later branch that
  keeps `enum` and `date-time` formats on string schemas therefore never applies: `format`
  is gone at every level (see `Schema.CleanObjectLookup`).

## Model

| member | source | states |
|---|---|---|
| ThinkingBlocks.SanitizeThinkingBlock | src/format-converter.js:163-180 | a thinking block keeps only its `thinking` and `signature`, and a redacted one only its `data`; the kind is kept; every other block is returned unchanged |
| ThinkingBlocks.RestoreThinkingSignatures | src/format-converter.js:190-214 | the output never grows; every surviving `thinking` block is signed and bare; the non-thinking entries (redacted_thinking and null included) are exactly the input's, in order |
| ThinkingBlocks.RestoreSignatureBoundary | src/format-converter.js:196-206 | a `thinking` block whose signature has at least MIN_SIGNATURE_LENGTH characters is kept, reduced to `{type, thinking, signature}`; a shorter signature or none drops it; with `RestoreAppend` and `RestoreKeepsOthers` this fixes the gate on every input |
| ThinkingBlocks.RestoreKeepsOthers | src/format-converter.js:196-199 | any entry that is not a `thinking` block passes the gate unchanged |
| ThinkingBlocks.RestoreAppend | src/format-converter.js:190-214 | the gate works entry by entry: it distributes over concatenation |
| ThinkingBlocks.RestoreIdempotent | src/format-converter.js:190-214 | applying the gate twice equals applying it once |
| ThinkingBlocks.RemoveTrailingThinkingBlocks | src/format-converter.js:126-157 | the result is a prefix of the input; it does not end on an unsigned thinking-like block; everything cut off is an unsigned thinking-like block |
| ThinkingBlocks.TrimUnique | src/format-converter.js:126-157 | those three properties determine the trim: any prefix that has them is the trim's result |
| ThinkingBlocks.TrimIdempotent | src/format-converter.js:126-157 | trimming twice equals trimming once |
| ThinkingBlocks.RemoveTrailingThinkingBlocksScan | src/format-converter.js:130-156 | the backward scan, which stops at the first null, non-thinking or signed entry from the end, computes the same prefix |
| ThinkingBlocks.ReorderAssistantContent | src/format-converter.js:227-281 | never longer than the input; thinking/redacted_thinking first, then text and other kinds, then tool_use; for length ≠ 1 each bucket holds exactly the input's kept entries of that kind in their original order, with null and blank-text entries dropped; a one-element array gives its entry back, sanitised if it is a thinking block |
| ThinkingBlocks.ReorderIdempotent | src/format-converter.js:227-281 | reordering an already reordered array changes nothing |
| ThinkingBlocks.NormalizeAssistantContent | src/format-converter.js:477-484 | restore → trim → reorder yields bucket-sorted content whose `thinking` blocks are all signed and bare, never longer than the input |
| ThinkingBlocks.NormalizeIdempotent | src/format-converter.js:477-484 | when every thinking-like entry is a `type: 'thinking'` block, the pipeline is idempotent and its output never ends on an unsigned thinking block |
| ThinkingBlocks.NormalizeNotIdempotent | src/format-converter.js:126-157 | outside that hypothesis it is not: `[redacted_thinking, ' ']` normalises to `[redacted_thinking]`, which normalises to `[]` |
| GoogleParts.ConvertContentToParts | src/format-converter.js:286-403 | a string becomes one text part; an array gives at most one part per block; the conversion fails exactly when some block (or a tool result's inner block) is null |
| GoogleParts.BlockToParts | src/format-converter.js:295-400 | each block gives at most one part; it fails exactly on a null; every thought part it makes is signed; a part takes the same position (thinking, text, tool call) as its block |
| GoogleParts.BlankTextDropped | src/format-converter.js:298-302 | a text block whose text is missing, empty or whitespace-only gives no part |
| GoogleParts.ThinkingParts | src/format-converter.js:388-397 | a thinking block gives a thought part exactly when its signature is valid; redacted_thinking gives none |
| GoogleParts.ToolUsePart | src/format-converter.js:339-363 | tool_use becomes one functionCall with `args` defaulting to `{}`; it gets the block's `id` exactly for Claude with a truthy id; only Gemini gets a `thoughtSignature`, which is the block's own or `skip_thought_signature_validator` |
| GoogleParts.ToolResultTexts | src/format-converter.js:364-387 | an array tool result without null entries becomes exactly `{result: <its text blocks' texts joined by '\n'>}`; which texts are joined, and in what order, is fixed by `ResultTextsOne` and `ResultTextsAppend` |
| GoogleParts.ResultTextsAreTexts | src/format-converter.js:372-375 | every joined string is the text of one of the result's text blocks |
| GoogleParts.ResultTextsOne | src/format-converter.js:372-375 | a single text block contributes its text (`''` when missing), and any other non-null block contributes nothing |
| GoogleParts.ResultTextsAppend | src/format-converter.js:372-375 | the texts of a concatenation are the texts of the first part followed by those of the second, so the texts are joined in block order |
| GoogleParts.BlocksToPartsAppend | src/format-converter.js:295-400 | the conversion is block by block: it distributes over concatenation |
| GoogleParts.ConvertKeepsOrder | src/format-converter.js:295-400 | a bucket-sorted block array becomes a part array with thought parts first and function calls last |
| GoogleParts.FilterContentArray | src/format-converter.js:73-98 | never longer than the input; every kept part is an input part the filter accepts (null entries, non-thinking parts, signed thinking parts), and every accepted input part is kept; order and multiplicity are fixed by `FilterContentArrayOne` and `FilterContentArrayAppend` |
| GoogleParts.FilterContentArrayOne | src/format-converter.js:73-98 | a single part is kept exactly when the filter accepts it, and then unchanged |
| GoogleParts.FilterContentArrayAppend | src/format-converter.js:73-98 | the filter works part by part: filtering a concatenation is the concatenation of the filtered halves, so kept parts stay in input order |
| GoogleParts.KeptByFilterMeans | src/format-converter.js:41-44 | a part is dropped exactly when it is a thought part whose signature is missing or shorter than MIN_SIGNATURE_LENGTH |
| GoogleParts.FilterUnsignedThinkingBlocks | src/format-converter.js:106-116 | one content per input content, with its role kept and its parts filtered |
| Schema.SanitizeSchemaSound | src/format-converter.js:597-672 | whatever it is given, sanitizeSchema returns an object with allowlisted keys only, a truthy `type`, and non-empty `properties` whenever the type is `object`, at every nested level; a missing or non-object input gives the placeholder |
| Schema.SanitizeConstBecomesEnum | src/format-converter.js:613-616 | `const: v`, in a schema with no `enum`, becomes exactly `enum: [v]` |
| Schema.SanitizeConstOnly | src/format-converter.js:597-672 | `{const: v}` becomes `{enum: [v], type: 'object', properties: {reason}, required: ['reason']}` and nothing else |
| Schema.SanitizeEmptyObjectGetsReason | src/format-converter.js:658-669 | an object-typed result whose input brought no usable properties gets exactly `properties: {reason}` and `required: ['reason']` |
| Schema.CompleteLookups | src/format-converter.js:652-669 | the type defaults to `object`; only an object schema without usable properties gets the placeholder; every other key is left alone |
| Schema.EntriesLookup | src/format-converter.js:608-650 | for distinct keys, each allowlisted key except `enum` holds its sanitised value and every other key is absent |
| Schema.CleanSound | src/format-converter.js:684-729 | whatever it is given, cleanSchemaForGemini leaves no unsupported keyword as a key at any level, and wherever `required` is an array next to a truthy `properties` it is non-empty and names only keys of `properties` |
| Schema.CleanObjectLookup | src/format-converter.js:692-712 | every key but `required` keeps its cleaned value unless it is an unsupported keyword, which is gone; `format` is deleted even on a `date-time` string schema |
| Schema.CleanObjectRequired | src/format-converter.js:715-726 | `required` keeps exactly the names of the cleaned properties, in order, and is deleted when none is left |
| Schema.CleanDropsPropertyNamedLikeKeyword | src/format-converter.js:692-726 | a property *named* like an unsupported keyword is deleted too, and `required` loses its name |
| GoogleRequest.ConvertRole | src/format-converter.js:408-412 | the role is `model` exactly for `assistant`, and `user` for everything else (`model` included) |
| GoogleRequest.ConvertMessagesAt | src/format-converter.js:472-492 | content `k` has the converted role and the parts of message `k`'s prepared content |
| GoogleRequest.ConvertMessagesFails | src/format-converter.js:472-492 | the message loop fails exactly when some message's prepared content fails to convert |
| GoogleRequest.ConvertAnthropicToGoogle | src/format-converter.js:423-589 | the conversion fails exactly when the system prompt is a block array with a null entry or some message's prepared content fails to convert (a null block, or a null block inside a tool result) |
| GoogleRequest.ContentsPerMessage | src/format-converter.js:472-497 | exactly one content per message, in order; role `model` exactly for assistant messages; assistant array content goes through restore → trim → reorder before conversion |
| GoogleRequest.ClaudeFilterKeepsContents | src/format-converter.js:495-497 | the Claude-only part filter changes nothing on converted contents, whose thought parts are all signed |
| GoogleRequest.AssistantPartsOrdered | src/format-converter.js:477-486 | an assistant turn reaches Google with thought parts first, function calls last, and every thought part signed |
| GoogleRequest.WithHint | src/format-converter.js:457-469 | the hint is appended after a blank line to a truthy last system part, pushed as a new part otherwise, and is the whole instruction when there was none |
| GoogleRequest.HintOnlyForClaudeThinkingWithTools | src/format-converter.js:436-469 | the interleaved-thinking hint is added exactly for Claude thinking models with a non-empty tool list |
| GoogleRequest.NormalizeToolName | src/format-converter.js:572 | the name has at most 64 characters, all from `[A-Za-z0-9_-]`; it is the input's first 64 characters with every other character replaced by `_` |
| GoogleRequest.NormalizeToolNameIdempotent | src/format-converter.js:572 | a valid name is kept, and normalising twice equals normalising once |
| GoogleRequest.DeclarationsWellFormed | src/format-converter.js:547-578 | one declaration per tool, each with a valid name; its parameters are a sanitised schema for Claude and other families, and a Gemini-clean one for Gemini |
| GoogleRequest.MaxTokensCapped | src/format-converter.js:500-502 | `maxOutputTokens` is present exactly for a truthy `max_tokens`; other families get it unchanged, and Gemini gets it clamped to GEMINI_MAX_OUTPUT_TOKENS |
| GoogleRequest.GeminiThinkingBudget | src/format-converter.js:534-543 | a Gemini thinking model gets the requested budget, or 16000 when none (or 0) is given |
| GoogleResponse.ConvertGoogleToAnthropic | src/format-converter.js:738-823 | the content is never empty; the id is `msg_` + the random hex; the model is echoed; a stop reason is always set |
| GoogleResponse.StopReasonToolUse | src/format-converter.js:790-799 | `tool_use` exactly when the finish reason is neither STOP nor MAX_TOKENS and it is TOOL_USE or the reply calls a tool; `max_tokens` exactly for MAX_TOKENS; `end_turn` exactly for STOP, or for any other finish reason (missing included) that is not TOOL_USE when the reply calls no tool |
| GoogleResponse.StopWithToolCallIsEndTurn | src/format-converter.js:793-794 | a STOP finish is `end_turn` even when the reply calls a tool |
| GoogleResponse.UsageSplitsPrompt | src/format-converter.js:804-821 | input tokens plus cached tokens equal the prompt count, and cache creation is 0 |
| GoogleResponse.CallSignatureBoundary | src/format-converter.js:781-783 | a call's part-level signature is copied onto the tool_use block exactly when it has at least MIN_SIGNATURE_LENGTH characters; a shorter or missing one is not copied |
| GoogleResponse.SkipSentinelNotEchoed | src/format-converter.js:781-783 | the skip sentinel is never echoed back as a signature |
| GoogleResponse.NoBlocksGiveEmptyText | src/format-converter.js:812 | a reply with no convertible part becomes a single empty text block |
| GoogleResponse.ToolUseIffFunctionCall | src/format-converter.js:751-788 | there is a tool_use block exactly when there is a functionCall part |
| GoogleResponse.PartsToBlocksFails | src/format-converter.js:751-788 | the conversion fails exactly when a part is null |
| GoogleResponse.ClaudeRoundTrip | src/format-converter.js:286-403 | for non-blank text, signed thinking, and tool calls with an id and input, converting blocks to Claude parts and reading them back as a response gives the blocks back |
| OpenAIRequest.SystemPromptOf | src/format/openai/request-converter.js:32-36 | `system` is present exactly when the system messages' contents, in order, joined by a blank line, are non-empty, and then it is that join; it is omitted when there are none |
| OpenAIRequest.SystemAppend | src/format/openai/request-converter.js:32-36 | a later system message adds its content after a blank line, so order is preserved |
| OpenAIRequest.MessagesAreReference | src/format/openai/request-converter.js:40-110 | the message loop equals a declarative reference: each user message comes right after the results of the tool messages since the previous user message, the results after the last user message come at the end, and assistant messages flush nothing |
| OpenAIRequest.AssistantDoesNotFlush | src/format/openai/request-converter.js:58-101 | `[tool, assistant, user]` gives the assistant turn first, then the tool result, then the user message |
| OpenAIRequest.AssistantLayout | src/format/openai/request-converter.js:58-93 | an assistant message gives its text block (only when the text is truthy), then one tool_use per call in order; with neither it is dropped |
| OpenAIRequest.ToolCallInput | src/format/openai/request-converter.js:68-88 | unparseable string arguments give `input: {}` instead of aborting; parsed text or a non-string value is used as is; a missing id gets a generated `toolu_` id |
| OpenAIRequest.ReasoningBudget | src/format/openai/request-converter.js:132-138 | low → 4096, high → 32000, medium and anything else → 10000 |
| OpenAIRequest.ThinkingFor | src/format/openai/request-converter.js:130-141 | `thinking` is set exactly for a truthy effort on a thinking model, with the mapped budget |
| OpenAIRequest.MaxTokensOf | src/format/openai/request-converter.js:146 | `max_completion_tokens`, else `max_tokens`, else 4096 (falsy values skipped); never 0 |
| OpenAIRequest.ToolChoiceOf | src/format/openai/request-converter.js:120-127 | `'none'` → none; `'auto'` or a falsy value → auto; a function object → that tool; a function object without `function` throws; any other truthy value gives no tool choice |
| OpenAIRequest.ToolChoiceOmitted | src/format/openai/request-converter.js:120-127 | no tool choice is sent exactly for a truthy value that is neither the text `none` or `auto` nor an object of kind `function` |
| OpenAIRequest.StopSequencesOf | src/format/openai/request-converter.js:156 | a non-empty string becomes a one-element list, and a list is kept |
| OpenAIRequest.ToolOf | src/format/openai/request-converter.js:113-117 | a tool without `function` throws; otherwise it keeps its function's name; a truthy description is passed through and any other becomes `''`; truthy parameters are passed through as the input schema and any other value becomes `{type: 'object'}` |
| OpenAIRequest.ConvertOpenAIToAnthropic | src/format/openai/request-converter.js:16-162 | the conversion fails exactly when the message loop fails, a tool lacks `function`, or the tool choice throws; otherwise `messages` is the declarative reference of the message loop, `tool_choice` is the mapped choice, `tools` is present exactly for a non-empty list and holds one converted declaration per tool in order, `max_tokens`, `system`, `thinking` and `stop_sequences` are the mapped values, and model, temperature, top_p and stream are passed through |
| OpenAIResponse.ChatId | src/format/openai/response-converter.js:18 | a leading `msg_` becomes `chatcmpl-`; any other id is unchanged |
| OpenAIResponse.MessageContents | src/format/openai/response-converter.js:21-53 | `content` is the text blocks' texts concatenated, or null when there is none; `reasoning_content` exists exactly when a thinking block does and concatenates them; `tool_calls` exists exactly when a tool_use block does and holds one call per block in order |
| OpenAIResponse.FinishReasonRule | src/format/openai/response-converter.js:57-68 | `tool_calls` exactly when a tool_use block exists or the stop reason is `tool_use`; otherwise `length` exactly for `max_tokens`, and `stop` for every other reason (`end_turn`, `stop_sequence`, unmapped or missing); never anything else |
| OpenAIResponse.ChatUsageOf | src/format/openai/response-converter.js:82-86 | prompt tokens are the input tokens plus the cache-read tokens when those are truthy, and the input tokens alone otherwise; completion is the output tokens; the total is prompt + completion |
| StreamAdapter.DoneExactlyAtEnd | src/format/openai/stream-adapter.js:125-137 | without an error the output ends with exactly one `[DONE]`, after every chunk, whether or not `message_stop` occurred; with an error (from the source or the adapter) no `[DONE]` is yielded |
| StreamAdapter.RoleAtMostOnce | src/format/openai/stream-adapter.js:26-37 | the role chunk is yielded once if a `message_start` occurs, and never otherwise |
| StreamAdapter.ToolIndicesCount | src/format/openai/stream-adapter.js:21-63 | the tool-call start chunks carry 0, 1, 2, … in order, one per tool_use block start |
| StreamAdapter.ToolStartChunk | src/format/openai/stream-adapter.js:46-63 | the k-th tool_use start yields index k with its id and name |
| StreamAdapter.ArgumentsChunkIndex | src/format/openai/stream-adapter.js:83-93 | an `input_json_delta` carries the index of the most recently started tool call, −1 when none has started |
| StreamAdapter.TextAndThinkingDeltas | src/format/openai/stream-adapter.js:69-81 | `thinking_delta` streams as `reasoning_content`, and `text_delta` as `content` |
| StreamAdapter.SilentEvents | src/format/openai/stream-adapter.js:96-98 | content_block_stop, message_stop, unknown events, unknown deltas and non-tool block starts yield nothing |
| StreamAdapter.MessageDeltaChunk | src/format/openai/stream-adapter.js:100-122 | a message_delta yields one chunk with an empty delta, the mapped finish reason, and usage whose prompt tokens come from the last message_start, whose completion tokens come from the last message_delta with usage, and whose total is their sum |
| StreamAdapter.SharedEnvelope | src/format/openai/stream-adapter.js:151-171 | every chunk shares one id, one creation time and one model, and carries usage exactly when its delta is empty, which only a message_delta produces |
| StreamAdapter.RunDescribed | src/format/openai/stream-adapter.js:16-129 | every error-free prefix of the fold matches the declarative description of its variables |
| ErrorFormatter.ClassifyIsFirstMatch | src/format/openai/error-formatter.js:19-76 | the if/else-if chain is the first-match rule over auth, rate-limit, invalid-argument, permission, unavailable, no-accounts |
| ErrorFormatter.FirstRuleWins | src/format/openai/error-formatter.js:19-76 | a class is chosen exactly when its markers occur and no earlier rule's do |
| ErrorFormatter.ParseErrorOpenAI | src/format/openai/error-formatter.js:14-88 | the status is always one of 400, 401, 403, 429, 500, 503 |
| ErrorFormatter.UnmatchedIsInternal | src/format/openai/error-formatter.js:15-17 | unmatched text gives 500 `api_error` carrying the original message |
| ErrorFormatter.FixedReplies | src/format/openai/error-formatter.js:20-24 | auth → 401 with the fixed message; unavailable → 503 with the fixed message; no accounts → 400 with the original message |
| ErrorFormatter.RateLimitMentions | src/format/openai/error-formatter.js:27-40 | 429 `rate_limit_exceeded`; the message names the extracted model, else "the model", and ends with the reset duration exactly when one was extracted |
| ErrorFormatter.PermissionMessage | src/format/openai/error-formatter.js:56-62 | 403; the message is replaced only when the text contains `VALIDATION_REQUIRED` |
| ErrorFormatter.InvalidArgumentMessage | src/format/openai/error-formatter.js:44-53 | 400; the embedded `"message"` replaces the text only when one is present |
| Session.DeriveSessionId | src/cloudcode/session-manager.js:20-53 | derivation fails exactly when extracting the deciding text throws |
| Session.SessionTextSound | src/cloudcode/session-manager.js:24-49 | a found text comes from the first user message with non-empty text; none is found exactly when no user message has text |
| Session.DecidingMessage | src/cloudcode/session-manager.js:24-49 | the first user message with text decides, whatever follows it |
| Session.AppendedTurnsKeepSession | src/cloudcode/session-manager.js:24-49 | appending messages never changes a found session text |
| Session.BlockTextNonEmpty | src/cloudcode/session-manager.js:28-36 | block content yields text exactly when some text block has non-empty text |
| Session.Salted | src/cloudcode/session-manager.js:42 | with a truthy email the hashed input is `email + ':' + text`, and otherwise the text alone |
| Session.SaltSeparatesAccounts | src/cloudcode/session-manager.js:42 | the same text salted for two different accounts (or for an account and for none) gives different hash inputs |
| Session.StableSessionId | src/cloudcode/session-manager.js:45-46 | the id is the first 32 characters of the digest of the salted text; it is stable under appended turns and independent of the fallback |
| Session.FallbackOnlyWithoutText | src/cloudcode/session-manager.js:52 | the random fallback is used exactly when no user message has text |
| DirectAuth.RefreshTokenShape | src/cloudcode/direct-auth.js:22-31 | a refresh token is a string of more than 100 characters, all from `[A-Za-z0-9-_.]` |
| DirectAuth.HundredCharactersRejected | src/cloudcode/direct-auth.js:30 | 100 characters or fewer is never a refresh token |
| DirectAuth.HashToken | src/cloudcode/direct-auth.js:99-107 | the hash always lies in the signed 32-bit range |
| DirectAuth.HashStepIsTimes31 | src/cloudcode/direct-auth.js:104-105 | the shift-and-subtract step is multiplication by 31 plus the character code, in 32-bit arithmetic |
| DirectAuth.CollidingTokens | src/cloudcode/direct-auth.js:99-107 | tokens that differ only by `Aa` against `BB` get the same cache key |
| DirectAuth.Authenticate | src/cloudcode/direct-auth.js:39-92 | a non-string or empty token is rejected with the cache untouched; no other key than the token's hash ever changes |
| DirectAuth.HitServesEntry | src/cloudcode/direct-auth.js:44-54 | a fresh entry is returned unchanged, the cache is untouched, and refresh and discovery are never consulted |
| DirectAuth.ExpiredAtTtl | src/cloudcode/direct-auth.js:47 | freshness is strict: an entry exactly TTL old is not a hit |
| DirectAuth.MissStoresOneEntry | src/cloudcode/direct-auth.js:56-84 | on a miss, success adds exactly one entry, under the hashed key, stamped with the store time |
| DirectAuth.FailureEvicts | src/cloudcode/direct-auth.js:85-91 | on a miss, any failure (a missing project included) deletes the key and is reported with the `Direct authentication failed: ` prefix |
| DirectAuth.FetchSucceeds | src/cloudcode/direct-auth.js:59-68 | fetching succeeds exactly when refresh and discovery do and a project is found |
| DirectAuth.StoredThenServed | src/cloudcode/direct-auth.js:45-76 | a token authenticated at time t is served from the cache until TTL has passed |
| DirectAuth.ClearCache | src/cloudcode/direct-auth.js:114-117 | after clearing, no lookup is a hit |
| DirectAuth.AsWrittenServesOtherToken | src/cloudcode/direct-auth.js:45-54 | as written, right after `Aa` authenticates, `BB` receives `Aa`'s access token |
| DirectAuth.IsolatedIgnoresOtherTokens | src/cloudcode/direct-auth.js:45-54 | with a lookup that also checks the owner, entries stored for other tokens never change a token's answer |

## Left out

- Network, OAuth and crypto: `refreshAccessToken`, `discoverProject`, SHA-256, `randomUUID` and `randomBytes` are function parameters. Their behaviour is not modelled.
- Module-global state: the `directAuthCache` map is an explicit state value passed in and returned.
- Clock: `Date.now` is a parameter. The TTL is a parameter too, because `TOKEN_REFRESH_INTERVAL_MS` lives in `src/constants.js`, which is not part of this model.
- `getModelFamily` and `isThinkingModel` are uninterpreted parameters for the same reason.
- `JSON.parse` / `JSON.stringify` are parameters (`string → Option<Json>` and `Option<Json> → Option<string>`).
- The error-message regular expressions are abstracted as three `Option<string>` extractors. Their pattern syntax is not modelled.
- DirectAuth.HashToken: it stops before `hash.toString(36)`. Base-36 rendering is injective, so it neither creates nor removes key collisions.
- DirectAuth.HashToken: it reads each Dafny `char` as one code unit. Characters outside the Basic Multilingual Plane count as two UTF-16 units in JS.
- Logging (`console.log`, `logger`) has no effect on results and is left out.
- Async-generator suspension and cancellation are left out. The stream is a finite event list plus an optional error raised by the source after it.
- Floating-point generation parameters (`temperature`, `top_p`, `top_k`) are opaque JSON values that are passed through.
- Object key order of Google parts and other output objects is not modelled; only the fields are. Schemas are the exception: they keep insertion order.
- Integer-like property names in schemas: `Object.entries` in `sanitizeSchema` and `cleanSchemaForGemini` lists keys such as `"0"` or `"12"` first, in ascending numeric order, and only then the other keys in insertion order. The model keeps every key in insertion order, so for a schema whose `properties` has integer-like names its key order can differ from the source's. The keys and their values are the same, and `required` arrays keep their own order in both.
- Property names inherited from `Object.prototype` (`constructor`, `toString`, ...) are not modelled as lookup keys in `budgetMap` and `finishReasonMap`. There they would yield a truthy non-number or non-string.
- GoogleParts.SanitizeThinkingPart: it is the identity, because a modelled thought part has exactly the fields the sanitiser keeps.
- A Google response part that carries both `text` and `functionCall` is not representable. In the source the text wins.
- OpenAI assistant messages with array `content` are left out. The source wraps such content in a text block unchanged.
- StreamAdapter.MessageDeltaChunk: it does not model a `message_delta` whose `usage` lacks `output_tokens`. The source then stores `undefined` and reports a `NaN` total.
- GoogleResponse.UsageSplitsPrompt: the input count can go negative when the cached count exceeds the prompt count, as in the source. No bound is stated.
- ThinkingBlocks.NormalizeIdempotent: it is stated only for content whose thinking-like entries are `type: 'thinking'` blocks. For redacted_thinking the pipeline is not idempotent (`ThinkingBlocks.NormalizeNotIdempotent`).
- `filterUnsignedThinkingBlocks` on null or non-object contents and on contents without a `parts` array is left out. The converter never produces such contents.
- GoogleRequest.NormalizeToolName: it treats each Dafny `char` as one character. The source's regular expression has no `u` flag and `.slice(0, 64)` counts UTF-16 code units, so a character outside the Basic Multilingual Plane becomes two `_` there (`"a😀"` gives `"a__"` in JS and `"a_"` here), and the 64-unit cut can fall inside such a pair. The contract holds for names made of BMP characters only.
- Anthropic.HasValidSignature, Anthropic.Signed: the signature length test counts Dafny `char`s, while `.length` in the source counts UTF-16 code units. A signature with non-BMP characters can pass the source's test at fewer than 50 characters. `ThinkingBlocks.RestoreSignatureBoundary`, `GoogleResponse.CallSignatureBoundary`, `GoogleParts.KeptByFilterMeans` and `GoogleParts.ThinkingParts` inherit this. Real signatures are base64 text, where the two counts agree.
- DirectAuth.Authenticate: each call is modelled as one atomic transition on the cache. The source awaits the refresh and discovery calls between its cache lookup and its store or delete, so concurrent calls for the same key can interleave there. For example, a failing call can evict an entry a concurrent call has just stored. Such interleavings are not modelled.
- Null entries outside content arrays: messages, tool declarations, OpenAI tool calls and stream events are always objects in the model. On a null entry the source throws a `TypeError`. Examples are `msg.content` (src/format-converter.js:474), `tool.name` (src/format-converter.js:550), `m.role`, `tc.id` and `t.function` (src/format/openai/request-converter.js:32, 83, 114), `msg.role` (src/cloudcode/session-manager.js:25) and `event.type` (src/format/openai/stream-adapter.js:30). No contract speaks about such inputs.
- Non-object primitives in content arrays: an entry is a block object or `Absent` (null). A `0`, `false` or a string entry cannot be represented. The source does not throw on these; for example `filterContentArray` passes them through unchanged (src/format-converter.js:76-79).
- OpenAIResponse.ChatUsageOf, StreamAdapter.MessageDeltaChunk: `input_tokens` is always a number in the model. A usage without `input_tokens` gives a `NaN` `prompt_tokens` and total in the source (src/format/openai/response-converter.js:83-85, src/format/openai/stream-adapter.js:42); that case is not modelled.
- HTTP integration tests and `src/format/openai/index.js` (re-exports only) are left out.

## Findings

| source | as written | input that shows it | evidently intended | confidence | as-written member | corrected member |
|---|---|---|---|---|---|---|
| src/cloudcode/direct-auth.js:45-54, 99-107 | The cache is keyed only by the 32-bit `hashToken`. A hit does not check that the entry was stored for the same refresh token. | Authenticate with refresh token `Aa`, then with `BB` within the TTL. Both hash to 2112, so `BB` is answered with `Aa`'s access token and project. The same holds for any pair of tokens that differ by `Aa` against `BB`. | The code comment calls the key one "for cache isolation": a token should only be answered from an entry stored for that same token. | not executed | DirectAuth.BuildDirectAuth, DirectAuth.AsWrittenServesOtherToken | DirectAuth.BuildDirectAuthIsolated, DirectAuth.IsolatedIgnoresOtherTokens |

=== FILE: anthropic.dfy ===
/**
 * The canonical (Anthropic Messages) data model every converter starts from or
 * ends in: content blocks, messages, requests and responses, together with the
 * duck-typed "thinking" tests of src/format-converter.js, which are defined once
 * here over a `View` of the properties they read.
 */
module Anthropic {
  import opened Wrappers
  import opened Js

  /** MIN_SIGNATURE_LENGTH of src/constants.js (not part of this model): 50. */
  const MinSignatureLength: nat := 50

  /** The `type` tags that have their own `Block` variant. */
  const KnownTags: set<string> :=
    {"text", "image", "document", "tool_use", "tool_result", "thinking", "redacted_thinking"}

  /** The `type` of a block that has no variant of its own (missing, or an unknown tag). */
  type OtherTag = t: Option<string> | t.None? || t.value !in KnownTags witness None

  /** Incidental properties a caller may attach to a block (`cache_control`, `thought`, ...). */
  type Extra = map<string, Json>

  /** The `source` of an image or document block. */
  datatype Source = Source(kind: Option<string>, mediaType: Option<string>, data: Option<string>, url: Option<string>)

  /**
   * One entry of a content array. `Absent` is a `null`/`undefined` entry; every
   * object variant carries the properties legal for its tag plus `extra`.
   */
  datatype Block =
    | Absent
    | Text(text: Option<string>, extra: Extra)
    | Image(source: Option<Source>, extra: Extra)
    | Document(source: Option<Source>, extra: Extra)
    | ToolUse(id: Option<string>, name: Option<string>, input: Option<Json>, thoughtSignature: Option<string>, extra: Extra)
    | ToolResult(toolUseId: Option<string>, content: Content, extra: Extra)
    | Thinking(thinking: Option<string>, signature: Option<string>, extra: Extra)
    | RedactedThinking(data: Option<string>, extra: Extra)
    | Other(tag: OtherTag, extra: Extra)
  {
    /** The properties the thinking tests read from this block. */
    function AsView(): View
      requires !Absent?
    {
      var thought := "thought" in extra && extra["thought"] == JBool(true);
      match this
      case Thinking(t, s, _) => View(Some("thinking"), t.Some?, thought, MapStr(s), Prop(extra, "thoughtSignature"))
      case RedactedThinking(_, _) => View(Some("redacted_thinking"), "thinking" in extra, thought, Prop(extra, "signature"), Prop(extra, "thoughtSignature"))
      case ToolUse(_, _, _, ts, _) => View(Some("tool_use"), "thinking" in extra, thought, Prop(extra, "signature"), MapStr(ts))
      case Text(_, _) => View(Some("text"), "thinking" in extra, thought, Prop(extra, "signature"), Prop(extra, "thoughtSignature"))
      case Image(_, _) => View(Some("image"), "thinking" in extra, thought, Prop(extra, "signature"), Prop(extra, "thoughtSignature"))
      case Document(_, _) => View(Some("document"), "thinking" in extra, thought, Prop(extra, "signature"), Prop(extra, "thoughtSignature"))
      case ToolResult(_, _, _) => View(Some("tool_result"), "thinking" in extra, thought, Prop(extra, "signature"), Prop(extra, "thoughtSignature"))
      case Other(tag, _) => View(tag, "thinking" in extra, thought, Prop(extra, "signature"), Prop(extra, "thoughtSignature"))
    }
  }

  /** A message's `content`: a string, a block array, a plain object, `null` or `undefined`. */
  datatype Content =
    | StrContent(s: string)
    | BlockContent(blocks: seq<Block>)
    | ObjectContent(fields: seq<(string, Json)>)
    | NullContent
    | UndefinedContent

  datatype Message = Message(role: string, content: Content)

  function Prop(extra: Extra, k: string): Option<Json> {
    if k in extra then Some(extra[k]) else None
  }

  function MapStr(s: Option<string>): Option<Json> {
    if s.Some? then Some(JStr(s.value)) else None
  }

  /**
   * What `isThinkingPart` and `hasValidSignature` read from an object: its `type`,
   * whether `thinking` is defined, whether `thought` is exactly true, and the two signature
   * properties.
   */
  datatype View = View(tag: Option<string>, hasThinking: bool, thought: bool, signature: Option<Json>, thoughtSignature: Option<Json>)

  /** isThinkingPart (src/format-converter.js:31-36). */
  predicate IsThinkingPart(v: View) {
    v.tag == Some("thinking") || v.tag == Some("redacted_thinking") || v.hasThinking || v.thought
  }

  /** hasValidSignature (src/format-converter.js:41-44): a string of at least the minimum length. */
  predicate HasValidSignature(v: View) {
    var sig := if v.thought then v.thoughtSignature else v.signature;
    sig.Some? && sig.value.JStr? && |sig.value.s| >= MinSignatureLength
  }

  /** A possibly-missing signature that is non-empty and at least the minimum length. */
  predicate Signed(sig: Option<string>) {
    TruthyString(sig) && |sig.value| >= MinSignatureLength
  }

  /** Whether the content has a null entry, on which reading `type` throws. */
  predicate HasNullBlock(bs: seq<Block>) {
    exists i :: 0 <= i < |bs| && bs[i].Absent?
  }

  /** Whether some block is a tool_use. */
  predicate HasToolUse(bs: seq<Block>) {
    exists i :: 0 <= i < |bs| && bs[i].ToolUse?
  }

  // ---------------------------------------------------------------------------
  // Requests
  // ---------------------------------------------------------------------------

  /** The `system` field: absent, a string, a block array, or some other truthy value. */
  datatype SystemPrompt = NoSystem | SystemText(text: string) | SystemBlocks(blocks: seq<Block>) | SystemObject

  /** `function` / `custom` sub-objects of a tool declaration. */
  datatype FunctionSpec = FunctionSpec(name: Option<string>, description: Option<string>, inputSchema: Option<Json>, parameters: Option<Json>)

  /** A tool declaration in any of the shapes clients send. */
  datatype Tool = Tool(
    name: Option<string>,
    description: Option<string>,
    inputSchema: Option<Json>,
    functionSpec: Option<FunctionSpec>,
    custom: Option<FunctionSpec>,
    parameters: Option<Json>)

  datatype ToolChoice = ChooseAuto | ChooseNone | ChooseTool(name: Option<string>)

  /** The `thinking` field: `{budget_tokens}`. */
  datatype ThinkingParam = ThinkingParam(budgetTokens: Option<int>)

  /** A Messages API request; floating-point generation parameters are opaque JSON values. */
  datatype Request = Request(
    model: Option<string>,
    messages: seq<Message>,
    system: SystemPrompt,
    maxTokens: Option<int>,
    temperature: Option<Json>,
    topP: Option<Json>,
    topK: Option<Json>,
    stopSequences: Option<seq<string>>,
    tools: Option<seq<Tool>>,
    toolChoice: Option<ToolChoice>,
    thinking: Option<ThinkingParam>,
    stream: Option<bool>)

  // ---------------------------------------------------------------------------
  // Responses
  // ---------------------------------------------------------------------------

  datatype Usage = Usage(inputTokens: int, outputTokens: int, cacheReadInputTokens: Option<int>, cacheCreationInputTokens: Option<int>)

  /** A Messages API response (`type: 'message'`, `role: 'assistant'`, `stop_sequence: null`). */
  datatype Response = Response(id: string, model: string, content: seq<Block>, stopReason: Option<string>, usage: Usage)
}

=== FILE: direct_auth.dfy ===
/**
 * The pure parts of direct refresh-token authentication (src/cloudcode/direct-auth.js):
 * the refresh-token heuristic, the 32-bit string hash that keys the cache, and the cache
 * rule of buildDirectAuth as an explicit state transition.
 *
 * The module-global `Map` is the `Cache` value passed in and returned; the OAuth refresh
 * and the project discovery are the parameters `refresh` and `discover`; the two clock
 * readings are `now` (the freshness test) and `storedAt` (the new entry's `cachedAt`);
 * TOKEN_REFRESH_INTERVAL_MS is the parameter `ttl`.
 */
module DirectAuth {
  import opened Wrappers
  import opened Js

  // ---------------------------------------------------------------------------
  // isRefreshToken (direct-auth.js:22-31)
  // ---------------------------------------------------------------------------

  /** `[A-Za-z0-9\-_\.]`. */
  predicate TokenChar(c: char) {
    ('A' <= c <= 'Z') || ('a' <= c <= 'z') || ('0' <= c <= '9') || c == '-' || c == '_' || c == '.'
  }

  /** The regular-expression test, one character at a time. */
  function AllTokenChars(s: string): (r: bool)
    ensures r <==> forall i :: 0 <= i < |s| ==> TokenChar(s[i])
  {
    if s == [] then true
    else TokenChar(s[0]) && AllTokenChars(s[1..])
  }

  /** `token` is `None` when it is not a string. */
  function IsRefreshToken(token: Option<string>): (r: bool)
    ensures r ==> TruthyString(token)
  {
    if !TruthyString(token) then false
    else |token.value| > 100 && AllTokenChars(token.value)
  }

  /** A refresh token is more than 100 characters, all from the OAuth alphabet. */
  lemma RefreshTokenShape(token: Option<string>)
    ensures IsRefreshToken(token) <==>
      token.Some? && |token.value| > 100 && forall i :: 0 <= i < |token.value| ==> TokenChar(token.value[i])
  {
  }

  /** Exactly 100 characters is not enough, and an `sk-` style key of at most 100 characters never is one. */
  lemma HundredCharactersRejected(s: string)
    requires |s| <= 100
    ensures !IsRefreshToken(Some(s))
  {
  }

  // ---------------------------------------------------------------------------
  // hashToken (direct-auth.js:99-108)
  // ---------------------------------------------------------------------------

  const TwoTo31: int := 0x8000_0000
  const TwoTo32: int := 0x1_0000_0000

  predicate IsInt32(x: int) {
    -TwoTo31 <= x < TwoTo31
  }

  /** ECMAScript ToInt32: the value modulo 2^32, read as a signed 32-bit integer. */
  function ToInt32(x: int): (r: int)
    ensures IsInt32(r)
    ensures (r - x) % TwoTo32 == 0
  {
    (x + TwoTo31) % TwoTo32 - TwoTo31
  }

  /** One loop step: shift left by five, subtract the old hash, add the character code, wrapping to 32 bits after each operation. */
  function HashStep(h: int, c: char): int {
    ToInt32(ToInt32(h * 32) - h + c as int)
  }

  /** hashToken before the base-36 rendering, over the characters from the left. */
  function HashToken(s: string): (r: int)
    ensures IsInt32(r)
  {
    if s == [] then 0 else HashStep(HashToken(s[..|s| - 1]), s[|s| - 1])
  }

  /** Two integers congruent modulo 2^32 have the same ToInt32. */
  lemma ToInt32Congruent(x: int, y: int)
    requires (x - y) % TwoTo32 == 0
    ensures ToInt32(x) == ToInt32(y)
  {
    var k := (x - y) / TwoTo32;
    assert x == y + k * TwoTo32;
    assert (x + TwoTo31) == (y + TwoTo31) + k * TwoTo32;
    ShiftMod(y + TwoTo31, k);
  }

  lemma ShiftMod(a: int, k: int)
    ensures (a + k * TwoTo32) % TwoTo32 == a % TwoTo32
  {
    var q := a / TwoTo32;
    var r := a % TwoTo32;
    assert a + k * TwoTo32 == (q + k) * TwoTo32 + r;
  }

  /** The shift-and-subtract step is multiplication by 31 in 32-bit arithmetic. */
  lemma HashStepIsTimes31(h: int, c: char)
    ensures HashStep(h, c) == ToInt32(31 * h + c as int)
  {
    var s := ToInt32(h * 32);
    assert (s - h * 32) % TwoTo32 == 0;
    assert (s - h + c as int) - (31 * h + c as int) == s - h * 32;
    ToInt32Congruent(s - h + c as int, 31 * h + c as int);
  }

  /** The hash of a non-empty string is one step from the hash of its prefix. */
  lemma HashSnoc(a: string, c: char)
    ensures HashToken(a + [c]) == HashStep(HashToken(a), c)
  {
    assert (a + [c])[..|a + [c]| - 1] == a;
    assert (a + [c])[|a + [c]| - 1] == c;
  }

  /** Equal hashes stay equal under a common suffix. */
  lemma {:induction false} HashSuffix(a: string, b: string, q: string)
    requires HashToken(a) == HashToken(b)
    ensures HashToken(a + q) == HashToken(b + q)
  {
    if q != [] {
      var p := q[..|q| - 1];
      var c := q[|q| - 1];
      assert q == p + [c];
      HashSuffix(a, b, p);
      assert a + q == (a + p) + [c];
      assert b + q == (b + p) + [c];
      HashSnoc(a + p, c);
      HashSnoc(b + p, c);
    } else {
      assert a + q == a && b + q == b;
    }
  }

  /** "Aa" and "BB" hash alike: 31 * 65 + 97 == 31 * 66 + 66 == 2112. */
  lemma AaBbCollide()
    ensures HashToken("Aa") == 2112 && HashToken("BB") == 2112
  {
    assert "Aa"[..1] == "A" && "BB"[..1] == "B";
    assert "A"[..0] == "" && "B"[..0] == "";
    assert HashToken("A") == 65 by { HashStepIsTimes31(0, 'A'); }
    assert HashToken("B") == 66 by { HashStepIsTimes31(0, 'B'); }
    HashStepIsTimes31(65, 'a');
    HashStepIsTimes31(66, 'B');
  }

  /** Any two tokens that differ only by "Aa" against "BB" share a cache key. */
  lemma CollidingTokens(p: string, q: string)
    ensures HashToken(p + "Aa" + q) == HashToken(p + "BB" + q)
  {
    HashPrefixedAaBb(p);
    HashSuffix(p + "Aa", p + "BB", q);
  }

  /** After any common prefix, "Aa" and "BB" lead to the same hash. */
  lemma HashPrefixedAaBb(p: string)
    ensures HashToken(p + "Aa") == HashToken(p + "BB")
  {
    assert p + "Aa" == p + ['A', 'a'];
    assert p + "BB" == p + ['B', 'B'];
    HashTwo(p, 'A', 'a');
    HashTwo(p, 'B', 'B');
  }

  /** Two steps multiply the prefix's hash by 31 * 31, in 32-bit arithmetic. */
  lemma HashTwo(p: string, c1: char, c2: char)
    ensures HashToken(p + [c1, c2]) == ToInt32(961 * HashToken(p) + 31 * (c1 as int) + c2 as int)
  {
    assert p + [c1, c2] == (p + [c1]) + [c2];
    HashSnoc(p, c1);
    HashSnoc(p + [c1], c2);
    HashStepIsTimes31(HashToken(p), c1);
    HashStepIsTimes31(HashToken(p + [c1]), c2);
    Wrap31(HashToken(p), c1 as int, c2 as int);
  }

  lemma Wrap31(h: int, a: int, b: int)
    ensures ToInt32(31 * ToInt32(31 * h + a) + b) == ToInt32(961 * h + 31 * a + b)
  {
    var t := ToInt32(31 * h + a);
    MultipleMod(t - (31 * h + a), 31);
    assert (31 * t + b) - (961 * h + 31 * a + b) == 31 * (t - (31 * h + a));
    ToInt32Congruent(31 * t + b, 961 * h + 31 * a + b);
  }

  lemma MultipleMod(d: int, m: int)
    requires d % TwoTo32 == 0
    ensures (m * d) % TwoTo32 == 0
  {
    var k := d / TwoTo32;
    assert m * d == (m * k) * TwoTo32;
  }

  // ---------------------------------------------------------------------------
  // buildDirectAuth (direct-auth.js:39-92) and clearDirectAuthCache (114-117)
  // ---------------------------------------------------------------------------

  const InvalidTokenMessage: string := "Invalid refresh token: must be a non-empty string"
  const FailurePrefix: string := "Direct authentication failed: "
  const NoProjectMessage: string := "Failed to discover project ID"

  /** What discoverProject resolves to. */
  datatype Discovery = Discovery(project: Option<string>, subscription: Option<Json>)

  /** What buildDirectAuth returns. */
  datatype AuthData = AuthData(accessToken: string, projectId: string, subscription: Option<Json>)

  /**
   * A cache entry. `owner` is the refresh token the entry was stored for; the source does
   * not keep it, and only the corrected lookup (`isolated`) reads it.
   */
  datatype Entry = Entry(accessToken: string, projectId: string, subscription: Option<Json>, cachedAt: int, owner: string)

  type Cache = map<int, Entry>

  datatype Outcome = Outcome(cache: Cache, result: Result<AuthData>)

  function DataOf(e: Entry): AuthData {
    AuthData(e.accessToken, e.projectId, e.subscription)
  }

  /** Whether the lookup for `token` is served from the cache. */
  predicate IsHit(cache: Cache, token: string, now: int, ttl: int, isolated: bool) {
    var key := HashToken(token);
    && key in cache
    && (!isolated || cache[key].owner == token)
    && now - cache[key].cachedAt < ttl
  }

  /** The refresh-then-discover path; `Err` carries the thrown error's message. */
  function Fetch(token: string, refresh: string -> Result<string>, discover: string -> Result<Discovery>): Result<AuthData> {
    var accessToken :- refresh(token);
    var found :- discover(accessToken);
    if !TruthyString(found.project) then Err(NoProjectMessage)
    else Ok(AuthData(accessToken, found.project.value, found.subscription))
  }

  /**
   * buildDirectAuth as a transition on the cache. With `isolated` false it is the source
   * as written (a hit needs only an entry under the token's hash); with `isolated` true
   * a hit also needs the entry to have been stored for the same token.
   */
  function Authenticate(
    cache: Cache, token: Option<string>, now: int, storedAt: int, ttl: int,
    refresh: string -> Result<string>, discover: string -> Result<Discovery>, isolated: bool): (o: Outcome)
    ensures !TruthyString(token) ==> o == Outcome(cache, Err(InvalidTokenMessage))
    ensures TruthyString(token) ==>
      forall k :: k != HashToken(token.value) ==> (k in o.cache <==> k in cache) && (k in cache ==> o.cache[k] == cache[k])
  {
    if !TruthyString(token) then Outcome(cache, Err(InvalidTokenMessage))
    else
      var t := token.value;
      var key := HashToken(t);
      if IsHit(cache, t, now, ttl, isolated) then Outcome(cache, Ok(DataOf(cache[key])))
      else match Fetch(t, refresh, discover)
        case Ok(d) => Outcome(cache[key := Entry(d.accessToken, d.projectId, d.subscription, storedAt, t)], Ok(d))
        case Err(msg) => Outcome(cache - {key}, Err(FailurePrefix + msg))
  }

  /** buildDirectAuth as written (direct-auth.js:39-92). */
  function BuildDirectAuth(
    cache: Cache, token: Option<string>, now: int, storedAt: int, ttl: int,
    refresh: string -> Result<string>, discover: string -> Result<Discovery>): (o: Outcome)
    ensures !TruthyString(token) ==> o.cache == cache && o.result.Err?
  {
    Authenticate(cache, token, now, storedAt, ttl, refresh, discover, false)
  }

  /** buildDirectAuth with a lookup that only serves entries stored for the same token. */
  function BuildDirectAuthIsolated(
    cache: Cache, token: Option<string>, now: int, storedAt: int, ttl: int,
    refresh: string -> Result<string>, discover: string -> Result<Discovery>): (o: Outcome)
    ensures !TruthyString(token) ==> o.cache == cache && o.result.Err?
  {
    Authenticate(cache, token, now, storedAt, ttl, refresh, discover, true)
  }

  /** clearDirectAuthCache. */
  function ClearCache(cache: Cache): (r: Cache)
    ensures forall t, now, ttl, isolated :: !IsHit(r, t, now, ttl, isolated)
  {
    map[]
  }

  // ---------------------------------------------------------------------------
  // Properties of the cache rule
  // ---------------------------------------------------------------------------

  /**
   * A fresh entry under the token's hash is returned unchanged, the cache is untouched,
   * and neither the refresh nor the discovery is consulted.
   */
  lemma HitServesEntry(
    cache: Cache, t: string, now: int, storedAt: int, ttl: int,
    refresh: string -> Result<string>, discover: string -> Result<Discovery>,
    refresh2: string -> Result<string>, discover2: string -> Result<Discovery>, isolated: bool)
    requires t != "" && IsHit(cache, t, now, ttl, isolated)
    ensures var o := Authenticate(cache, Some(t), now, storedAt, ttl, refresh, discover, isolated);
      && o.cache == cache
      && o.result == Ok(AuthData(cache[HashToken(t)].accessToken, cache[HashToken(t)].projectId, cache[HashToken(t)].subscription))
      && o == Authenticate(cache, Some(t), now, storedAt, ttl, refresh2, discover2, isolated)
  {
  }

  /** Freshness is strict: an entry exactly `ttl` old is refreshed. */
  lemma ExpiredAtTtl(cache: Cache, t: string, ttl: int, isolated: bool)
    requires HashToken(t) in cache
    ensures !IsHit(cache, t, cache[HashToken(t)].cachedAt + ttl, ttl, isolated)
  {
  }

  /** On a miss, success stores exactly one entry, under the hashed key, stamped `storedAt`. */
  lemma MissStoresOneEntry(
    cache: Cache, t: string, now: int, storedAt: int, ttl: int,
    refresh: string -> Result<string>, discover: string -> Result<Discovery>, isolated: bool)
    requires t != "" && !IsHit(cache, t, now, ttl, isolated)
    requires Fetch(t, refresh, discover).Ok?
    ensures var o := Authenticate(cache, Some(t), now, storedAt, ttl, refresh, discover, isolated);
      var d := Fetch(t, refresh, discover).value;
      && o.result == Ok(d)
      && o.cache.Keys == cache.Keys + {HashToken(t)}
      && DataOf(o.cache[HashToken(t)]) == d && o.cache[HashToken(t)].cachedAt == storedAt
  {
  }

  /** On a miss, any failure, a missing project included, evicts the key and is reported with the prefix. */
  lemma FailureEvicts(
    cache: Cache, t: string, now: int, storedAt: int, ttl: int,
    refresh: string -> Result<string>, discover: string -> Result<Discovery>, isolated: bool)
    requires t != "" && !IsHit(cache, t, now, ttl, isolated)
    requires Fetch(t, refresh, discover).Err?
    ensures var o := Authenticate(cache, Some(t), now, storedAt, ttl, refresh, discover, isolated);
      && o.cache == cache - {HashToken(t)}
      && o.result.Err? && StartsWith(o.result.message, FailurePrefix)
  {
    var o := Authenticate(cache, Some(t), now, storedAt, ttl, refresh, discover, isolated);
    assert o.result.message == FailurePrefix + Fetch(t, refresh, discover).message;
  }

  /** The fetch succeeds exactly when the refresh and the discovery do and a project was found. */
  lemma FetchSucceeds(t: string, refresh: string -> Result<string>, discover: string -> Result<Discovery>)
    ensures Fetch(t, refresh, discover).Ok? <==>
      refresh(t).Ok? && discover(refresh(t).value).Ok? && TruthyString(discover(refresh(t).value).value.project)
    ensures refresh(t).Ok? && discover(refresh(t).value).Ok? && discover(refresh(t).value).value.project == Some("") ==>
      Fetch(t, refresh, discover) == Err(NoProjectMessage)
  {
  }

  /** A token authenticated at `storedAt` is served from the cache until `ttl` has passed. */
  lemma StoredThenServed(
    cache: Cache, t: string, now: int, storedAt: int, later: int, ttl: int,
    refresh: string -> Result<string>, discover: string -> Result<Discovery>,
    refresh2: string -> Result<string>, discover2: string -> Result<Discovery>, isolated: bool)
    requires t != "" && !IsHit(cache, t, now, ttl, isolated)
    requires Fetch(t, refresh, discover).Ok?
    requires later - storedAt < ttl
    ensures var o := Authenticate(cache, Some(t), now, storedAt, ttl, refresh, discover, isolated);
      var o2 := Authenticate(o.cache, Some(t), later, later, ttl, refresh2, discover2, isolated);
      o2 == Outcome(o.cache, o.result)
  {
    var o := Authenticate(cache, Some(t), now, storedAt, ttl, refresh, discover, isolated);
    assert IsHit(o.cache, t, later, ttl, isolated);
  }

  // ---------------------------------------------------------------------------
  // Cache isolation: the colliding hash, as written and corrected
  // ---------------------------------------------------------------------------

  /** The entries stored for `t`. */
  function OwnedBy(cache: Cache, t: string): (r: Cache)
    ensures forall k :: k in r <==> k in cache && cache[k].owner == t
  {
    map k | k in cache && cache[k].owner == t :: cache[k]
  }

  /** With the corrected lookup, entries stored for other tokens never change a token's answer. */
  lemma IsolatedIgnoresOtherTokens(
    cache: Cache, t: string, now: int, storedAt: int, ttl: int,
    refresh: string -> Result<string>, discover: string -> Result<Discovery>)
    requires t != ""
    ensures BuildDirectAuthIsolated(cache, Some(t), now, storedAt, ttl, refresh, discover).result
         == BuildDirectAuthIsolated(OwnedBy(cache, t), Some(t), now, storedAt, ttl, refresh, discover).result
  {
    assert IsHit(cache, t, now, ttl, true) <==> IsHit(OwnedBy(cache, t), t, now, ttl, true);
  }

  /** Refresh and discovery stubs under which each token's access token is the token itself. */
  function EchoRefresh(t: string): Result<string> { Ok(t) }
  function FoundProject(accessToken: string): Result<Discovery> { Ok(Discovery(Some("p"), None)) }

  /**
   * As written, "BB" is answered from the entry "Aa" stored: right after "Aa"
   * authenticates, "BB" receives "Aa"'s access token, which it would not receive from a
   * cache holding only its own entries.
   */
  lemma AsWrittenServesOtherToken()
    ensures var c := BuildDirectAuth(map[], Some("Aa"), 0, 0, 1, EchoRefresh, FoundProject).cache;
      && BuildDirectAuth(c, Some("BB"), 0, 0, 1, EchoRefresh, FoundProject).result == Ok(AuthData("Aa", "p", None))
      && BuildDirectAuth(OwnedBy(c, "BB"), Some("BB"), 0, 0, 1, EchoRefresh, FoundProject).result == Ok(AuthData("BB", "p", None))
  {
    AaBbCollide();
    var c := BuildDirectAuth(map[], Some("Aa"), 0, 0, 1, EchoRefresh, FoundProject).cache;
    assert c == map[2112 := Entry("Aa", "p", None, 0, "Aa")];
    assert IsHit(c, "BB", 0, 1, false);
    assert OwnedBy(c, "BB") == map[] by {
      assert "Aa" != "BB" by { assert "Aa"[0] != "BB"[0]; }
    }
  }
}

=== FILE: error_formatter.dfy ===
/**
 * Classification of an upstream error into an OpenAI error response
 * (parseErrorOpenAI, src/format/openai/error-formatter.js:14-88).
 *
 * The three regular-expression extractions are parameters: `resetAfter` (the duration
 * after "quota will reset after"), `limitedModel` (the model after "Rate limited on" or
 * in a `"model"` field) and `embeddedMessage` (a `"message":"..."` field).
 */
module ErrorFormatter {
  import opened Wrappers
  import opened Js

  /** The rules, in the order they are tried. */
  datatype ErrorClass = Auth | RateLimit | InvalidArgument | Permission | Unavailable | NoAccounts | Unclassified

  /** `{statusCode, error: {message, type, code: null}}`. */
  datatype OpenAIError = OpenAIError(statusCode: int, message: string, kind: string)

  datatype Extractors = Extractors(
    resetAfter: string -> Option<string>,
    limitedModel: string -> Option<string>,
    embeddedMessage: string -> Option<string>)

  /** Whether a rule's markers occur in the message. */
  predicate Matches(c: ErrorClass, m: string) {
    match c
    case Auth => Contains(m, "401") || Contains(m, "UNAUTHENTICATED") || Contains(m, "AUTH_INVALID")
    case RateLimit => Contains(m, "429") || Contains(m, "RESOURCE_EXHAUSTED") || Contains(m, "QUOTA_EXHAUSTED")
    case InvalidArgument => Contains(m, "invalid_request_error") || Contains(m, "INVALID_ARGUMENT")
    case Permission => Contains(m, "PERMISSION_DENIED") || Contains(m, "403")
    case Unavailable => Contains(m, "All endpoints failed") || Contains(m, "503")
    case NoAccounts => Contains(m, "No accounts available") || Contains(m, "All accounts are invalid")
    case Unclassified => false
  }

  /** The if / else-if chain of parseErrorOpenAI. */
  function Classify(m: string): ErrorClass {
    if Contains(m, "401") || Contains(m, "UNAUTHENTICATED") || Contains(m, "AUTH_INVALID") then Auth
    else if Contains(m, "429") || Contains(m, "RESOURCE_EXHAUSTED") || Contains(m, "QUOTA_EXHAUSTED") then RateLimit
    else if Contains(m, "invalid_request_error") || Contains(m, "INVALID_ARGUMENT") then InvalidArgument
    else if Contains(m, "PERMISSION_DENIED") || Contains(m, "403") then Permission
    else if Contains(m, "All endpoints failed") || Contains(m, "503") then Unavailable
    else if Contains(m, "No accounts available") || Contains(m, "All accounts are invalid") then NoAccounts
    else Unclassified
  }

  /** The rule order. */
  const Order: seq<ErrorClass> := [Auth, RateLimit, InvalidArgument, Permission, Unavailable, NoAccounts]

  /** The first rule of `rules` whose needles occur in the message; Unclassified when none does. */
  function FirstMatch(rules: seq<ErrorClass>, m: string): ErrorClass {
    if rules == [] then Unclassified
    else if Matches(rules[0], m) then rules[0]
    else FirstMatch(rules[1..], m)
  }

  /** The status code and `type` of each class. */
  function StatusOf(c: ErrorClass): int {
    match c
    case Auth => 401
    case RateLimit => 429
    case InvalidArgument => 400
    case Permission => 403
    case Unavailable => 503
    case NoAccounts => 400
    case Unclassified => 500
  }

  function KindOf(c: ErrorClass): string {
    match c
    case Auth => "invalid_request_error"
    case RateLimit => "rate_limit_exceeded"
    case InvalidArgument => "invalid_request_error"
    case Permission => "permission_denied"
    case Unavailable => "api_error"
    case NoAccounts => "invalid_request_error"
    case Unclassified => "api_error"
  }

  const AuthMessage: string := "Authentication failed. Make sure the proxy is configured with valid credentials."
  const VerificationMessage: string := "Account requires verification. Please check the WebUI for details."
  const UnavailableMessage: string := "Service temporarily unavailable. The upstream API may be experiencing issues."

  const RateLimitLead: string := "Rate limit exceeded on "
  const ResetLead: string := "Quota will reset after "
  const WaitForReset: string := "Please wait for your quota to reset."

  /** The rate-limit message: the model (or "the model"), with the reset duration when one was found. */
  function RateLimitMessage(m: string, x: Extractors): string {
    var model := if x.limitedModel(m).Some? then x.limitedModel(m).value else "the model";
    if x.resetAfter(m).Some? then RateLimitLead + model + ". " + ResetLead + x.resetAfter(m).value + "."
    else RateLimitLead + model + ". " + WaitForReset
  }

  /** The message the response carries, by class. */
  function MessageOf(c: ErrorClass, m: string, x: Extractors): string {
    match c
    case Auth => AuthMessage
    case RateLimit => RateLimitMessage(m, x)
    case InvalidArgument => if x.embeddedMessage(m).Some? then x.embeddedMessage(m).value else m
    case Permission => if Contains(m, "VALIDATION_REQUIRED") then VerificationMessage else m
    case Unavailable => UnavailableMessage
    case NoAccounts => m
    case Unclassified => m
  }

  /** parseErrorOpenAI (src/format/openai/error-formatter.js:14-88). */
  function ParseErrorOpenAI(m: string, x: Extractors): (r: OpenAIError)
    ensures r.statusCode in {400, 401, 403, 429, 500, 503}
  {
    var c := Classify(m);
    OpenAIError(StatusOf(c), MessageOf(c, m, x), KindOf(c))
  }

  // ---------------------------------------------------------------------------
  // Properties
  // ---------------------------------------------------------------------------

  /** The if / else-if chain is the first-match rule over the rules in their order. */
  lemma ClassifyIsFirstMatch(m: string)
    ensures Classify(m) == FirstMatch(Order, m)
  {
    var o := Order;
    assert o[1..] == [RateLimit, InvalidArgument, Permission, Unavailable, NoAccounts];
    assert o[1..][1..] == [InvalidArgument, Permission, Unavailable, NoAccounts];
    assert o[1..][1..][1..] == [Permission, Unavailable, NoAccounts];
    assert o[1..][1..][1..][1..] == [Unavailable, NoAccounts];
    assert o[1..][1..][1..][1..][1..] == [NoAccounts];
    assert o[1..][1..][1..][1..][1..][1..] == [];
    assert FirstMatch(o[1..][1..][1..][1..][1..], m) == if Matches(NoAccounts, m) then NoAccounts else Unclassified;
    assert FirstMatch(o[1..][1..][1..][1..], m) == if Matches(Unavailable, m) then Unavailable else FirstMatch(o[1..][1..][1..][1..][1..], m);
    assert FirstMatch(o[1..][1..][1..], m) == if Matches(Permission, m) then Permission else FirstMatch(o[1..][1..][1..][1..], m);
    assert FirstMatch(o[1..][1..], m) == if Matches(InvalidArgument, m) then InvalidArgument else FirstMatch(o[1..][1..][1..], m);
    assert FirstMatch(o[1..], m) == if Matches(RateLimit, m) then RateLimit else FirstMatch(o[1..][1..], m);
  }

  /** Whether no rule is listed twice. */
  predicate Distinct(rules: seq<ErrorClass>) {
    forall a, b :: 0 <= a < b < |rules| ==> rules[a] != rules[b]
  }

  lemma {:induction false} FirstMatchIn(rules: seq<ErrorClass>, m: string)
    ensures FirstMatch(rules, m) == Unclassified || FirstMatch(rules, m) in rules
  {
    if rules != [] && !Matches(rules[0], m) {
      FirstMatchIn(rules[1..], m);
    }
  }

  lemma {:induction false} FirstMatchAt(rules: seq<ErrorClass>, m: string, i: nat)
    requires i < |rules| && Distinct(rules) && Unclassified !in rules
    ensures FirstMatch(rules, m) == rules[i] <==>
      Matches(rules[i], m) && forall j :: 0 <= j < i ==> !Matches(rules[j], m)
  {
    if !Matches(rules[0], m) {
      FirstMatchIn(rules[1..], m);
      if i == 0 {
        assert rules[0] !in rules[1..];
      } else {
        assert forall j :: 1 <= j < |rules| ==> rules[1..][j - 1] == rules[j];
        FirstMatchAt(rules[1..], m, i - 1);
      }
    } else if i > 0 {
      assert rules[0] != rules[i];
    }
  }

  /**
   * A class is chosen exactly when its rule matches and no earlier rule does: an
   * authentication marker wins over everything, a rate-limit marker over the rest, and so on.
   */
  lemma FirstRuleWins(m: string, i: nat)
    requires i < |Order|
    ensures Classify(m) == Order[i] <==>
      Matches(Order[i], m) && forall j :: 0 <= j < i ==> !Matches(Order[j], m)
  {
    ClassifyIsFirstMatch(m);
    FirstMatchAt(Order, m, i);
  }

  /** Nothing recognised gives 500 `api_error` with the original message. */
  lemma UnmatchedIsInternal(m: string, x: Extractors)
    requires forall i :: 0 <= i < |Order| ==> !Matches(Order[i], m)
    ensures ParseErrorOpenAI(m, x) == OpenAIError(500, m, "api_error")
  {
    ClassifyIsFirstMatch(m);
    FirstMatchIn(Order, m);
  }

  /** The model the rate-limit message names. */
  function LimitedModelName(m: string, x: Extractors): string {
    if x.limitedModel(m).Some? then x.limitedModel(m).value else "the model"
  }

  /**
   * A rate-limit message names the extracted model, else "the model", and ends with the
   * reset duration exactly when one was extracted.
   */
  lemma RateLimitMentions(m: string, x: Extractors)
    requires Classify(m) == RateLimit
    ensures var r := ParseErrorOpenAI(m, x);
      var lead := RateLimitLead + LimitedModelName(m, x) + ". ";
      && r.statusCode == 429 && r.kind == "rate_limit_exceeded"
      && StartsWith(r.message, lead)
      && (x.resetAfter(m).Some? ==> r.message[|lead|..] == ResetLead + x.resetAfter(m).value + ".")
      && (x.resetAfter(m).None? ==> r.message[|lead|..] == WaitForReset)
  {
    var lead := RateLimitLead + LimitedModelName(m, x) + ". ";
    var r := ParseErrorOpenAI(m, x);
    var tail := if x.resetAfter(m).Some? then ResetLead + x.resetAfter(m).value + "." else WaitForReset;
    assert r.message == lead + tail;
    assert (lead + tail)[..|lead|] == lead;
    assert (lead + tail)[|lead|..] == tail;
  }

  /** A permission error keeps the original message unless it asks for verification. */
  lemma PermissionMessage(m: string, x: Extractors)
    requires Classify(m) == Permission
    ensures var r := ParseErrorOpenAI(m, x);
      && r.statusCode == 403 && r.kind == "permission_denied"
      && (r.message == m || Contains(m, "VALIDATION_REQUIRED"))
      && (Contains(m, "VALIDATION_REQUIRED") ==> r.message == VerificationMessage)
  {
  }

  /** An invalid-argument error carries the embedded message when there is one, the original otherwise. */
  lemma InvalidArgumentMessage(m: string, x: Extractors)
    requires Classify(m) == InvalidArgument
    ensures var r := ParseErrorOpenAI(m, x);
      && r.statusCode == 400 && r.kind == "invalid_request_error"
      && r.message == (if x.embeddedMessage(m).Some? then x.embeddedMessage(m).value else m)
  {
  }

  /** Authentication and availability errors get fixed messages; the no-accounts error keeps its own. */
  lemma FixedReplies(m: string, x: Extractors)
    ensures Classify(m) == Auth ==> ParseErrorOpenAI(m, x) == OpenAIError(401, AuthMessage, "invalid_request_error")
    ensures Classify(m) == Unavailable ==> ParseErrorOpenAI(m, x) == OpenAIError(503, UnavailableMessage, "api_error")
    ensures Classify(m) == NoAccounts ==> ParseErrorOpenAI(m, x) == OpenAIError(400, m, "invalid_request_error")
  {
  }
}

=== FILE: google_parts.dfy ===
/**
 * Google Generative AI "parts" and the block-by-block conversion of Anthropic content
 * into them (convertContentToParts, src/format-converter.js:286-403), together with
 * the part-level thinking filter applied to Claude requests (filterContentArray and
 * filterUnsignedThinkingBlocks, src/format-converter.js:49-116).
 */
module GoogleParts {
  import opened Wrappers
  import opened Js
  import opened Anthropic
  import opened ThinkingBlocks

  /** GEMINI_SKIP_SIGNATURE: the thought signature that tells Gemini to skip validation. */
  const SkipSignature: string := "skip_thought_signature_validator"

  const DefaultImageMime: string := "image/jpeg"
  const DefaultDocumentMime: string := "application/pdf"

  datatype FunctionCall = FunctionCall(name: Option<string>, args: Option<Json>, id: Option<string>)

  datatype FunctionResponse = FunctionResponse(name: string, response: Option<Json>, id: Option<string>)

  /**
   * One entry of a Google `parts` array. Each carries one of Google's alternative data
   * fields; `NullPart` is a `null` entry.
   */
  datatype Part =
    | NullPart
    | TextPart(text: string)
    | ThoughtPart(thoughtText: Option<string>, thoughtSignature: Option<string>)
    | InlineDataPart(mimeType: Option<string>, data: Option<string>)
    | FileDataPart(fileMimeType: string, fileUri: Option<string>)
    | FunctionCallPart(call: FunctionCall, callSignature: Option<string>)
    | FunctionResponsePart(functionResponse: FunctionResponse)
  {
    /** The properties the thinking tests read from a part. */
    function AsView(): View
      requires !NullPart?
    {
      match this
      case ThoughtPart(_, s) => View(None, false, true, None, MapStr(s))
      case FunctionCallPart(_, s) => View(None, false, false, None, MapStr(s))
      case _ => View(None, false, false, None, None)
    }
  }

  /** One entry of a Google `contents` array. */
  datatype GContent = GContent(role: string, parts: seq<Part>)

  // ---------------------------------------------------------------------------
  // Anthropic content to parts
  // ---------------------------------------------------------------------------

  /** convertContentToParts: a string becomes one text part, a non-array its `String()` form. */
  function ConvertContentToParts(content: Content, isClaude: bool, isGemini: bool): (r: Result<seq<Part>>)
    ensures content.StrContent? ==> r == Ok([TextPart(content.s)])
    ensures content.BlockContent? && r.Ok? ==> |r.value| <= |content.blocks|
    ensures r.Err? <==> content.BlockContent? && exists i :: 0 <= i < |content.blocks| && Throws(content.blocks[i])
  {
    match content
    case StrContent(s) => Ok([TextPart(s)])
    case BlockContent(bs) => BlocksToParts(bs, isClaude, isGemini)
    case ObjectContent(_) => Ok([TextPart("[object Object]")])
    case NullContent => Ok([TextPart("null")])
    case UndefinedContent => Ok([TextPart("undefined")])
  }

  /** Whether converting a block raises: reading `.type` of a null entry, here or inside a tool result. */
  predicate Throws(b: Block) {
    || b.Absent?
    || (b.ToolResult? && b.content.BlockContent? && exists j :: 0 <= j < |b.content.blocks| && b.content.blocks[j].Absent?)
  }

  /** The loop over a block array; the first block that raises aborts the conversion. */
  function BlocksToParts(bs: seq<Block>, isClaude: bool, isGemini: bool): (r: Result<seq<Part>>)
    ensures r.Ok? ==> |r.value| <= |bs|
    ensures r.Err? <==> exists i :: 0 <= i < |bs| && Throws(bs[i])
    ensures r.Ok? ==> forall i :: 0 <= i < |r.value| ==> SignedThought(r.value[i]) && !r.value[i].NullPart?
  {
    if bs == [] then Ok([])
    else
      var head := BlockToParts(bs[0], isClaude, isGemini);
      if head.Err? then head
      else
        var rest := BlocksToParts(bs[1..], isClaude, isGemini);
        assert forall i :: 1 <= i < |bs| ==> bs[1..][i - 1] == bs[i];
        if rest.Err? then
          var i :| 0 <= i < |bs[1..]| && Throws(bs[1..][i]);
          assert Throws(bs[i + 1]);
          rest
        else
          Ok(head.value + rest.value)
  }

  /** The parts one block contributes: none or one. */
  function BlockToParts(b: Block, isClaude: bool, isGemini: bool): (r: Result<seq<Part>>)
    ensures r.Err? <==> Throws(b)
    ensures r.Ok? ==> |r.value| <= 1
    ensures r.Ok? ==> forall p :: p in r.value ==> !p.NullPart? && SignedThought(p) && PartSlot(p) == Slot(b)
  {
    match b
    case Absent => Err(TypeError)
    case Text(t, _) => Ok(if TruthyString(t) && !IsBlank(t.value) then [TextPart(t.value)] else [])
    case Image(src, _) => Ok(MediaParts(src, DefaultImageMime))
    case Document(src, _) => Ok(MediaParts(src, DefaultDocumentMime))
    case ToolUse(id, name, input, ts, _) =>
      var call := FunctionCall(name, Some(if TruthyOpt(input) then input.value else JObj([])),
                               if isClaude && TruthyString(id) then id else None);
      Ok([FunctionCallPart(call, if isGemini then Some(if TruthyString(ts) then ts.value else SkipSignature) else None)])
    case ToolResult(toolUseId, content, _) =>
      var response :- ToolResultResponse(content);
      var name := if TruthyString(toolUseId) then toolUseId.value else "unknown";
      var id := if isClaude && TruthyString(toolUseId) then toolUseId else None;
      Ok([FunctionResponsePart(FunctionResponse(name, response, id))])
    case Thinking(t, s, _) => Ok(if Signed(s) then [ThoughtPart(t, s)] else [])
    case RedactedThinking(_, _) => Ok([])
    case Other(_, _) => Ok([])
  }

  /** An image or document part, by the `type` of its `source`. */
  function MediaParts(src: Option<Source>, defaultMime: string): (r: seq<Part>)
    ensures |r| <= 1
  {
    if src.Some? && src.value.kind == Some("base64") then
      [InlineDataPart(src.value.mediaType, src.value.data)]
    else if src.Some? && src.value.kind == Some("url") then
      [FileDataPart(if TruthyString(src.value.mediaType) then src.value.mediaType.value else defaultMime, src.value.url)]
    else []
  }

  /**
   * The `response` of a functionResponse: a string is wrapped as `{result}`, an array
   * becomes `{result: <its text blocks' text joined by '\n'>}`, anything else is kept.
   */
  function ToolResultResponse(content: Content): (r: Result<Option<Json>>)
    ensures r.Err? <==> content.BlockContent? && exists i :: 0 <= i < |content.blocks| && content.blocks[i].Absent?
  {
    match content
    case StrContent(s) => Ok(Some(JObj([("result", JStr(s))])))
    case BlockContent(bs) =>
      var texts :- ResultTexts(bs);
      Ok(Some(JObj([("result", JStr(Join(texts, "\n")))])))
    case ObjectContent(fs) => Ok(Some(JObj(fs)))
    case NullContent => Ok(Some(JNull))
    case UndefinedContent => Ok(None)
  }

  /** The texts of the text blocks, in order; a missing text counts as the empty string. */
  function ResultTexts(bs: seq<Block>): (r: Result<seq<string>>)
    ensures r.Err? <==> exists i :: 0 <= i < |bs| && bs[i].Absent?
    ensures r.Ok? ==> |r.value| == CountText(bs)
  {
    if bs == [] then Ok([])
    else if bs[0].Absent? then Err(TypeError)
    else
      assert forall i :: 1 <= i < |bs| ==> bs[1..][i - 1] == bs[i];
      var rest := ResultTexts(bs[1..]);
      if rest.Err? then
        var i :| 0 <= i < |bs[1..]| && bs[1..][i].Absent?;
        assert bs[i + 1].Absent?;
        rest
      else
        Ok((if bs[0].Text? then [bs[0].text.GetOr("")] else []) + rest.value)
  }

  function CountText(bs: seq<Block>): nat {
    if bs == [] then 0 else (if bs[0].Text? then 1 else 0) + CountText(bs[1..])
  }

  /** A thought part carries a valid signature. */
  predicate SignedThought(p: Part) {
    p.ThoughtPart? ==> Signed(p.thoughtSignature)
  }

  /** The position a part takes in a reordered assistant turn: thought 0, function call 2, the rest 1. */
  function PartSlot(p: Part): nat {
    if p.ThoughtPart? then 0 else if p.FunctionCallPart? then 2 else 1
  }

  predicate PartSlotsSorted(ps: seq<Part>) {
    forall i, j :: 0 <= i < j < |ps| ==> PartSlot(ps[i]) <= PartSlot(ps[j])
  }

  // ---------------------------------------------------------------------------
  // The part-level thinking filter (Claude requests)
  // ---------------------------------------------------------------------------

  /** sanitizeThinkingPart on a part: a thought part keeps `thought`, `text` and `thoughtSignature`. */
  function SanitizeThinkingPart(p: Part): (r: Part)
    ensures r == p
  {
    match p
    case ThoughtPart(t, s) => ThoughtPart(t, s)
    case _ => p
  }

  /** Whether filterContentArray keeps a part: null entries, non-thinking parts and signed thinking parts. */
  predicate KeptByFilter(p: Part) {
    p.NullPart? || !IsThinkingPart(p.AsView()) || HasValidSignature(p.AsView())
  }

  /** filterContentArray (src/format-converter.js:73-98). */
  function FilterContentArray(ps: seq<Part>): (r: seq<Part>)
    ensures |r| <= |ps|
    ensures forall p :: p in r ==> p in ps && KeptByFilter(p)
    ensures forall p :: p in ps && KeptByFilter(p) ==> p in r
  {
    if ps == [] then []
    else
      var p := ps[0];
      assert forall q :: q in ps ==> q == p || q in ps[1..];
      (if !KeptByFilter(p) then [] else [if p.NullPart? then p else SanitizeThinkingPart(p)])
        + FilterContentArray(ps[1..])
  }

  /** filterUnsignedThinkingBlocks (src/format-converter.js:106-116): the filter on every content's parts. */
  function FilterUnsignedThinkingBlocks(cs: seq<GContent>): (r: seq<GContent>)
    ensures |r| == |cs|
    ensures forall i :: 0 <= i < |r| ==> r[i].role == cs[i].role && r[i].parts == FilterContentArray(cs[i].parts)
  {
    if cs == [] then [] else [cs[0].(parts := FilterContentArray(cs[0].parts))] + FilterUnsignedThinkingBlocks(cs[1..])
  }

  /** A single part is kept as it is exactly when the filter accepts it. */
  lemma FilterContentArrayOne(p: Part)
    ensures FilterContentArray([p]) == if KeptByFilter(p) then [p] else []
  {
    assert [p][1..] == [];
  }

  /** The filter works part by part: kept parts stay in their order, once each. */
  lemma {:induction false} FilterContentArrayAppend(a: seq<Part>, b: seq<Part>)
    ensures FilterContentArray(a + b) == FilterContentArray(a) + FilterContentArray(b)
  {
    if a != [] {
      assert (a + b)[0] == a[0];
      assert (a + b)[1..] == a[1..] + b;
      FilterContentArrayAppend(a[1..], b);
      var h := if !KeptByFilter(a[0]) then [] else [if a[0].NullPart? then a[0] else SanitizeThinkingPart(a[0])];
      assert FilterContentArray(a) == h + FilterContentArray(a[1..]);
      assert FilterContentArray(a + b) == h + (FilterContentArray(a[1..]) + FilterContentArray(b));
    } else {
      assert a + b == b;
    }
  }

  lemma KeptByFilterMeans(p: Part)
    ensures KeptByFilter(p) <==> !(p.ThoughtPart? && !Signed(p.thoughtSignature))
  {
    if p.ThoughtPart? && p.thoughtSignature.Some? && p.thoughtSignature.value != "" {
      assert |p.thoughtSignature.value| >= MinSignatureLength <==> Signed(p.thoughtSignature);
    }
  }

  /** Parts whose thought parts are all signed pass the filter unchanged. */
  lemma {:induction false} FilterKeepsSigned(ps: seq<Part>)
    requires forall i :: 0 <= i < |ps| ==> SignedThought(ps[i])
    ensures FilterContentArray(ps) == ps
  {
    if ps != [] {
      KeptByFilterMeans(ps[0]);
      assert forall i :: 0 <= i < |ps[1..]| ==> ps[1..][i] == ps[i + 1];
      FilterKeepsSigned(ps[1..]);
      assert ps == [ps[0]] + ps[1..];
    }
  }

  // ---------------------------------------------------------------------------
  // Properties of the conversion
  // ---------------------------------------------------------------------------

  /** The conversion is block by block: it distributes over concatenation. */
  lemma {:induction false} BlocksToPartsAppend(a: seq<Block>, b: seq<Block>, isClaude: bool, isGemini: bool)
    requires BlocksToParts(a, isClaude, isGemini).Ok? && BlocksToParts(b, isClaude, isGemini).Ok?
    ensures BlocksToParts(a + b, isClaude, isGemini) ==
      Ok(BlocksToParts(a, isClaude, isGemini).value + BlocksToParts(b, isClaude, isGemini).value)
  {
    if a == [] {
      assert a + b == b;
      var pb := BlocksToParts(b, isClaude, isGemini).value;
      assert [] + pb == pb;
    } else {
      var x, t := a[0], a[1..];
      assert a == [x] + t;
      assert a + b == [x] + (t + b);
      BlocksToPartsCons(x, t, isClaude, isGemini);
      BlocksToPartsAppend(t, b, isClaude, isGemini);
      AppendCombine(x, t, b, isClaude, isGemini);
    }
  }

  /** The inductive step of BlocksToPartsAppend. */
  lemma AppendCombine(x: Block, t: seq<Block>, b: seq<Block>, isClaude: bool, isGemini: bool)
    requires BlockToParts(x, isClaude, isGemini).Ok? && BlocksToParts(t, isClaude, isGemini).Ok?
    requires BlocksToParts(b, isClaude, isGemini).Ok?
    requires BlocksToParts(t + b, isClaude, isGemini) ==
      Ok(BlocksToParts(t, isClaude, isGemini).value + BlocksToParts(b, isClaude, isGemini).value)
    ensures BlocksToParts([x] + (t + b), isClaude, isGemini) ==
      Ok(BlocksToParts([x] + t, isClaude, isGemini).value + BlocksToParts(b, isClaude, isGemini).value)
  {
    var h := BlockToParts(x, isClaude, isGemini).value;
    var pt := BlocksToParts(t, isClaude, isGemini).value;
    var pb := BlocksToParts(b, isClaude, isGemini).value;
    assert BlocksToParts([x] + t, isClaude, isGemini) == Ok(h + pt) by {
      BlocksToPartsCons(x, t, isClaude, isGemini);
    }
    assert BlocksToParts([x] + (t + b), isClaude, isGemini) == Ok(h + (pt + pb)) by {
      BlocksToPartsCons(x, t + b, isClaude, isGemini);
    }
    ConcatAssoc(h, pt, pb);
  }

  /** Converting `[x] + rest` converts `x`, then `rest`. */
  lemma BlocksToPartsCons(x: Block, rest: seq<Block>, isClaude: bool, isGemini: bool)
    ensures BlocksToParts([x] + rest, isClaude, isGemini).Ok? <==>
      BlockToParts(x, isClaude, isGemini).Ok? && BlocksToParts(rest, isClaude, isGemini).Ok?
    ensures BlocksToParts([x] + rest, isClaude, isGemini).Ok? ==>
      BlocksToParts([x] + rest, isClaude, isGemini).value ==
        BlockToParts(x, isClaude, isGemini).value + BlocksToParts(rest, isClaude, isGemini).value
  {
    assert ([x] + rest)[0] == x;
    assert ([x] + rest)[1..] == rest;
  }

  /**
   * Converting keeps the thinking -> text -> tool_use order: a slot-sorted block array
   * becomes a part array with thought parts first and function calls last.
   */
  lemma {:induction false} ConvertKeepsOrder(bs: seq<Block>, isClaude: bool, isGemini: bool)
    requires BlocksToParts(bs, isClaude, isGemini).Ok?
    requires forall i, j :: 0 <= i < j < |bs| ==> Slot(bs[i]) <= Slot(bs[j])
    ensures PartSlotsSorted(BlocksToParts(bs, isClaude, isGemini).value)
    ensures forall p :: p in BlocksToParts(bs, isClaude, isGemini).value ==> bs != [] && Slot(bs[0]) <= PartSlot(p)
  {
    if bs != [] {
      var head := BlockToParts(bs[0], isClaude, isGemini).value;
      var rest := BlocksToParts(bs[1..], isClaude, isGemini).value;
      assert forall i, j :: 0 <= i < j < |bs[1..]| ==> Slot(bs[1..][i]) <= Slot(bs[1..][j]) by {
        forall i, j | 0 <= i < j < |bs[1..]| ensures Slot(bs[1..][i]) <= Slot(bs[1..][j]) {
          assert bs[1..][i] == bs[i + 1] && bs[1..][j] == bs[j + 1];
        }
      }
      ConvertKeepsOrder(bs[1..], isClaude, isGemini);
      forall p | p in rest ensures Slot(bs[0]) <= PartSlot(p) {
        assert Slot(bs[0]) <= Slot(bs[1]);
      }
      SortedConcat(head, rest);
    }
  }

  /** Two sorted part arrays, every slot of the first at most every slot of the second, concatenate sorted. */
  lemma SortedConcat(head: seq<Part>, rest: seq<Part>)
    requires PartSlotsSorted(head) && PartSlotsSorted(rest)
    requires forall p, q :: p in head && q in rest ==> PartSlot(p) <= PartSlot(q)
    ensures PartSlotsSorted(head + rest)
  {
    var r := head + rest;
    forall i, j | 0 <= i < j < |r| ensures PartSlot(r[i]) <= PartSlot(r[j]) {
      if j < |head| {
        assert r[i] == head[i] && r[j] == head[j];
      } else if i < |head| {
        assert r[i] == head[i] && r[j] == rest[j - |head|];
      } else {
        assert r[i] == rest[i - |head|] && r[j] == rest[j - |head|];
      }
    }
  }

  /** A text block whose text is missing, empty or whitespace-only gives no part. */
  lemma BlankTextDropped(t: Option<string>, extra: Extra, isClaude: bool, isGemini: bool)
    requires t.None? || IsBlank(t.value)
    ensures BlockToParts(Text(t, extra), isClaude, isGemini) == Ok([])
  {
  }

  /** A thinking block gives a thought part exactly when its signature is valid; redacted thinking gives none. */
  lemma ThinkingParts(b: Block, isClaude: bool, isGemini: bool)
    requires b.Thinking? || b.RedactedThinking?
    ensures BlockToParts(b, isClaude, isGemini) ==
      Ok(if b.Thinking? && Signed(b.signature) then [ThoughtPart(b.thinking, b.signature)] else [])
  {
  }

  /**
   * A tool_use block becomes a function call whose `args` default to `{}`, with the
   * block's id only for Claude and, only for Gemini, the block's thought signature or
   * the skip sentinel.
   */
  lemma ToolUsePart(id: Option<string>, name: Option<string>, input: Option<Json>, ts: Option<string>, extra: Extra,
                    isClaude: bool, isGemini: bool)
    ensures var r := BlockToParts(ToolUse(id, name, input, ts, extra), isClaude, isGemini).value;
      && |r| == 1 && r[0].FunctionCallPart?
      && r[0].call.name == name
      && r[0].call.args == Some(if TruthyOpt(input) then input.value else JObj([]))
      && (r[0].call.id.Some? <==> isClaude && TruthyString(id))
      && (r[0].call.id.Some? ==> r[0].call.id == id)
      && (r[0].callSignature.Some? <==> isGemini)
      && (isGemini && !TruthyString(ts) ==> r[0].callSignature == Some(SkipSignature))
      && (isGemini && TruthyString(ts) ==> r[0].callSignature == ts)
  {
  }

  /** An array tool result becomes `{result: <text blocks' text joined by '\n'>}`. */
  lemma ToolResultTexts(bs: seq<Block>)
    requires forall i :: 0 <= i < |bs| ==> !bs[i].Absent?
    ensures ResultTexts(bs).Ok?
    ensures ToolResultResponse(BlockContent(bs)) ==
      Ok(Some(JObj([("result", JStr(Join(ResultTexts(bs).value, "\n")))])))
  {
    assert !exists i :: 0 <= i < |bs| && bs[i].Absent?;
    var texts := ResultTexts(bs);
    assert texts.Ok?;
  }

  /** Every text joined is the text of one of the text blocks. */
  lemma {:induction false} ResultTextsAreTexts(bs: seq<Block>)
    requires ResultTexts(bs).Ok?
    ensures forall t :: t in ResultTexts(bs).value ==> exists i :: 0 <= i < |bs| && bs[i].Text? && t == bs[i].text.GetOr("")
  {
    if bs != [] {
      ResultTextsAreTexts(bs[1..]);
      forall t | t in ResultTexts(bs).value
        ensures exists i :: 0 <= i < |bs| && bs[i].Text? && t == bs[i].text.GetOr("")
      {
        if bs[0].Text? && t == bs[0].text.GetOr("") {
        } else {
          assert t in ResultTexts(bs[1..]).value;
          var i :| 0 <= i < |bs[1..]| && bs[1..][i].Text? && t == bs[1..][i].text.GetOr("");
          assert bs[i + 1] == bs[1..][i];
        }
      }
    }
  }
  /** One block contributes its text when it is a text block, and nothing otherwise. */
  lemma ResultTextsOne(b: Block)
    requires !b.Absent?
    ensures ResultTexts([b]) == Ok(if b.Text? then [b.text.GetOr("")] else [])
  {
    assert [b][1..] == [];
    var h := if b.Text? then [b.text.GetOr("")] else [];
    assert h + [] == h;
  }

  /** The texts of a concatenation are the texts of each part, in order. */
  lemma {:induction false} ResultTextsAppend(a: seq<Block>, b: seq<Block>)
    requires ResultTexts(a).Ok? && ResultTexts(b).Ok?
    ensures ResultTexts(a + b) == Ok(ResultTexts(a).value + ResultTexts(b).value)
  {
    if a != [] {
      assert (a + b)[0] == a[0];
      assert (a + b)[1..] == a[1..] + b;
      ResultTextsAppend(a[1..], b);
      var h := if a[0].Text? then [a[0].text.GetOr("")] else [];
      assert ResultTexts(a).value == h + ResultTexts(a[1..]).value;
      assert !(a + b)[0].Absent?;
      assert ResultTexts(a + b) == Ok(h + ResultTexts(a[1..] + b).value);
      assert h + (ResultTexts(a[1..]).value + ResultTexts(b).value) == (h + ResultTexts(a[1..]).value) + ResultTexts(b).value;
    } else {
      assert a + b == b;
      assert ResultTexts(a).value + ResultTexts(b).value == ResultTexts(b).value;
    }
  }

}

=== FILE: google_request.dfy ===
/**
 * Assembly of a Cloud Code request from an Anthropic Messages request
 * (convertAnthropicToGoogle, src/format-converter.js:423-589).
 *
 * getModelFamily and isThinkingModel live in src/constants.js, which is not part of
 * this model: they are parameters.
 */
module GoogleRequest {
  import opened Wrappers
  import opened Js
  import opened Anthropic
  import opened ThinkingBlocks
  import opened Schema
  import opened GoogleParts

  /** GEMINI_MAX_OUTPUT_TOKENS of src/constants.js. */
  const GeminiMaxOutputTokens: int := 16384

  /** The thinking budget Gemini gets when the request names none. */
  const GeminiDefaultThinkingBudget: int := 16000

  /** The longest tool name a function declaration may carry. */
  const MaxToolNameLength: nat := 64

  const InterleavedThinkingHint: string :=
    "Interleaved thinking is enabled. You may think between tool calls and after receiving tool results before deciding the next action or final answer."

  /** `include_thoughts: true` plus an optional budget (Claude), or `includeThoughts: true` plus a budget (Gemini). */
  datatype ThinkingConfig = ClaudeThinkingConfig(thinkingBudget: Option<int>) | GeminiThinkingConfig(budget: int)

  /** The generation parameters; the floating-point ones pass through as opaque values. */
  datatype GenerationConfig = GenerationConfig(
    maxOutputTokens: Option<int>,
    temperature: Option<Json>,
    topP: Option<Json>,
    topK: Option<Json>,
    stopSequences: Option<seq<string>>,
    thinkingConfig: Option<ThinkingConfig>)

  datatype FunctionDeclaration = FunctionDeclaration(name: string, description: string, parameters: Json)

  /**
   * The request body: `contents`, `generationConfig`, the optional
   * `systemInstruction.parts` (each the value of its `text`) and the optional
   * `tools[0].functionDeclarations`.
   */
  datatype GoogleRequest = GoogleRequest(
    contents: seq<GContent>,
    generationConfig: GenerationConfig,
    systemInstruction: Option<seq<Option<string>>>,
    tools: Option<seq<FunctionDeclaration>>)

  // ---------------------------------------------------------------------------
  // Roles and messages
  // ---------------------------------------------------------------------------

  /** convertRole (src/format-converter.js:408-412): `assistant` becomes `model`, everything else `user`. */
  function ConvertRole(role: string): (r: string)
    ensures r == "model" <==> role == "assistant"
    ensures r == "model" || r == "user"
  {
    if role == "assistant" then "model" else "user"
  }

  /** Whether a message goes through the thinking normaliser: an assistant (or `model`) turn with array content. */
  predicate NormalizedTurn(m: Message) {
    (m.role == "assistant" || m.role == "model") && m.content.BlockContent?
  }

  /** The content that is converted to parts: the normalised blocks for such turns, the content otherwise. */
  function PreparedContent(m: Message): Content {
    if NormalizedTurn(m) then BlockContent(NormalizeAssistantContent(m.content.blocks)) else m.content
  }

  /** The message loop (src/format-converter.js:472-492), from message `i` on. */
  function ConvertMessages(msgs: seq<Message>, i: nat, isClaude: bool, isGemini: bool): (r: Result<seq<GContent>>)
    requires i <= |msgs|
    ensures r.Ok? ==> |r.value| == |msgs| - i
    decreases |msgs| - i
  {
    if i == |msgs| then Ok([])
    else
      var parts :- ConvertContentToParts(PreparedContent(msgs[i]), isClaude, isGemini);
      var rest :- ConvertMessages(msgs, i + 1, isClaude, isGemini);
      Ok([GContent(ConvertRole(msgs[i].role), parts)] + rest)
  }

  /** One turn of the message loop: message `i` is converted, then the rest. */
  lemma ConvertMessagesStep(msgs: seq<Message>, i: nat, isClaude: bool, isGemini: bool)
    requires i < |msgs|
    ensures var head := ConvertContentToParts(PreparedContent(msgs[i]), isClaude, isGemini);
      var rest := ConvertMessages(msgs, i + 1, isClaude, isGemini);
      var r := ConvertMessages(msgs, i, isClaude, isGemini);
      && (r.Ok? <==> head.Ok? && rest.Ok?)
      && (r.Ok? ==> r.value == [GContent(ConvertRole(msgs[i].role), head.value)] + rest.value)
  {
  }

  /** Content `k` of the loop's output is message `i + k`, converted. */
  lemma {:induction false} ConvertMessagesAt(msgs: seq<Message>, i: nat, isClaude: bool, isGemini: bool, k: nat)
    requires i <= |msgs|
    requires ConvertMessages(msgs, i, isClaude, isGemini).Ok?
    requires k < |msgs| - i
    ensures var c := ConvertMessages(msgs, i, isClaude, isGemini).value[k];
      && c.role == ConvertRole(msgs[i + k].role)
      && ConvertContentToParts(PreparedContent(msgs[i + k]), isClaude, isGemini) == Ok(c.parts)
    decreases k
  {
    ConvertMessagesStep(msgs, i, isClaude, isGemini);
    if k > 0 {
      ConvertMessagesAt(msgs, i + 1, isClaude, isGemini, k - 1);
    }
  }

  /** The loop fails exactly when some message's prepared content fails to convert. */
  lemma {:induction false} ConvertMessagesFails(msgs: seq<Message>, i: nat, isClaude: bool, isGemini: bool)
    requires i <= |msgs|
    ensures ConvertMessages(msgs, i, isClaude, isGemini).Err? <==>
      exists j :: i <= j < |msgs| && ConvertContentToParts(PreparedContent(msgs[j]), isClaude, isGemini).Err?
    decreases |msgs| - i
  {
    if i < |msgs| {
      ConvertMessagesFails(msgs, i + 1, isClaude, isGemini);
      ConvertMessagesStep(msgs, i, isClaude, isGemini);
    }
  }

  // ---------------------------------------------------------------------------
  // System instruction
  // ---------------------------------------------------------------------------

  /** The system parts: a non-empty string, or the `text` of every text block of an array. */
  function SystemParts(system: SystemPrompt): (r: Result<seq<Option<string>>>)
    ensures system.NoSystem? || system.SystemObject? ==> r == Ok([])
    ensures system.SystemText? ==> r == Ok(if system.text == "" then [] else [Some(system.text)])
  {
    match system
    case NoSystem => Ok([])
    case SystemText(s) => Ok(if s == "" then [] else [Some(s)])
    case SystemBlocks(bs) => SystemTexts(bs)
    case SystemObject => Ok([])
  }

  /** One system part per text block, in order, carrying that block's text. */
  function SystemTexts(bs: seq<Block>): (r: Result<seq<Option<string>>>)
    ensures r.Err? <==> exists i :: 0 <= i < |bs| && bs[i].Absent?
  {
    if bs == [] then Ok([])
    else if bs[0].Absent? then Err(TypeError)
    else
      assert forall i :: 1 <= i < |bs| ==> bs[1..][i - 1] == bs[i];
      var rest := SystemTexts(bs[1..]);
      if rest.Err? then
        var i :| 0 <= i < |bs[1..]| && bs[1..][i].Absent?;
        assert bs[i + 1].Absent?;
        rest
      else
        Ok((if bs[0].Text? then [bs[0].text] else []) + rest.value)
  }

  /** The instruction before the hint: present only when there is at least one part. */
  function SystemInstruction(parts: seq<Option<string>>): Option<seq<Option<string>>> {
    if |parts| > 0 then Some(parts) else None
  }

  /** Adding the interleaved-thinking hint: appended to a truthy last part, otherwise pushed as a part of its own. */
  function WithHint(instruction: Option<seq<Option<string>>>): (r: Option<seq<Option<string>>>)
    requires instruction.Some? ==> |instruction.value| > 0
    ensures r.Some? && |r.value| > 0
    ensures instruction.None? ==> r == Some([Some(InterleavedThinkingHint)])
    ensures instruction.Some? ==> var ps := instruction.value;
      if TruthyString(ps[|ps| - 1]) then
        r.value == ps[..|ps| - 1] + [Some(ps[|ps| - 1].value + "\n\n" + InterleavedThinkingHint)]
      else
        r.value == ps + [Some(InterleavedThinkingHint)]
  {
    if instruction.None? then Some([Some(InterleavedThinkingHint)])
    else
      var ps := instruction.value;
      var last := ps[|ps| - 1];
      if TruthyString(last) then Some(ps[..|ps| - 1] + [Some(last.value + "\n\n" + InterleavedThinkingHint)])
      else Some(ps + [Some(InterleavedThinkingHint)])
  }

  // ---------------------------------------------------------------------------
  // Tools
  // ---------------------------------------------------------------------------

  /** The characters `/[^a-zA-Z0-9_-]/` does not match. */
  predicate ToolNameChar(c: char) {
    ('a' <= c <= 'z') || ('A' <= c <= 'Z') || ('0' <= c <= '9') || c == '_' || c == '-'
  }

  /** Every character outside letters, digits, `_` and `-` becomes `_`. */
  function ReplaceInvalid(s: string): (r: string)
    ensures |r| == |s|
    ensures forall i :: 0 <= i < |s| ==> r[i] == if ToolNameChar(s[i]) then s[i] else '_'
  {
    if s == [] then [] else [if ToolNameChar(s[0]) then s[0] else '_'] + ReplaceInvalid(s[1..])
  }

  /** A tool name Google accepts: at most 64 characters from `[A-Za-z0-9_-]`. */
  predicate ValidToolName(s: string) {
    |s| <= MaxToolNameLength && forall i :: 0 <= i < |s| ==> ToolNameChar(s[i])
  }

  /** The name with invalid characters replaced by `_`, cut to its first 64 characters. */
  function NormalizeToolName(name: string): (r: string)
    ensures ValidToolName(r)
    ensures |r| == if |name| < MaxToolNameLength then |name| else MaxToolNameLength
    ensures forall i :: 0 <= i < |r| ==> r[i] == if ToolNameChar(name[i]) then name[i] else '_'
  {
    Take(ReplaceInvalid(name), MaxToolNameLength)
  }

  /** The first truthy name among the tool's locations, else `tool-<idx>`. */
  function ToolName(tool: Tool, idx: nat): string {
    if TruthyString(tool.name) then tool.name.value
    else if tool.functionSpec.Some? && TruthyString(tool.functionSpec.value.name) then tool.functionSpec.value.name.value
    else if tool.custom.Some? && TruthyString(tool.custom.value.name) then tool.custom.value.name.value
    else "tool-" + NatToString(idx)
  }

  /** The first truthy description, else the empty string. */
  function ToolDescription(tool: Tool): string {
    if TruthyString(tool.description) then tool.description.value
    else if tool.functionSpec.Some? && TruthyString(tool.functionSpec.value.description) then tool.functionSpec.value.description.value
    else if tool.custom.Some? && TruthyString(tool.custom.value.description) then tool.custom.value.description.value
    else ""
  }

  /** The first truthy schema among the five locations, else `{type: 'object'}`. */
  function ToolSchema(tool: Tool): Json {
    if TruthyOpt(tool.inputSchema) then tool.inputSchema.value
    else if tool.functionSpec.Some? && TruthyOpt(tool.functionSpec.value.inputSchema) then tool.functionSpec.value.inputSchema.value
    else if tool.functionSpec.Some? && TruthyOpt(tool.functionSpec.value.parameters) then tool.functionSpec.value.parameters.value
    else if tool.custom.Some? && TruthyOpt(tool.custom.value.inputSchema) then tool.custom.value.inputSchema.value
    else if TruthyOpt(tool.parameters) then tool.parameters.value
    else JObj([("type", JStr("object"))])
  }

  /** One function declaration: the schema is sanitised, and for Gemini also cleaned. */
  function ToolDeclaration(tool: Tool, idx: nat, isGemini: bool): (r: FunctionDeclaration)
    ensures ValidToolName(r.name)
  {
    var sanitized := SanitizeSchema(ToolSchema(tool));
    FunctionDeclaration(
      NormalizeToolName(ToolName(tool, idx)),
      ToolDescription(tool),
      if isGemini then CleanSchemaForGemini(sanitized) else sanitized)
  }

  /** One declaration per tool, in order, each told its index for the fallback name. */
  function ToolDeclarations(tools: seq<Tool>, isGemini: bool): (r: seq<FunctionDeclaration>)
    ensures |r| == |tools|
  {
    seq(|tools|, k requires 0 <= k < |tools| => ToolDeclaration(tools[k], k, isGemini))
  }

  // ---------------------------------------------------------------------------
  // Generation config
  // ---------------------------------------------------------------------------

  /** The thinking config of a thinking model, by family. */
  function ThinkingConfigFor(isThinking: bool, isClaude: bool, isGemini: bool, thinking: Option<ThinkingParam>): Option<ThinkingConfig> {
    var budget := if thinking.Some? then thinking.value.budgetTokens else None;
    if !isThinking then None
    else if isClaude then Some(ClaudeThinkingConfig(if TruthyInt(budget) then budget else None))
    else if isGemini then Some(GeminiThinkingConfig(if TruthyInt(budget) then budget.value else GeminiDefaultThinkingBudget))
    else None
  }

  /** The Gemini cap on `maxOutputTokens`. */
  function CapMaxTokens(isGemini: bool, maxOutputTokens: Option<int>): (r: Option<int>)
    ensures isGemini && r.Some? ==> r.value <= GeminiMaxOutputTokens
  {
    if isGemini && maxOutputTokens.Some? && maxOutputTokens.value > GeminiMaxOutputTokens then Some(GeminiMaxOutputTokens)
    else maxOutputTokens
  }

  // ---------------------------------------------------------------------------
  // The whole conversion
  // ---------------------------------------------------------------------------

  /** convertAnthropicToGoogle (src/format-converter.js:423-589). */
  function ConvertAnthropicToGoogle(req: Request, modelFamily: string -> string, isThinkingModel: string -> bool): (r: Result<GoogleRequest>)
    ensures r.Err? <==>
      || (req.system.SystemBlocks? && HasNullBlock(req.system.blocks))
      || exists j :: 0 <= j < |req.messages| &&
           ConvertContentToParts(PreparedContent(req.messages[j]),
                                 modelFamily(ModelName(req)) == "claude", modelFamily(ModelName(req)) == "gemini").Err?
  {
    ConvertMessagesFails(req.messages, 0, modelFamily(ModelName(req)) == "claude", modelFamily(ModelName(req)) == "gemini");
    var modelName := if TruthyString(req.model) then req.model.value else "";
    var isClaude := modelFamily(modelName) == "claude";
    var isGemini := modelFamily(modelName) == "gemini";
    var isThinking := isThinkingModel(modelName);
    var hasTools := req.tools.Some? && |req.tools.value| > 0;
    var systemParts :- SystemParts(req.system);
    var instruction := SystemInstruction(systemParts);
    var instruction' := if isClaude && isThinking && hasTools then WithHint(instruction) else instruction;
    var converted :- ConvertMessages(req.messages, 0, isClaude, isGemini);
    var contents := if isClaude then FilterUnsignedThinkingBlocks(converted) else converted;
    var config := GenerationConfig(
      CapMaxTokens(isGemini, if TruthyInt(req.maxTokens) then req.maxTokens else None),
      req.temperature,
      req.topP,
      req.topK,
      if req.stopSequences.Some? && |req.stopSequences.value| > 0 then req.stopSequences else None,
      ThinkingConfigFor(isThinking, isClaude, isGemini, req.thinking));
    var tools := if hasTools then Some(ToolDeclarations(req.tools.value, isGemini)) else None;
    Ok(GoogleRequest(contents, config, instruction', tools))
  }

  // ---------------------------------------------------------------------------
  // Properties
  // ---------------------------------------------------------------------------

  function ModelName(req: Request): string {
    if TruthyString(req.model) then req.model.value else ""
  }

  /**
   * One content per message, in order, with role `model` exactly for assistant
   * messages; the parts are those of the message's prepared content.
   */
  lemma ContentsPerMessage(req: Request, modelFamily: string -> string, isThinkingModel: string -> bool)
    requires ConvertAnthropicToGoogle(req, modelFamily, isThinkingModel).Ok?
    ensures var r := ConvertAnthropicToGoogle(req, modelFamily, isThinkingModel).value;
      var isClaude := modelFamily(ModelName(req)) == "claude";
      var isGemini := modelFamily(ModelName(req)) == "gemini";
      && |r.contents| == |req.messages|
      && forall i :: 0 <= i < |r.contents| ==>
        && (r.contents[i].role == "model" <==> req.messages[i].role == "assistant")
        && ConvertContentToParts(PreparedContent(req.messages[i]), isClaude, isGemini) == Ok(r.contents[i].parts)
  {
    var isClaude := modelFamily(ModelName(req)) == "claude";
    var isGemini := modelFamily(ModelName(req)) == "gemini";
    ContentsAreConverted(req, modelFamily, isThinkingModel);
    var r := ConvertAnthropicToGoogle(req, modelFamily, isThinkingModel).value;
    forall i | 0 <= i < |r.contents|
      ensures && (r.contents[i].role == "model" <==> req.messages[i].role == "assistant")
              && ConvertContentToParts(PreparedContent(req.messages[i]), isClaude, isGemini) == Ok(r.contents[i].parts)
    {
      ConvertMessagesAt(req.messages, 0, isClaude, isGemini, i);
    }
  }

  /** The contents are the message loop's output, for every family. */
  lemma ContentsAreConverted(req: Request, modelFamily: string -> string, isThinkingModel: string -> bool)
    requires ConvertAnthropicToGoogle(req, modelFamily, isThinkingModel).Ok?
    ensures var isClaude := modelFamily(ModelName(req)) == "claude";
      var isGemini := modelFamily(ModelName(req)) == "gemini";
      && ConvertMessages(req.messages, 0, isClaude, isGemini).Ok?
      && ConvertAnthropicToGoogle(req, modelFamily, isThinkingModel).value.contents
         == ConvertMessages(req.messages, 0, isClaude, isGemini).value
  {
    var isClaude := modelFamily(ModelName(req)) == "claude";
    var isGemini := modelFamily(ModelName(req)) == "gemini";
    var converted := ConvertMessages(req.messages, 0, isClaude, isGemini).value;
    ConvertedSigned(req.messages, isClaude, isGemini);
    ClaudeFilterKeepsContents(converted);
  }

  /**
   * The part-level filter that Claude requests go through changes nothing: the
   * converter only ever emits thought parts with a valid signature.
   */
  lemma ClaudeFilterKeepsContents(cs: seq<GContent>)
    requires forall i :: 0 <= i < |cs| ==> forall k :: 0 <= k < |cs[i].parts| ==> SignedThought(cs[i].parts[k])
    ensures FilterUnsignedThinkingBlocks(cs) == cs
  {
    var r := FilterUnsignedThinkingBlocks(cs);
    forall i | 0 <= i < |cs| ensures r[i] == cs[i] {
      FilterKeepsSigned(cs[i].parts);
    }
  }

  /** Every converted content's thought parts carry a valid signature. */
  lemma ConvertedSigned(msgs: seq<Message>, isClaude: bool, isGemini: bool)
    requires ConvertMessages(msgs, 0, isClaude, isGemini).Ok?
    ensures var cs := ConvertMessages(msgs, 0, isClaude, isGemini).value;
      forall i :: 0 <= i < |cs| ==> forall k :: 0 <= k < |cs[i].parts| ==> SignedThought(cs[i].parts[k])
  {
    var cs := ConvertMessages(msgs, 0, isClaude, isGemini).value;
    forall i | 0 <= i < |cs| ensures forall k :: 0 <= k < |cs[i].parts| ==> SignedThought(cs[i].parts[k]) {
      ConvertMessagesAt(msgs, 0, isClaude, isGemini, i);
    }
  }

  /**
   * An assistant turn with array content reaches Google in the order the normaliser
   * establishes: thought parts first, function calls last, and every thought part signed.
   */
  lemma AssistantPartsOrdered(m: Message, isClaude: bool, isGemini: bool)
    requires NormalizedTurn(m)
    requires ConvertContentToParts(PreparedContent(m), isClaude, isGemini).Ok?
    ensures var ps := ConvertContentToParts(PreparedContent(m), isClaude, isGemini).value;
      && PartSlotsSorted(ps)
      && forall k :: 0 <= k < |ps| ==> SignedThought(ps[k])
  {
    var bs := NormalizeAssistantContent(m.content.blocks);
    ConvertKeepsOrder(bs, isClaude, isGemini);
  }

  /** A tool name that is already valid is kept as it is; normalising is idempotent. */
  lemma NormalizeToolNameIdempotent(name: string)
    ensures ValidToolName(name) ==> NormalizeToolName(name) == name
    ensures NormalizeToolName(NormalizeToolName(name)) == NormalizeToolName(name)
  {
  }

  /**
   * Every declaration has a valid name, and a parameter schema that passed the
   * allowlist (all backends) and the Gemini cleaning (Gemini only).
   */
  lemma DeclarationsWellFormed(tools: seq<Tool>, isGemini: bool)
    ensures var ds := ToolDeclarations(tools, isGemini);
      && |ds| == |tools|
      && forall k :: 0 <= k < |ds| ==>
        && ValidToolName(ds[k].name)
        && (isGemini ==> GeminiClean(ds[k].parameters))
        && (!isGemini ==> Sanitized(ds[k].parameters))
  {
    var ds := ToolDeclarations(tools, isGemini);
    forall k | 0 <= k < |ds|
      ensures (isGemini ==> GeminiClean(ds[k].parameters)) && (!isGemini ==> Sanitized(ds[k].parameters))
    {
      var s := ToolSchema(tools[k]);
      SanitizeSchemaSound(s);
      CleanSound(SanitizeSchema(s));
    }
  }

  /**
   * `maxOutputTokens` is the request's truthy `max_tokens`; for Gemini it is capped at
   * GEMINI_MAX_OUTPUT_TOKENS.
   */
  lemma MaxTokensCapped(req: Request, modelFamily: string -> string, isThinkingModel: string -> bool)
    requires ConvertAnthropicToGoogle(req, modelFamily, isThinkingModel).Ok?
    ensures var m := ConvertAnthropicToGoogle(req, modelFamily, isThinkingModel).value.generationConfig.maxOutputTokens;
      var isGemini := modelFamily(ModelName(req)) == "gemini";
      && (m.Some? <==> TruthyInt(req.maxTokens))
      && (m.Some? && !isGemini ==> m == req.maxTokens)
      && (m.Some? && isGemini ==>
            m.value <= GeminiMaxOutputTokens
            && m.value == if req.maxTokens.value > GeminiMaxOutputTokens then GeminiMaxOutputTokens else req.maxTokens.value)
  {
  }

  /**
   * The interleaved-thinking hint is added exactly for Claude thinking models with
   * tools; without a system prompt it is the whole instruction.
   */
  lemma HintOnlyForClaudeThinkingWithTools(req: Request, modelFamily: string -> string, isThinkingModel: string -> bool)
    requires ConvertAnthropicToGoogle(req, modelFamily, isThinkingModel).Ok?
    ensures var r := ConvertAnthropicToGoogle(req, modelFamily, isThinkingModel).value;
      var name := ModelName(req);
      var hinted := modelFamily(name) == "claude" && isThinkingModel(name) && req.tools.Some? && |req.tools.value| > 0;
      var base := SystemInstruction(SystemParts(req.system).value);
      && (!hinted ==> r.systemInstruction == base)
      && (hinted ==> r.systemInstruction == WithHint(base))
      && (hinted && base.None? ==> r.systemInstruction == Some([Some(InterleavedThinkingHint)]))
  {
  }

  /** A Gemini thinking model gets the requested budget, or 16000 when none (or 0) is given. */
  lemma GeminiThinkingBudget(req: Request, modelFamily: string -> string, isThinkingModel: string -> bool)
    requires ConvertAnthropicToGoogle(req, modelFamily, isThinkingModel).Ok?
    requires modelFamily(ModelName(req)) == "gemini" && isThinkingModel(ModelName(req))
    ensures var t := ConvertAnthropicToGoogle(req, modelFamily, isThinkingModel).value.generationConfig.thinkingConfig;
      var b := if req.thinking.Some? then req.thinking.value.budgetTokens else None;
      t == Some(GeminiThinkingConfig(if TruthyInt(b) then b.value else GeminiDefaultThinkingBudget))
  {
  }
}

=== FILE: google_response.dfy ===
/**
 * Conversion of a Cloud Code (Google) response back into an Anthropic Messages
 * response (convertGoogleToAnthropic, src/format-converter.js:738-823).
 *
 * The random hex of the message id and of the ids of tool calls that arrive without
 * one (crypto.randomBytes) are parameters: `messageHex`, and `newToolId(k)` for the
 * part at position `k`.
 */
module GoogleResponse {
  import opened Wrappers
  import opened Js
  import opened Anthropic
  import opened GoogleParts

  /** `usageMetadata`; each count may be missing. */
  datatype UsageMetadata = UsageMetadata(promptTokenCount: Option<int>, candidatesTokenCount: Option<int>, cachedContentTokenCount: Option<int>)

  datatype CandidateContent = CandidateContent(parts: Option<seq<Part>>)

  datatype Candidate = Candidate(content: Option<CandidateContent>, finishReason: Option<string>)

  /** The response object proper; a `None` candidate is a `null` entry. */
  datatype Body = Body(candidates: Option<seq<Option<Candidate>>>, usageMetadata: Option<UsageMetadata>)

  /** What the upstream returns: the body, possibly wrapped as `{response: body}`. */
  datatype Envelope = Envelope(response: Option<Body>, body: Body)

  /** The wrapped `response` when present, else the envelope itself. */
  function Unwrap(e: Envelope): Body {
    if e.response.Some? then e.response.value else e.body
  }

  /** The first candidate, or an empty one when the list is missing, empty or starts with a falsy entry. */
  function FirstCandidate(b: Body): Candidate {
    if b.candidates.Some? && |b.candidates.value| > 0 && b.candidates.value[0].Some? then b.candidates.value[0].value
    else Candidate(None, None)
  }

  /** The candidate's parts, or none when its content or the parts are missing. */
  function CandidateParts(c: Candidate): seq<Part> {
    if c.content.Some? && c.content.value.parts.Some? then c.content.value.parts.value else []
  }

  /**
   * The block one part contributes (the loop body). `k` is the part's position, which
   * picks the generated id of a call without one.
   */
  function PartToBlocks(p: Part, k: nat, newToolId: nat -> string): (r: Result<seq<Block>>)
    ensures r.Err? <==> p.NullPart?
    ensures r.Ok? ==> |r.value| <= 1
    ensures r.Ok? ==> (|r.value| == 1 && r.value[0].ToolUse? <==> p.FunctionCallPart?)
  {
    match p
    case NullPart => Err(TypeError)
    case TextPart(t) => Ok([Text(Some(t), map[])])
    case ThoughtPart(t, sig) =>
      if t.Some? then Ok([Thinking(t, Some(if TruthyString(sig) then sig.value else ""), map[])]) else Ok([])
    case FunctionCallPart(call, sig) =>
      var id := if TruthyString(call.id) then call.id.value else "toolu_" + newToolId(k);
      var input := if TruthyOpt(call.args) then call.args.value else JObj([]);
      Ok([ToolUse(Some(id), call.name, Some(input), if Signed(sig) then sig else None, map[])])
    case _ => Ok([])
  }

  /** The loop over the parts, the first at position `k`. */
  function PartsToBlocks(ps: seq<Part>, k: nat, newToolId: nat -> string): (r: Result<seq<Block>>)
    ensures r.Ok? ==> |r.value| <= |ps|
    decreases |ps|
  {
    if ps == [] then Ok([])
    else
      var head :- PartToBlocks(ps[0], k, newToolId);
      var rest :- PartsToBlocks(ps[1..], k + 1, newToolId);
      Ok(head + rest)
  }

  /** `hasToolCalls`: some part is a function call. */
  predicate HasToolCalls(ps: seq<Part>) {
    exists i :: 0 <= i < |ps| && ps[i].FunctionCallPart?
  }

  /** The stop reason: `STOP` and `MAX_TOKENS` win over tool calls, anything else is `end_turn`. */
  function StopReason(finishReason: Option<string>, hasToolCalls: bool): string {
    if finishReason == Some("STOP") then "end_turn"
    else if finishReason == Some("MAX_TOKENS") then "max_tokens"
    else if finishReason == Some("TOOL_USE") || hasToolCalls then "tool_use"
    else "end_turn"
  }

  /** A count that defaults to 0 when missing or falsy. */
  function CountOrZero(n: Option<int>): int {
    if TruthyInt(n) then n.value else 0
  }

  /** The usage block: input excludes the cached prompt tokens; cache creation is always 0. */
  function ConvertUsage(u: Option<UsageMetadata>): (r: Usage) {
    var m := if u.Some? then u.value else UsageMetadata(None, None, None);
    var cached := CountOrZero(m.cachedContentTokenCount);
    Usage(CountOrZero(m.promptTokenCount) - cached, CountOrZero(m.candidatesTokenCount), Some(cached), Some(0))
  }

  /** convertGoogleToAnthropic (src/format-converter.js:738-823). */
  function ConvertGoogleToAnthropic(e: Envelope, model: string, messageHex: string, newToolId: nat -> string): (r: Result<Response>)
    ensures r.Ok? ==> |r.value.content| >= 1
    ensures r.Ok? ==> r.value.id == "msg_" + messageHex && r.value.model == model && r.value.stopReason.Some?
  {
    var body := Unwrap(e);
    var candidate := FirstCandidate(body);
    var parts := CandidateParts(candidate);
    var blocks :- PartsToBlocks(parts, 0, newToolId);
    Ok(Response(
      "msg_" + messageHex,
      model,
      if |blocks| > 0 then blocks else [Text(Some(""), map[])],
      Some(StopReason(candidate.finishReason, HasToolCalls(parts))),
      ConvertUsage(body.usageMetadata)))
  }

  // ---------------------------------------------------------------------------
  // Properties
  // ---------------------------------------------------------------------------

  /** The conversion fails exactly when a part of the first candidate is `null`. */
  lemma {:induction false} PartsToBlocksFails(ps: seq<Part>, k: nat, newToolId: nat -> string)
    ensures PartsToBlocks(ps, k, newToolId).Err? <==> exists i :: 0 <= i < |ps| && ps[i].NullPart?
    decreases |ps|
  {
    if ps != [] {
      PartsToBlocksFails(ps[1..], k + 1, newToolId);
      assert forall i :: 1 <= i < |ps| ==> ps[1..][i - 1] == ps[i];
      if PartsToBlocks(ps[1..], k + 1, newToolId).Err? {
        var i :| 0 <= i < |ps[1..]| && ps[1..][i].NullPart?;
        assert ps[i + 1].NullPart?;
      }
    }
  }

  /** There is a tool_use block in the output exactly when there is a function call among the parts. */
  lemma ToolUseIffFunctionCall(ps: seq<Part>, k: nat, newToolId: nat -> string)
    requires PartsToBlocks(ps, k, newToolId).Ok?
    ensures HasToolUse(PartsToBlocks(ps, k, newToolId).value) <==> HasToolCalls(ps)
  {
    ToolUseFromCall(ps, k, newToolId);
    CallFromToolUse(ps, k, newToolId);
  }

  lemma {:induction false} ToolUseFromCall(ps: seq<Part>, k: nat, newToolId: nat -> string)
    requires PartsToBlocks(ps, k, newToolId).Ok?
    ensures HasToolCalls(ps) ==> HasToolUse(PartsToBlocks(ps, k, newToolId).value)
    decreases |ps|
  {
    if ps != [] && HasToolCalls(ps) {
      var head := PartToBlocks(ps[0], k, newToolId).value;
      var rest := PartsToBlocks(ps[1..], k + 1, newToolId).value;
      var bs := head + rest;
      var i :| 0 <= i < |ps| && ps[i].FunctionCallPart?;
      if i == 0 {
        assert bs[0].ToolUse?;
      } else {
        assert ps[1..][i - 1].FunctionCallPart?;
        ToolUseFromCall(ps[1..], k + 1, newToolId);
        var j :| 0 <= j < |rest| && rest[j].ToolUse?;
        assert bs[|head| + j] == rest[j];
      }
    }
  }

  lemma {:induction false} CallFromToolUse(ps: seq<Part>, k: nat, newToolId: nat -> string)
    requires PartsToBlocks(ps, k, newToolId).Ok?
    ensures HasToolUse(PartsToBlocks(ps, k, newToolId).value) ==> HasToolCalls(ps)
    decreases |ps|
  {
    if ps != [] && HasToolUse(PartsToBlocks(ps, k, newToolId).value) {
      var head := PartToBlocks(ps[0], k, newToolId).value;
      var rest := PartsToBlocks(ps[1..], k + 1, newToolId).value;
      var bs := head + rest;
      var j :| 0 <= j < |bs| && bs[j].ToolUse?;
      if j < |head| {
        assert ps[0].FunctionCallPart?;
      } else {
        assert rest[j - |head|].ToolUse?;
        CallFromToolUse(ps[1..], k + 1, newToolId);
        var i :| 0 <= i < |ps[1..]| && ps[1..][i].FunctionCallPart?;
        assert ps[i + 1].FunctionCallPart?;
      }
    }
  }

  /**
   * `tool_use` is reported exactly when the finish reason is neither STOP nor
   * MAX_TOKENS and either it says TOOL_USE or the reply calls a tool.
   */
  lemma StopReasonToolUse(e: Envelope, model: string, messageHex: string, newToolId: nat -> string)
    requires ConvertGoogleToAnthropic(e, model, messageHex, newToolId).Ok?
    ensures var r := ConvertGoogleToAnthropic(e, model, messageHex, newToolId).value;
      var f := FirstCandidate(Unwrap(e)).finishReason;
      var bs := PartsToBlocks(CandidateParts(FirstCandidate(Unwrap(e))), 0, newToolId).value;
      && (r.stopReason == Some("tool_use") <==>
            f != Some("STOP") && f != Some("MAX_TOKENS") && (f == Some("TOOL_USE") || HasToolUse(bs)))
      && (r.stopReason == Some("max_tokens") <==> f == Some("MAX_TOKENS"))
      && (r.stopReason == Some("end_turn") <==>
            f == Some("STOP") || (f != Some("MAX_TOKENS") && f != Some("TOOL_USE") && !HasToolUse(bs)))
  {
    ToolUseIffFunctionCall(CandidateParts(FirstCandidate(Unwrap(e))), 0, newToolId);
  }

  /** A STOP finish is reported as `end_turn` even when the reply calls a tool. */
  lemma StopWithToolCallIsEndTurn(call: FunctionCall, messageHex: string, newToolId: nat -> string)
    ensures var e := Envelope(None, Body(Some([Some(Candidate(Some(CandidateContent(Some([FunctionCallPart(call, None)]))), Some("STOP")))]), None));
      var r := ConvertGoogleToAnthropic(e, "m", messageHex, newToolId);
      && r.Ok?
      && r.value.content[0].ToolUse?
      && r.value.stopReason == Some("end_turn")
  {
    var ps := [FunctionCallPart(call, None)];
    assert ps[1..] == [];
    assert PartsToBlocks(ps, 0, newToolId).Ok?;
  }

  /** Input tokens exclude the cached ones; the two add up to the prompt count. */
  lemma UsageSplitsPrompt(u: UsageMetadata)
    ensures var r := ConvertUsage(Some(u));
      && r.inputTokens + r.cacheReadInputTokens.value == CountOrZero(u.promptTokenCount)
      && r.cacheReadInputTokens == Some(CountOrZero(u.cachedContentTokenCount))
      && r.cacheCreationInputTokens == Some(0)
  {
  }

  /** The skip sentinel a Gemini request carries is never echoed back as a signature. */
  lemma SkipSentinelNotEchoed(call: FunctionCall, k: nat, newToolId: nat -> string)
    ensures var r := PartToBlocks(FunctionCallPart(call, Some(SkipSignature)), k, newToolId).value;
      |r| == 1 && r[0].thoughtSignature.None?
  {
    assert |SkipSignature| < MinSignatureLength;
  }

  /**
   * A call's part-level signature is copied onto the tool_use block exactly when it
   * reaches the minimum length; a shorter or missing one is not.
   */
  lemma CallSignatureBoundary(call: FunctionCall, s: string, k: nat, newToolId: nat -> string)
    ensures |s| >= MinSignatureLength ==> PartToBlocks(FunctionCallPart(call, Some(s)), k, newToolId).value[0].thoughtSignature == Some(s)
    ensures |s| < MinSignatureLength ==> PartToBlocks(FunctionCallPart(call, Some(s)), k, newToolId).value[0].thoughtSignature.None?
    ensures PartToBlocks(FunctionCallPart(call, None), k, newToolId).value[0].thoughtSignature.None?
  {
  }

  /** A reply with no convertible part becomes a single empty text block. */
  lemma NoBlocksGiveEmptyText(e: Envelope, model: string, messageHex: string, newToolId: nat -> string)
    requires PartsToBlocks(CandidateParts(FirstCandidate(Unwrap(e))), 0, newToolId) == Ok([])
    ensures ConvertGoogleToAnthropic(e, model, messageHex, newToolId).Ok?
    ensures ConvertGoogleToAnthropic(e, model, messageHex, newToolId).value.content == [Text(Some(""), map[])]
  {
  }

  /**
   * The blocks an assistant turn survives a round trip with unchanged: a non-blank
   * text, a signed thinking block, and a tool call with an id and a truthy input and
   * no signature of its own (the ids are forwarded to Claude).
   */
  predicate RoundTrips(b: Block) {
    match b
    case Text(t, extra) => t.Some? && t.value != "" && !IsBlank(t.value) && extra == map[]
    case Thinking(t, sig, extra) => t.Some? && Signed(sig) && extra == map[]
    case ToolUse(id, _, input, ts, extra) => TruthyString(id) && TruthyOpt(input) && ts.None? && extra == map[]
    case _ => false
  }

  /**
   * Converting such blocks to Claude request parts and reading those parts back as
   * a response gives the blocks back: the two directions are inverse on them.
   */
  lemma {:induction false} ClaudeRoundTrip(bs: seq<Block>, k: nat, newToolId: nat -> string)
    requires forall i :: 0 <= i < |bs| ==> RoundTrips(bs[i])
    ensures BlocksToParts(bs, true, false).Ok?
    ensures PartsToBlocks(BlocksToParts(bs, true, false).value, k, newToolId) == Ok(bs)
    decreases |bs|
  {
    if bs != [] {
      var b := bs[0];
      assert RoundTrips(b);
      assert !Throws(b);
      assert forall i :: 1 <= i < |bs| ==> bs[1..][i - 1] == bs[i];
      ClaudeRoundTrip(bs[1..], k + 1, newToolId);
      var p := BlockToParts(b, true, false).value;
      var ps := BlocksToParts(bs[1..], true, false).value;
      BlockRoundTrip(b, k, newToolId);
      assert BlocksToParts(bs, true, false).value == p + ps;
      assert (p + ps)[1..] == ps;
      assert bs == [b] + bs[1..];
    }
  }

  /** One block of the round trip: it becomes exactly one part, which reads back as the block. */
  lemma BlockRoundTrip(b: Block, k: nat, newToolId: nat -> string)
    requires RoundTrips(b)
    ensures BlockToParts(b, true, false).Ok?
    ensures var p := BlockToParts(b, true, false).value;
      |p| == 1 && PartToBlocks(p[0], k, newToolId) == Ok([b])
  {
  }
}

=== FILE: js.dfy ===
/**
 * The JavaScript values the converters manipulate: a JSON tree whose objects keep
 * every key in insertion order, JavaScript truthiness, and the handful of string
 * operations the code relies on. JavaScript lists integer-like keys such as "0" first,
 * in ascending order; the model does not.
 */
module Js {
  import opened Wrappers

  /** The message every `TypeError` the converters raise (reading a property of null) is reported as. */
  const TypeError: string := "TypeError"

  /** A JSON value. Objects are association lists in insertion order. */
  datatype Json =
    | JNull
    | JBool(b: bool)
    | JNum(n: real)
    | JStr(s: string)
    | JArr(items: seq<Json>)
    | JObj(fields: seq<(string, Json)>)

  /** JavaScript truthiness of a present value (NaN and -0 are not modelled). */
  predicate Truthy(j: Json) {
    match j
    case JNull => false
    case JBool(b) => b
    case JNum(n) => n != 0.0
    case JStr(s) => s != ""
    case JArr(_) => true
    case JObj(_) => true
  }

  /** Truthiness of a possibly-missing value: `undefined` is falsy. */
  predicate TruthyOpt(j: Option<Json>) {
    j.Some? && Truthy(j.value)
  }

  /** Truthiness of a possibly-missing string: `undefined` and `''` are falsy. */
  predicate TruthyString(s: Option<string>) {
    s.Some? && s.value != ""
  }

  /** Truthiness of a possibly-missing number: `undefined` and `0` are falsy. */
  predicate TruthyInt(n: Option<int>) {
    n.Some? && n.value != 0
  }

  /** JavaScript's object test without null: arrays and plain objects. */
  predicate IsObject(j: Json) {
    j.JArr? || j.JObj?
  }

  /** Whether a value has no own enumerable keys: an empty object, array or string, or any other primitive. */
  predicate HasNoKeys(j: Json) {
    match j
    case JObj(fs) => fs == []
    case JArr(xs) => xs == []
    case JStr(s) => s == ""
    case _ => true
  }

  // ---------------------------------------------------------------------------
  // Objects as ordered association lists
  // ---------------------------------------------------------------------------

  /** The set of keys of an object. */
  function Keys(fs: seq<(string, Json)>): set<string> {
    set p | p in fs :: p.0
  }

  lemma KeysCons(fs: seq<(string, Json)>)
    requires fs != []
    ensures Keys(fs) == {fs[0].0} + Keys(fs[1..])
  {
    assert fs == [fs[0]] + fs[1..];
  }

  /** Property read `o[k]`: the value stored under `k`, or `None` for `undefined`. */
  function Lookup(fs: seq<(string, Json)>, k: string): (v: Option<Json>)
    ensures v.Some? <==> k in Keys(fs)
    ensures v.Some? ==> (k, v.value) in fs
  {
    if fs == [] then None
    else if fs[0].0 == k then Some(fs[0].1)
    else Lookup(fs[1..], k)
  }

  /** Reading an object whose first entry is `e`. */
  lemma LookupCons(e: (string, Json), fs: seq<(string, Json)>, k: string)
    ensures Lookup([e] + fs, k) == if e.0 == k then Some(e.1) else Lookup(fs, k)
  {
    assert ([e] + fs)[1..] == fs;
  }

  /** Property write `o[k] = v`: replaces an existing key in place, appends a new one. */
  function Put(fs: seq<(string, Json)>, k: string, v: Json): (r: seq<(string, Json)>)
    ensures Lookup(r, k) == Some(v)
    ensures forall k' :: k' != k ==> Lookup(r, k') == Lookup(fs, k')
    ensures k in Keys(fs) ==> |r| == |fs|
  {
    if fs == [] then [(k, v)]
    else if fs[0].0 == k then
      KeysCons(fs);
      KeysCons([(k, v)] + fs[1..]);
      assert ([(k, v)] + fs[1..])[1..] == fs[1..];
      [(k, v)] + fs[1..]
    else [fs[0]] + Put(fs[1..], k, v)
  }

  /** A write adds no entry other than the one written. */
  lemma PutMembers(fs: seq<(string, Json)>, k: string, v: Json)
    ensures forall p :: p in Put(fs, k, v) ==> p in fs || p == (k, v)
  {
    if fs != [] && fs[0].0 != k {
      PutMembers(fs[1..], k, v);
    }
  }

  /** Writing a new key appends it. */
  lemma {:induction false} PutNew(fs: seq<(string, Json)>, k: string, v: Json)
    requires k !in Keys(fs)
    ensures Put(fs, k, v) == fs + [(k, v)]
  {
    if fs != [] {
      KeysCons(fs);
      PutNew(fs[1..], k, v);
      assert Put(fs, k, v) == [fs[0]] + (fs[1..] + [(k, v)]);
      ConcatAssoc([fs[0]], fs[1..], [(k, v)]);
      assert fs == [fs[0]] + fs[1..];
    }
  }

  /** Sequence concatenation is associative. */
  lemma ConcatAssoc<T>(a: seq<T>, b: seq<T>, c: seq<T>)
    ensures a + (b + c) == (a + b) + c
  {
  }

  /** `delete o[k]`. */
  function Remove(fs: seq<(string, Json)>, k: string): (r: seq<(string, Json)>)
    ensures Lookup(r, k) == None
    ensures forall k' :: k' != k ==> Lookup(r, k') == Lookup(fs, k')
    ensures forall p :: p in r ==> p in fs && p.0 != k
    ensures |r| <= |fs|
  {
    if fs == [] then []
    else
      KeysCons(fs);
      if fs[0].0 == k then Remove(fs[1..], k)
      else
        var r := [fs[0]] + Remove(fs[1..], k);
        KeysCons(r);
        assert r[1..] == Remove(fs[1..], k);
        r
  }

  /** `delete o[k]` for every key in `ks`: the entries whose key is not in `ks`, in order. */
  function RemoveAll(fs: seq<(string, Json)>, ks: seq<string>): (r: seq<(string, Json)>)
    ensures forall k' :: k' !in ks ==> Lookup(r, k') == Lookup(fs, k')
    ensures forall p :: p in r ==> p in fs && p.0 !in ks
    ensures |r| <= |fs|
  {
    if fs == [] then []
    else
      KeysCons(fs);
      if fs[0].0 in ks then RemoveAll(fs[1..], ks)
      else
        var r := [fs[0]] + RemoveAll(fs[1..], ks);
        KeysCons(r);
        assert r[1..] == RemoveAll(fs[1..], ks);
        r
  }

  /** An object literal with distinct keys, as JavaScript objects always have. */
  predicate DistinctKeys(fs: seq<(string, Json)>) {
    forall i, j :: 0 <= i < j < |fs| ==> fs[i].0 != fs[j].0
  }

  // ---------------------------------------------------------------------------
  // Strings
  // ---------------------------------------------------------------------------

  /** The characters `String.prototype.trim` removes: WhiteSpace and LineTerminator. */
  predicate IsJsWhitespace(c: char) {
    || c == '\t' || c == '\n' || c == '\U{000B}' || c == '\U{000C}' || c == '\r' || c == ' '
    || c == '\U{00A0}' || c == '\U{1680}' || ('\U{2000}' <= c <= '\U{200A}')
    || c == '\U{2028}' || c == '\U{2029}' || c == '\U{202F}' || c == '\U{205F}'
    || c == '\U{3000}' || c == '\U{FEFF}'
  }

  /** Empty, or made only of whitespace. */
  predicate IsBlank(s: string) {
    forall i :: 0 <= i < |s| ==> IsJsWhitespace(s[i])
  }

  /** The strings in order, with `sep` between neighbours. */
  function Join(xs: seq<string>, sep: string): (r: string)
    ensures xs == [] ==> r == ""
    ensures |xs| == 1 ==> r == xs[0]
  {
    if xs == [] then ""
    else if |xs| == 1 then xs[0]
    else xs[0] + sep + Join(xs[1..], sep)
  }

  /** Whether `p` is a prefix of `s`. */
  predicate StartsWith(s: string, p: string) {
    |p| <= |s| && s[..|p|] == p
  }

  /** Whether `sub` occurs in `s` at some position. */
  predicate Contains(s: string, sub: string) {
    StartsWith(s, sub) || (s != [] && Contains(s[1..], sub))
  }

  /** `String(n)` for a natural number: its decimal digits. */
  function NatToString(n: nat): (r: string)
    ensures |r| >= 1
    ensures forall i :: 0 <= i < |r| ==> '0' <= r[i] <= '9'
  {
    var d := ['0' + (n % 10) as char];
    if n < 10 then d else NatToString(n / 10) + d
  }

  /** The first `n` characters of `s`, or all of `s` when it is shorter. */
  function Take(s: string, n: nat): (r: string)
    ensures |r| == if |s| < n then |s| else n
    ensures r <= s
  {
    if |s| <= n then s else s[..n]
  }
}

=== FILE: openai_request.dfy ===
/**
 * OpenAI Chat Completions request to Anthropic Messages request
 * (convertOpenAIToAnthropic, src/format/openai/request-converter.js:16-162).
 *
 * JSON.parse is the parameter `parse` (`None` when it throws); isThinkingModel
 * (src/constants.js, not part of this model) is the parameter `isThinkingModel`; the
 * random hex of a tool call without an id is `newToolId(k, j)` for call `j` of message `k`.
 */
module OpenAIRequest {
  import opened Wrappers
  import opened Js
  import opened Anthropic

  /** The `max_tokens` used when the request names neither limit. */
  const DefaultMaxTokens: int := 4096

  /** The thinking budget of an unrecognised `reasoning_effort`, and of `medium`. */
  const DefaultReasoningBudget: int := 10000

  /** `tc.fn.arguments`: a JSON text to parse, or any other value used as it is. */
  datatype Arguments = ArgumentsText(text: string) | ArgumentsValue(value: Option<Json>)

  datatype CallFunction = CallFunction(name: Option<string>, arguments: Arguments)

  /** One entry of `tool_calls`; `fn` (the `function` property) may be missing. */
  datatype ToolCall = ToolCall(id: Option<string>, fn: Option<CallFunction>)

  /** A role the converter ignores. */
  type OtherRole = r: string | r != "system" && r != "user" && r != "assistant" && r != "tool" witness "function"

  /**
   * A chat message, by role. An assistant's content is a string or missing; a user's,
   * system's or tool's content is passed on as it is.
   */
  datatype ChatMessage =
    | SystemMessage(content: Content)
    | UserMessage(content: Content)
    | AssistantMessage(text: Option<string>, toolCalls: Option<seq<ToolCall>>)
    | ToolMessage(toolCallId: Option<string>, content: Content)
    | OtherMessage(role: OtherRole)

  datatype ChatFunction = ChatFunction(name: Option<string>, description: Option<string>, parameters: Option<Json>)

  /** A tool declaration `{type: 'function', function}`; `fn` (the `function` property) may be missing. */
  datatype ChatTool = ChatTool(fn: Option<ChatFunction>)

  /** `tool_choice`: a string, an object, or a number/boolean of the given truthiness. */
  datatype ChatToolChoice =
    | ChoiceText(text: string)
    | ChoiceObject(kind: Option<string>, fn: Option<ChatFunctionRef>)
    | ChoiceOther(truthy: bool)

  datatype ChatFunctionRef = ChatFunctionRef(name: Option<string>)

  /** `stop`: one sequence or several. */
  datatype ChatStop = StopText(text: string) | StopList(items: seq<string>)

  datatype ChatRequest = ChatRequest(
    model: Option<string>,
    messages: seq<ChatMessage>,
    tools: Option<seq<ChatTool>>,
    toolChoice: Option<ChatToolChoice>,
    maxTokens: Option<int>,
    maxCompletionTokens: Option<int>,
    temperature: Option<Json>,
    topP: Option<Json>,
    stop: Option<ChatStop>,
    stream: Option<bool>,
    reasoningEffort: Option<string>)

  // ---------------------------------------------------------------------------
  // System prompt
  // ---------------------------------------------------------------------------

  /** How `Array.prototype.join` renders a message content: `String(x)`, with null and undefined as `''`. */
  function JoinedForm(c: Content): string {
    match c
    case StrContent(s) => s
    case BlockContent(bs) => Join(seq(|bs|, i requires 0 <= i < |bs| => if bs[i].Absent? then "" else "[object Object]"), ",")
    case ObjectContent(_) => "[object Object]"
    case NullContent => ""
    case UndefinedContent => ""
  }

  /** The contents of the system messages, in order. */
  function SystemContents(ms: seq<ChatMessage>): (r: seq<string>)
    ensures |r| <= |ms|
  {
    if ms == [] then []
    else (if ms[0].SystemMessage? then [JoinedForm(ms[0].content)] else []) + SystemContents(ms[1..])
  }

  /** The `system` field: the system contents joined by a blank line, omitted when that is empty. */
  function SystemPromptOf(ms: seq<ChatMessage>): (r: SystemPrompt)
    ensures r.NoSystem? || r.SystemText?
    ensures r.SystemText? ==> r.text != "" && r.text == Join(SystemContents(ms), "\n\n")
    ensures SystemContents(ms) == [] ==> r.NoSystem?
    ensures Join(SystemContents(ms), "\n\n") != "" ==> r == SystemText(Join(SystemContents(ms), "\n\n"))
  {
    var joined := Join(SystemContents(ms), "\n\n");
    if joined != "" then SystemText(joined) else NoSystem
  }

  // ---------------------------------------------------------------------------
  // Assistant messages
  // ---------------------------------------------------------------------------

  /** One tool call as a tool_use block; arguments that do not parse become `{}`. */
  function ToolCallBlock(tc: ToolCall, k: nat, j: nat, parse: string -> Option<Json>, newToolId: (nat, nat) -> string): (r: Result<Block>)
    ensures r.Err? <==> tc.fn.None?
    ensures r.Ok? ==> r.value.ToolUse? && TruthyString(r.value.id) && r.value.name == tc.fn.value.name
  {
    if tc.fn.None? then Err(TypeError)
    else
      var f := tc.fn.value;
      var input := (match f.arguments
        case ArgumentsText(s) => if parse(s).Some? then parse(s) else Some(JObj([]))
        case ArgumentsValue(v) => v);
      var id := if TruthyString(tc.id) then tc.id.value else "toolu_" + newToolId(k, j);
      Ok(ToolUse(Some(id), f.name, input, None, map[]))
  }

  /** The tool_use blocks of the calls from index `j` on. */
  function ToolCallBlocks(calls: seq<ToolCall>, j: nat, k: nat, parse: string -> Option<Json>, newToolId: (nat, nat) -> string): (r: Result<seq<Block>>)
    requires j <= |calls|
    ensures r.Ok? ==> |r.value| == |calls| - j
    ensures r.Err? <==> exists i :: j <= i < |calls| && calls[i].fn.None?
    decreases |calls| - j
  {
    if j == |calls| then Ok([])
    else
      var head := ToolCallBlock(calls[j], k, j, parse, newToolId);
      var rest := ToolCallBlocks(calls, j + 1, k, parse, newToolId);
      if head.Err? then Err(head.message)
      else if rest.Err? then rest
      else Ok([head.value] + rest.value)
  }

  /** An assistant message's blocks: its text when truthy, then one tool_use per call in order. */
  function AssistantBlocks(text: Option<string>, calls: Option<seq<ToolCall>>, k: nat,
                           parse: string -> Option<Json>, newToolId: (nat, nat) -> string): (r: Result<seq<Block>>)
    ensures r.Ok? && TruthyString(text) ==> |r.value| >= 1 && r.value[0] == Text(text, map[])
  {
    var textBlocks := if TruthyString(text) then [Text(text, map[])] else [];
    if calls.Some? && |calls.value| > 0 then
      var uses :- ToolCallBlocks(calls.value, 0, k, parse, newToolId);
      Ok(textBlocks + uses)
    else Ok(textBlocks)
  }

  /**
   * A tool call's block: arguments given as text are parsed, and text that does not
   * parse gives `{}` instead of aborting; other arguments are used as they are; a
   * missing id is replaced by a generated `toolu_` one.
   */
  lemma ToolCallInput(tc: ToolCall, k: nat, j: nat, parse: string -> Option<Json>, newToolId: (nat, nat) -> string)
    requires tc.fn.Some?
    ensures var b := ToolCallBlock(tc, k, j, parse, newToolId).value;
      && (tc.fn.value.arguments.ArgumentsText? && parse(tc.fn.value.arguments.text).None? ==> b.input == Some(JObj([])))
      && (tc.fn.value.arguments.ArgumentsText? && parse(tc.fn.value.arguments.text).Some? ==> b.input == parse(tc.fn.value.arguments.text))
      && (tc.fn.value.arguments.ArgumentsValue? ==> b.input == tc.fn.value.arguments.value)
      && (TruthyString(tc.id) ==> b.id == tc.id)
      && (!TruthyString(tc.id) ==> b.id == Some("toolu_" + newToolId(k, j)))
  {
  }

  /** Block `i` of the calls' blocks is call `j + i`'s. */
  lemma {:induction false} ToolCallBlocksAt(calls: seq<ToolCall>, j: nat, k: nat, parse: string -> Option<Json>,
                                            newToolId: (nat, nat) -> string, i: nat)
    requires j <= |calls| && ToolCallBlocks(calls, j, k, parse, newToolId).Ok? && i < |calls| - j
    ensures ToolCallBlocks(calls, j, k, parse, newToolId).value[i] == ToolCallBlock(calls[j + i], k, j + i, parse, newToolId).value
    decreases i
  {
    if i > 0 {
      ToolCallBlocksAt(calls, j + 1, k, parse, newToolId, i - 1);
    }
  }

  /**
   * An assistant message gives its text block (when the text is truthy) followed by one
   * tool_use block per call, in order; with neither it gives nothing and is dropped.
   */
  lemma AssistantLayout(text: Option<string>, calls: Option<seq<ToolCall>>, k: nat,
                        parse: string -> Option<Json>, newToolId: (nat, nat) -> string)
    requires AssistantBlocks(text, calls, k, parse, newToolId).Ok?
    ensures var bs := AssistantBlocks(text, calls, k, parse, newToolId).value;
      var n := if calls.Some? then |calls.value| else 0;
      var t := if TruthyString(text) then 1 else 0;
      && |bs| == t + n
      && (t == 1 ==> bs[0] == Text(text, map[]))
      && (forall i :: 0 <= i < n ==> bs[t + i] == ToolCallBlock(calls.value[i], k, i, parse, newToolId).value)
      && (bs == [] <==> !TruthyString(text) && n == 0)
  {
    var n := if calls.Some? then |calls.value| else 0;
    var t := if TruthyString(text) then 1 else 0;
    if n > 0 {
      forall i | 0 <= i < n
        ensures AssistantBlocks(text, calls, k, parse, newToolId).value[t + i] == ToolCallBlock(calls.value[i], k, i, parse, newToolId).value
      {
        ToolCallBlocksAt(calls.value, 0, k, parse, newToolId, i);
      }
    }
  }

  // ---------------------------------------------------------------------------
  // The message loop
  // ---------------------------------------------------------------------------

  /** A user message holding the buffered tool results, if there are any. */
  function Flush(pending: seq<Block>): (r: seq<Message>)
    ensures |r| <= 1
    ensures pending != [] ==> r == [Message("user", BlockContent(pending))]
  {
    if |pending| > 0 then [Message("user", BlockContent(pending))] else []
  }

  /** The tool_result block a tool message is buffered as. */
  function ToolResultOf(m: ChatMessage): Block
    requires m.ToolMessage?
  {
    ToolResult(m.toolCallId, m.content, map[])
  }

  /** The assistant message an assistant entry contributes, if any. */
  function AssistantMessages(blocks: seq<Block>): seq<Message> {
    if |blocks| > 0 then [Message("assistant", BlockContent(blocks))] else []
  }

  /**
   * The loop over the messages from `k` on, with the output so far and the buffered
   * tool results; system messages are skipped (they were filtered out beforehand).
   */
  function ConvertMessages(ms: seq<ChatMessage>, k: nat, out: seq<Message>, pending: seq<Block>,
                           parse: string -> Option<Json>, newToolId: (nat, nat) -> string): (r: Result<seq<Message>>)
    requires k <= |ms|
    decreases |ms| - k
  {
    if k == |ms| then Ok(out + Flush(pending))
    else
      match ms[k]
      case UserMessage(c) => ConvertMessages(ms, k + 1, out + Flush(pending) + [Message("user", c)], [], parse, newToolId)
      case AssistantMessage(t, calls) =>
        var blocks :- AssistantBlocks(t, calls, k, parse, newToolId);
        ConvertMessages(ms, k + 1, out + AssistantMessages(blocks), pending, parse, newToolId)
      case ToolMessage(_, _) => ConvertMessages(ms, k + 1, out, pending + [ToolResultOf(ms[k])], parse, newToolId)
      case _ => ConvertMessages(ms, k + 1, out, pending, parse, newToolId)
  }

  // ---------------------------------------------------------------------------
  // A declarative description of the grouping
  // ---------------------------------------------------------------------------

  /** The tool_result blocks of the tool messages of `ms`, in order. */
  function ToolResultsIn(ms: seq<ChatMessage>): seq<Block> {
    if ms == [] then []
    else
      var last := ms[|ms| - 1];
      ToolResultsIn(ms[..|ms| - 1]) + (if last.ToolMessage? then [ToolResultOf(last)] else [])
  }

  /** The position of the last user message before `k`, or -1 when there is none. */
  function LastUser(ms: seq<ChatMessage>, k: nat): (r: int)
    requires k <= |ms|
    ensures -1 <= r < k
    ensures r >= 0 ==> ms[r].UserMessage?
    ensures forall j :: r < j < k ==> !ms[j].UserMessage?
  {
    if k == 0 then -1
    else if ms[k - 1].UserMessage? then k - 1
    else LastUser(ms, k - 1)
  }

  /** The tool results waiting before message `k`: those of the tool messages since the last user message. */
  function PendingAt(ms: seq<ChatMessage>, k: nat): seq<Block>
    requires k <= |ms|
  {
    ToolResultsIn(ms[LastUser(ms, k) + 1..k])
  }

  /**
   * The output, message by message: a user message is preceded by the results of the
   * tool messages since the previous user message; the results after the last user
   * message come at the end; assistant messages flush nothing.
   */
  function Reference(ms: seq<ChatMessage>, k: nat, parse: string -> Option<Json>, newToolId: (nat, nat) -> string): (r: Result<seq<Message>>)
    requires k <= |ms|
    decreases |ms| - k
  {
    if k == |ms| then Ok(Flush(PendingAt(ms, k)))
    else
      match ms[k]
      case UserMessage(c) =>
        var rest :- Reference(ms, k + 1, parse, newToolId);
        Ok(Flush(PendingAt(ms, k)) + [Message("user", c)] + rest)
      case AssistantMessage(t, calls) =>
        var blocks :- AssistantBlocks(t, calls, k, parse, newToolId);
        var rest :- Reference(ms, k + 1, parse, newToolId);
        Ok(AssistantMessages(blocks) + rest)
      case _ => Reference(ms, k + 1, parse, newToolId)
  }

  /** How the buffer evolves across message `k`. */
  lemma PendingStep(ms: seq<ChatMessage>, k: nat)
    requires k < |ms|
    ensures ms[k].UserMessage? ==> PendingAt(ms, k + 1) == []
    ensures ms[k].ToolMessage? ==> PendingAt(ms, k + 1) == PendingAt(ms, k) + [ToolResultOf(ms[k])]
    ensures !ms[k].UserMessage? && !ms[k].ToolMessage? ==> PendingAt(ms, k + 1) == PendingAt(ms, k)
  {
    if !ms[k].UserMessage? {
      var a := LastUser(ms, k) + 1;
      assert LastUser(ms, k + 1) + 1 == a;
      var s := ms[a..k + 1];
      assert s[..|s| - 1] == ms[a..k];
      assert s[|s| - 1] == ms[k];
    }
  }

  /** `out` followed by a successful result; a failure stays as it is. */
  function After(out: seq<Message>, r: Result<seq<Message>>): Result<seq<Message>> {
    if r.Ok? then Ok(out + r.value) else r
  }

  /** The loop computes the reference output, whatever came before. */
  lemma {:induction false} ConvertMatchesReference(ms: seq<ChatMessage>, k: nat, out: seq<Message>,
                                                   parse: string -> Option<Json>, newToolId: (nat, nat) -> string)
    requires k <= |ms|
    ensures ConvertMessages(ms, k, out, PendingAt(ms, k), parse, newToolId) == After(out, Reference(ms, k, parse, newToolId))
    decreases |ms| - k
  {
    if k < |ms| {
      PendingStep(ms, k);
      if ms[k].UserMessage? {
        ConvertMatchesReference(ms, k + 1, out + Flush(PendingAt(ms, k)) + [Message("user", ms[k].content)], parse, newToolId);
        UserCase(ms, k, out, parse, newToolId);
      } else if ms[k].AssistantMessage? {
        var blocks := AssistantBlocks(ms[k].text, ms[k].toolCalls, k, parse, newToolId);
        if blocks.Ok? {
          ConvertMatchesReference(ms, k + 1, out + AssistantMessages(blocks.value), parse, newToolId);
        }
        AssistantCase(ms, k, out, parse, newToolId);
      } else {
        ConvertMatchesReference(ms, k + 1, out, parse, newToolId);
        PassCase(ms, k, out, parse, newToolId);
      }
    }
  }

  lemma UserCase(ms: seq<ChatMessage>, k: nat, out: seq<Message>, parse: string -> Option<Json>, newToolId: (nat, nat) -> string)
    requires k < |ms| && ms[k].UserMessage?
    requires PendingAt(ms, k + 1) == []
    requires var out' := out + Flush(PendingAt(ms, k)) + [Message("user", ms[k].content)];
      ConvertMessages(ms, k + 1, out', [], parse, newToolId) == After(out', Reference(ms, k + 1, parse, newToolId))
    ensures ConvertMessages(ms, k, out, PendingAt(ms, k), parse, newToolId) == After(out, Reference(ms, k, parse, newToolId))
  {
    var head := Flush(PendingAt(ms, k)) + [Message("user", ms[k].content)];
    var ref := Reference(ms, k + 1, parse, newToolId);
    var out' := out + Flush(PendingAt(ms, k)) + [Message("user", ms[k].content)];
    assert out' == out + head;
    assert ConvertMessages(ms, k, out, PendingAt(ms, k), parse, newToolId) == ConvertMessages(ms, k + 1, out', [], parse, newToolId);
    if ref.Ok? {
      assert Reference(ms, k, parse, newToolId) == Ok(head + ref.value);
      assert out' + ref.value == out + (head + ref.value);
    }
  }

  lemma AssistantCase(ms: seq<ChatMessage>, k: nat, out: seq<Message>, parse: string -> Option<Json>, newToolId: (nat, nat) -> string)
    requires k < |ms| && ms[k].AssistantMessage?
    requires PendingAt(ms, k + 1) == PendingAt(ms, k)
    requires var blocks := AssistantBlocks(ms[k].text, ms[k].toolCalls, k, parse, newToolId);
      blocks.Ok? ==>
        var out' := out + AssistantMessages(blocks.value);
        ConvertMessages(ms, k + 1, out', PendingAt(ms, k), parse, newToolId) == After(out', Reference(ms, k + 1, parse, newToolId))
    ensures ConvertMessages(ms, k, out, PendingAt(ms, k), parse, newToolId) == After(out, Reference(ms, k, parse, newToolId))
  {
    var blocks := AssistantBlocks(ms[k].text, ms[k].toolCalls, k, parse, newToolId);
    if blocks.Ok? {
      var ref := Reference(ms, k + 1, parse, newToolId);
      if ref.Ok? {
        assert out + AssistantMessages(blocks.value) + ref.value == out + (AssistantMessages(blocks.value) + ref.value);
      }
    }
  }

  lemma PassCase(ms: seq<ChatMessage>, k: nat, out: seq<Message>, parse: string -> Option<Json>, newToolId: (nat, nat) -> string)
    requires k < |ms| && !ms[k].UserMessage? && !ms[k].AssistantMessage?
    requires ms[k].ToolMessage? ==> PendingAt(ms, k + 1) == PendingAt(ms, k) + [ToolResultOf(ms[k])]
    requires !ms[k].ToolMessage? ==> PendingAt(ms, k + 1) == PendingAt(ms, k)
    requires ConvertMessages(ms, k + 1, out, PendingAt(ms, k + 1), parse, newToolId) == After(out, Reference(ms, k + 1, parse, newToolId))
    ensures ConvertMessages(ms, k, out, PendingAt(ms, k), parse, newToolId) == After(out, Reference(ms, k, parse, newToolId))
  {
  }

  /** The whole message conversion is the reference output. */
  lemma MessagesAreReference(ms: seq<ChatMessage>, parse: string -> Option<Json>, newToolId: (nat, nat) -> string)
    ensures ConvertMessages(ms, 0, [], [], parse, newToolId) == Reference(ms, 0, parse, newToolId)
  {
    assert PendingAt(ms, 0) == [];
    ConvertMatchesReference(ms, 0, [], parse, newToolId);
    var ref := Reference(ms, 0, parse, newToolId);
    if ref.Ok? {
      assert [] + ref.value == ref.value;
    }
  }

  /**
   * Tool results before an assistant message stay buffered: the assistant turn is
   * emitted first and the results reach the following user message.
   */
  lemma AssistantDoesNotFlush(id: Option<string>, result: Content, text: string, user: Content,
                              parse: string -> Option<Json>, newToolId: (nat, nat) -> string)
    requires text != ""
    ensures ConvertMessages([ToolMessage(id, result), AssistantMessage(Some(text), None), UserMessage(user)], 0, [], [], parse, newToolId)
      == Ok([Message("assistant", BlockContent([Text(Some(text), map[])])),
             Message("user", BlockContent([ToolResult(id, result, map[])])),
             Message("user", user)])
  {
    var ms := [ToolMessage(id, result), AssistantMessage(Some(text), None), UserMessage(user)];
    var tr := ToolResult(id, result, map[]);
    var asst := Message("assistant", BlockContent([Text(Some(text), map[])]));
    var expected := [asst, Message("user", BlockContent([tr])), Message("user", user)];
    assert ConvertMessages(ms, 0, [], [], parse, newToolId) == ConvertMessages(ms, 1, [], [] + [tr], parse, newToolId);
    assert [] + [tr] == [tr];
    assert AssistantBlocks(Some(text), None, 1, parse, newToolId) == Ok([Text(Some(text), map[])]);
    assert AssistantMessages([Text(Some(text), map[])]) == [asst];
    assert ConvertMessages(ms, 1, [], [tr], parse, newToolId) == ConvertMessages(ms, 2, [] + [asst], [tr], parse, newToolId);
    assert [] + [asst] == [asst];
    assert [asst] + Flush([tr]) + [Message("user", user)] == expected;
    assert ConvertMessages(ms, 2, [asst], [tr], parse, newToolId) == ConvertMessages(ms, 3, expected, [], parse, newToolId);
    assert ConvertMessages(ms, 3, expected, [], parse, newToolId) == Ok(expected + Flush([]));
    assert expected + Flush([]) == expected;
  }

  // ---------------------------------------------------------------------------
  // Request fields
  // ---------------------------------------------------------------------------

  /** The mapped budget for a known effort, else 10000. */
  function ReasoningBudget(effort: string): (r: int)
    ensures effort == "low" ==> r == 4096
    ensures effort == "high" ==> r == 32000
    ensures effort != "low" && effort != "high" ==> r == DefaultReasoningBudget
  {
    if effort == "low" then 4096
    else if effort == "medium" then 10000
    else if effort == "high" then 32000
    else DefaultReasoningBudget
  }

  /** The thinking parameter: only for a truthy effort on a thinking model. */
  function ThinkingFor(effort: Option<string>, thinkingModel: bool): (r: Option<ThinkingParam>)
    ensures r.Some? <==> TruthyString(effort) && thinkingModel
    ensures r.Some? ==> r.value.budgetTokens == Some(ReasoningBudget(effort.value))
  {
    if TruthyString(effort) && thinkingModel then Some(ThinkingParam(Some(ReasoningBudget(effort.value)))) else None
  }

  /** The first truthy of `max_completion_tokens` and `max_tokens`, else 4096. */
  function MaxTokensOf(maxCompletionTokens: Option<int>, maxTokens: Option<int>): (r: int)
    ensures r != 0
    ensures TruthyInt(maxCompletionTokens) ==> r == maxCompletionTokens.value
    ensures !TruthyInt(maxCompletionTokens) && TruthyInt(maxTokens) ==> r == maxTokens.value
    ensures !TruthyInt(maxCompletionTokens) && !TruthyInt(maxTokens) ==> r == DefaultMaxTokens
  {
    if TruthyInt(maxCompletionTokens) then maxCompletionTokens.value
    else if TruthyInt(maxTokens) then maxTokens.value
    else DefaultMaxTokens
  }

  /** Whether a `tool_choice` value is falsy. */
  predicate FalsyChoice(c: Option<ChatToolChoice>) {
    c.None? || (c.value.ChoiceText? && c.value.text == "") || (c.value.ChoiceOther? && !c.value.truthy)
  }

  /** The tool_choice mapping; `None` when the value is none of the recognised shapes. */
  function ToolChoiceOf(c: Option<ChatToolChoice>): (r: Result<Option<ToolChoice>>)
    ensures r.Err? <==> c.Some? && c.value.ChoiceObject? && c.value.kind == Some("function") && c.value.fn.None?
    ensures c == Some(ChoiceText("none")) ==> r == Ok(Some(ChooseNone))
    ensures c == Some(ChoiceText("auto")) || FalsyChoice(c) ==> r == Ok(Some(ChooseAuto))
    ensures c.Some? && c.value.ChoiceObject? && c.value.kind == Some("function") && c.value.fn.Some? ==>
      r == Ok(Some(ChooseTool(c.value.fn.value.name)))
    ensures (c.Some? && !FalsyChoice(c) && c.value != ChoiceText("none") && c.value != ChoiceText("auto")
             && !(c.value.ChoiceObject? && c.value.kind == Some("function"))) ==> r == Ok(None)
  {
    if c == Some(ChoiceText("none")) then Ok(Some(ChooseNone))
    else if c == Some(ChoiceText("auto")) || FalsyChoice(c) then Ok(Some(ChooseAuto))
    else if c.value.ChoiceObject? && c.value.kind == Some("function") then
      if c.value.fn.None? then Err(TypeError) else Ok(Some(ChooseTool(c.value.fn.value.name)))
    else Ok(None)
  }

  /** Only these shapes give a tool_choice; any other value is left out of the request. */
  lemma ToolChoiceOmitted(c: Option<ChatToolChoice>)
    ensures ToolChoiceOf(c) == Ok(None) <==>
      && c.Some? && !FalsyChoice(c)
      && (c.value.ChoiceText? ==> c.value.text != "none" && c.value.text != "auto")
      && (c.value.ChoiceObject? ==> c.value.kind != Some("function"))
  {
  }

  /** `stop`: a non-empty string becomes a one-element list, a list is kept. */
  function StopSequencesOf(stop: Option<ChatStop>): (r: Option<seq<string>>)
    ensures stop.Some? && stop.value.StopList? ==> r == Some(stop.value.items)
    ensures stop.Some? && stop.value.StopText? ==> r == if stop.value.text == "" then None else Some([stop.value.text])
    ensures stop.None? ==> r.None?
  {
    if stop.None? then None
    else match stop.value
      case StopText(s) => if s == "" then None else Some([s])
      case StopList(items) => Some(items)
  }

  /** One tool: the function's name, its description or `''`, its parameters or `{type: 'object'}`. */
  function ToolOf(t: ChatTool): (r: Result<Tool>)
    ensures r.Err? <==> t.fn.None?
    ensures r.Ok? ==> && r.value.name == t.fn.value.name
                      && r.value.description.Some? && r.value.inputSchema.Some? && Truthy(r.value.inputSchema.value)
    ensures r.Ok? && TruthyString(t.fn.value.description) ==> r.value.description == t.fn.value.description
    ensures r.Ok? && !TruthyString(t.fn.value.description) ==> r.value.description == Some("")
    ensures r.Ok? && TruthyOpt(t.fn.value.parameters) ==> r.value.inputSchema == t.fn.value.parameters
    ensures r.Ok? && !TruthyOpt(t.fn.value.parameters) ==> r.value.inputSchema == Some(JObj([("type", JStr("object"))]))
  {
    if t.fn.None? then Err(TypeError)
    else
      var f := t.fn.value;
      Ok(Tool(f.name,
              Some(if TruthyString(f.description) then f.description.value else ""),
              Some(if TruthyOpt(f.parameters) then f.parameters.value else JObj([("type", JStr("object"))])),
              None, None, None))
  }

  /** The tool declarations from index `i` on, converted in order; the first missing `function` fails. */
  function ToolsOf(ts: seq<ChatTool>, i: nat): (r: Result<seq<Tool>>)
    requires i <= |ts|
    ensures r.Err? <==> exists j :: i <= j < |ts| && ts[j].fn.None?
    ensures r.Ok? ==> |r.value| == |ts| - i
    ensures r.Ok? ==> forall j :: 0 <= j < |r.value| ==> ToolOf(ts[i + j]) == Ok(r.value[j])
    decreases |ts| - i
  {
    if i == |ts| then Ok([])
    else
      var t :- ToolOf(ts[i]);
      var rest :- ToolsOf(ts, i + 1);
      Ok([t] + rest)
  }

  /** The converted tool list; a missing list stays missing. */
  function ToolsField(tools: Option<seq<ChatTool>>): (r: Result<Option<seq<Tool>>>)
    ensures r.Ok? ==> (r.value.Some? <==> tools.Some?)
    ensures r.Ok? && r.value.Some? ==> |r.value.value| == |tools.value|
  {
    if tools.None? then Ok(None)
    else
      var ts :- ToolsOf(tools.value, 0);
      Ok(Some(ts))
  }

  /** convertOpenAIToAnthropic (src/format/openai/request-converter.js:16-162). */
  function ConvertOpenAIToAnthropic(req: ChatRequest, parse: string -> Option<Json>, isThinkingModel: Option<string> -> bool,
                                    newToolId: (nat, nat) -> string): (r: Result<Request>)
    ensures r.Ok? ==> r.value.maxTokens == Some(MaxTokensOf(req.maxCompletionTokens, req.maxTokens))
    ensures r.Ok? ==> r.value.system == SystemPromptOf(req.messages)
    ensures r.Ok? ==> r.value.thinking == ThinkingFor(req.reasoningEffort, isThinkingModel(req.model))
    ensures r.Ok? ==> r.value.stopSequences == StopSequencesOf(req.stop)
    ensures r.Ok? ==> r.value.tools.Some? ==> |r.value.tools.value| > 0
    ensures r.Err? <==>
      || Reference(req.messages, 0, parse, newToolId).Err?
      || (req.tools.Some? && exists j :: 0 <= j < |req.tools.value| && req.tools.value[j].fn.None?)
      || ToolChoiceOf(req.toolChoice).Err?
    ensures r.Ok? ==> Ok(r.value.messages) == Reference(req.messages, 0, parse, newToolId)
    ensures r.Ok? ==> r.value.toolChoice == ToolChoiceOf(req.toolChoice).value
    ensures r.Ok? ==> (r.value.tools.Some? <==> req.tools.Some? && |req.tools.value| > 0)
    ensures r.Ok? && r.value.tools.Some? ==>
      |r.value.tools.value| == |req.tools.value|
      && forall j :: 0 <= j < |req.tools.value| ==> ToolOf(req.tools.value[j]) == Ok(r.value.tools.value[j])
    ensures r.Ok? ==> && r.value.model == req.model && r.value.temperature == req.temperature
                      && r.value.topP == req.topP && r.value.stream == req.stream && r.value.topK.None?
  {
    MessagesAreReference(req.messages, parse, newToolId);
    var messages :- ConvertMessages(req.messages, 0, [], [], parse, newToolId);
    var tools :- ToolsField(req.tools);
    var choice :- ToolChoiceOf(req.toolChoice);
    Ok(Request(
      req.model,
      messages,
      SystemPromptOf(req.messages),
      Some(MaxTokensOf(req.maxCompletionTokens, req.maxTokens)),
      req.temperature,
      req.topP,
      None,
      StopSequencesOf(req.stop),
      if tools.Some? && |tools.value| > 0 then tools else None,
      choice,
      ThinkingFor(req.reasoningEffort, isThinkingModel(req.model)),
      req.stream))
  }

  /** Appending a system message adds its content after a blank line. */
  lemma SystemAppend(ms: seq<ChatMessage>, c: Content)
    requires SystemContents(ms) != []
    ensures SystemContents(ms + [SystemMessage(c)]) == SystemContents(ms) + [JoinedForm(c)]
    ensures Join(SystemContents(ms + [SystemMessage(c)]), "\n\n") == Join(SystemContents(ms), "\n\n") + "\n\n" + JoinedForm(c)
  {
    SystemContentsAppend(ms, SystemMessage(c));
    JoinSnoc(SystemContents(ms), JoinedForm(c), "\n\n");
  }

  lemma {:induction false} SystemContentsAppend(ms: seq<ChatMessage>, m: ChatMessage)
    ensures SystemContents(ms + [m]) == SystemContents(ms) + (if m.SystemMessage? then [JoinedForm(m.content)] else [])
  {
    if ms == [] {
      assert [m][1..] == [];
    } else {
      var t := ms[1..];
      assert (ms + [m])[0] == ms[0];
      assert (ms + [m])[1..] == t + [m];
      SystemContentsAppend(t, m);
      var h := if ms[0].SystemMessage? then [JoinedForm(ms[0].content)] else [];
      var last := if m.SystemMessage? then [JoinedForm(m.content)] else [];
      assert SystemContents(ms + [m]) == h + (SystemContents(t) + last);
      assert SystemContents(ms) == h + SystemContents(t);
    }
  }

  /** Joining with one more element appends the separator and the element. */
  lemma {:induction false} JoinSnoc(xs: seq<string>, x: string, sep: string)
    requires xs != []
    ensures Join(xs + [x], sep) == Join(xs, sep) + sep + x
  {
    if |xs| == 1 {
      assert (xs + [x])[1..] == [x];
    } else {
      assert (xs + [x])[1..] == xs[1..] + [x];
      JoinSnoc(xs[1..], x, sep);
    }
  }
}

=== FILE: openai_response.dfy ===
/**
 * Anthropic Messages response to OpenAI chat completion
 * (convertAnthropicToOpenAI, src/format/openai/response-converter.js:14-89).
 *
 * JSON.stringify is the parameter `stringify` (`None` for `undefined`); the clock
 * reading `Math.floor(Date.now() / 1000)` is the parameter `created`.
 */
module OpenAIResponse {
  import opened Wrappers
  import opened Js
  import opened Anthropic

  /** One entry of `tool_calls` (`type: 'function'`). */
  datatype ChatToolCall = ChatToolCall(id: Option<string>, name: Option<string>, arguments: Option<string>)

  /** The assistant message; `content: null` is `None`, an absent field is `None` too. */
  datatype ChatMessageOut = ChatMessageOut(content: Option<string>, reasoningContent: Option<string>, toolCalls: Option<seq<ChatToolCall>>)

  datatype ChatUsage = ChatUsage(promptTokens: int, completionTokens: int, totalTokens: int)

  /** A `chat.completion` with its single choice at index 0 (`logprobs` and `system_fingerprint` are `null`). */
  datatype ChatCompletion = ChatCompletion(id: string, created: int, model: string, message: ChatMessageOut, finishReason: string, usage: ChatUsage)

  /** A leading `msg_` replaced by `chatcmpl-`. */
  function ChatId(id: string): (r: string)
    ensures StartsWith(id, "msg_") ==> r == "chatcmpl-" + id[4..]
    ensures !StartsWith(id, "msg_") ==> r == id
  {
    if StartsWith(id, "msg_") then "chatcmpl-" + id[4..] else id
  }

  /** finishReasonMap: the Anthropic stop reasons OpenAI has a name for. */
  function MappedFinishReason(stopReason: Option<string>): (r: Option<string>)
    ensures r.Some? <==> stopReason.Some? && stopReason.value in {"end_turn", "stop_sequence", "max_tokens", "tool_use"}
  {
    if stopReason == Some("end_turn") || stopReason == Some("stop_sequence") then Some("stop")
    else if stopReason == Some("max_tokens") then Some("length")
    else if stopReason == Some("tool_use") then Some("tool_calls")
    else None
  }

  /** The input tokens plus any truthy cache-read count: OpenAI counts cached prompt tokens as prompt tokens. */
  function PromptTokens(u: Usage): int {
    u.inputTokens + (if TruthyInt(u.cacheReadInputTokens) then u.cacheReadInputTokens.value else 0)
  }

  /** The usage block; the total is always the sum of its parts. */
  function ChatUsageOf(u: Usage): (r: ChatUsage)
    ensures r.totalTokens == r.promptTokens + r.completionTokens
    ensures r.completionTokens == u.outputTokens
    ensures TruthyInt(u.cacheReadInputTokens) ==> r.promptTokens == u.inputTokens + u.cacheReadInputTokens.value
    ensures !TruthyInt(u.cacheReadInputTokens) ==> r.promptTokens == u.inputTokens
  {
    ChatUsage(PromptTokens(u), u.outputTokens, PromptTokens(u) + u.outputTokens)
  }

  /** The texts of the text blocks, in order; a missing text counts as the empty string. */
  function Texts(bs: seq<Block>): (r: seq<string>)
    ensures |r| <= |bs|
  {
    if bs == [] then []
    else (if bs[0].Text? then [bs[0].text.GetOr("")] else []) + Texts(bs[1..])
  }

  /** The thoughts of the thinking blocks, in order. */
  function Thoughts(bs: seq<Block>): (r: seq<string>)
    ensures |r| <= |bs|
  {
    if bs == [] then []
    else (if bs[0].Thinking? then [bs[0].thinking.GetOr("")] else []) + Thoughts(bs[1..])
  }

  /** One function call per tool_use block, in order, with its id, name and serialised input. */
  function ToolCalls(bs: seq<Block>, stringify: Option<Json> -> Option<string>): (r: seq<ChatToolCall>)
    ensures |r| <= |bs|
  {
    if bs == [] then []
    else (if bs[0].ToolUse? then [ChatToolCall(bs[0].id, bs[0].name, stringify(bs[0].input))] else []) + ToolCalls(bs[1..], stringify)
  }

  /** The strings joined with `''`. */
  function Concat(xs: seq<string>): string {
    if xs == [] then "" else xs[0] + Concat(xs[1..])
  }

  /** convertAnthropicToOpenAI (src/format/openai/response-converter.js:14-89). */
  function ConvertAnthropicToOpenAI(resp: Response, created: int, stringify: Option<Json> -> Option<string>): (r: Result<ChatCompletion>)
    ensures r.Err? <==> HasNullBlock(resp.content)
    ensures r.Ok? ==> r.value.id == ChatId(resp.id) && r.value.model == resp.model && r.value.created == created
    ensures r.Ok? ==> r.value.usage == ChatUsageOf(resp.usage)
  {
    if HasNullBlock(resp.content) then Err(TypeError)
    else
      var texts := Texts(resp.content);
      var thoughts := Thoughts(resp.content);
      var calls := ToolCalls(resp.content, stringify);
      var message := ChatMessageOut(
        if |texts| > 0 then Some(Join(texts, "")) else None,
        if |thoughts| > 0 then Some(Join(thoughts, "")) else None,
        if |calls| > 0 then Some(calls) else None);
      var finish := if |calls| > 0 then "tool_calls" else MappedFinishReason(resp.stopReason).GetOr("stop");
      Ok(ChatCompletion(ChatId(resp.id), created, resp.model, message, finish, ChatUsageOf(resp.usage)))
  }

  // ---------------------------------------------------------------------------
  // Properties
  // ---------------------------------------------------------------------------

  /** Joining with the empty separator is plain concatenation. */
  lemma {:induction false} JoinEmptyIsConcat(xs: seq<string>)
    ensures Join(xs, "") == Concat(xs)
  {
    if |xs| > 1 {
      JoinEmptyIsConcat(xs[1..]);
    } else if |xs| == 1 {
      assert xs[1..] == [];
    }
  }

  /** Whether some block has the given kind. */
  predicate HasText(bs: seq<Block>) { exists i :: 0 <= i < |bs| && bs[i].Text? }
  predicate HasThinking(bs: seq<Block>) { exists i :: 0 <= i < |bs| && bs[i].Thinking? }

  lemma {:induction false} TextsEmpty(bs: seq<Block>)
    ensures Texts(bs) == [] <==> !HasText(bs)
  {
    if bs != [] {
      TextsEmpty(bs[1..]);
      assert forall i :: 1 <= i < |bs| ==> bs[1..][i - 1] == bs[i];
    }
  }

  lemma {:induction false} ThoughtsEmpty(bs: seq<Block>)
    ensures Thoughts(bs) == [] <==> !HasThinking(bs)
  {
    if bs != [] {
      ThoughtsEmpty(bs[1..]);
      assert forall i :: 1 <= i < |bs| ==> bs[1..][i - 1] == bs[i];
    }
  }

  lemma {:induction false} ToolCallsEmpty(bs: seq<Block>, stringify: Option<Json> -> Option<string>)
    ensures ToolCalls(bs, stringify) == [] <==> !HasToolUse(bs)
  {
    if bs != [] {
      ToolCallsEmpty(bs[1..], stringify);
      assert forall i :: 1 <= i < |bs| ==> bs[1..][i - 1] == bs[i];
    }
  }

  /**
   * `content` is the text blocks' texts concatenated with no separator, or `null` when
   * there is no text block; `reasoning_content` is present exactly when there is a
   * thinking block and is the thinking texts concatenated; `tool_calls` is present
   * exactly when there is a tool_use block.
   */
  lemma MessageContents(resp: Response, created: int, stringify: Option<Json> -> Option<string>)
    requires ConvertAnthropicToOpenAI(resp, created, stringify).Ok?
    ensures var m := ConvertAnthropicToOpenAI(resp, created, stringify).value.message;
      && (m.content.Some? <==> HasText(resp.content))
      && (m.content.Some? ==> m.content.value == Concat(Texts(resp.content)))
      && (m.reasoningContent.Some? <==> HasThinking(resp.content))
      && (m.reasoningContent.Some? ==> m.reasoningContent.value == Concat(Thoughts(resp.content)))
      && (m.toolCalls.Some? <==> HasToolUse(resp.content))
      && (m.toolCalls.Some? ==> m.toolCalls.value == ToolCalls(resp.content, stringify))
  {
    TextsEmpty(resp.content);
    ThoughtsEmpty(resp.content);
    ToolCallsEmpty(resp.content, stringify);
    JoinEmptyIsConcat(Texts(resp.content));
    JoinEmptyIsConcat(Thoughts(resp.content));
  }

  /**
   * The finish reason is `tool_calls` exactly when a tool_use block exists or the stop
   * reason is `tool_use`; otherwise it is the mapped stop reason, `stop` when unmapped.
   */
  lemma FinishReasonRule(resp: Response, created: int, stringify: Option<Json> -> Option<string>)
    requires ConvertAnthropicToOpenAI(resp, created, stringify).Ok?
    ensures var f := ConvertAnthropicToOpenAI(resp, created, stringify).value.finishReason;
      && (f == "tool_calls" <==> HasToolUse(resp.content) || resp.stopReason == Some("tool_use"))
      && (!HasToolUse(resp.content) && resp.stopReason == Some("max_tokens") ==> f == "length")
      && (!HasToolUse(resp.content) && MappedFinishReason(resp.stopReason).None? ==> f == "stop")
      && (f == "length" <==> !HasToolUse(resp.content) && resp.stopReason == Some("max_tokens"))
      && (f == "stop" <==> !HasToolUse(resp.content) && resp.stopReason != Some("tool_use") && resp.stopReason != Some("max_tokens"))
      && f in {"stop", "length", "tool_calls"}
  {
    ToolCallsEmpty(resp.content, stringify);
  }

  /** The `msg_` prefix the Google response converter gives its ids becomes `chatcmpl-`. */
  lemma ChatIdOfMessageId(hex: string)
    ensures ChatId("msg_" + hex) == "chatcmpl-" + hex
  {
    assert ("msg_" + hex)[..4] == "msg_";
    assert ("msg_" + hex)[4..] == hex;
  }
}

=== FILE: schema.dfy ===
/**
 * The two-pass tool-schema sanitiser of src/format-converter.js:591-729: an
 * allowlist pass for every backend (sanitizeSchema) and a keyword-stripping pass
 * for Gemini's validated mode (cleanSchemaForGemini).
 *
 * Both passes walk an object's entries by index, so that every recursive call is
 * on a value nested inside the schema being processed.
 */
module Schema {
  import opened Wrappers
  import opened Js

  /** The keys sanitizeSchema lets through. */
  const AllowedFields: set<string> := {"type", "description", "properties", "required", "items", "enum", "title"}

  /** The keywords cleanSchemaForGemini deletes at every object level. */
  const GeminiUnsupported: seq<string> := [
    "additionalProperties", "default", "$schema", "$defs",
    "definitions", "$ref", "$id", "$comment", "title",
    "minLength", "maxLength", "pattern", "format",
    "minItems", "maxItems", "examples"]

  /** The keys the allowlist pass writes are allowlisted and distinct; `const` is not allowlisted. */
  lemma AllowedNames()
    ensures "type" in AllowedFields && "properties" in AllowedFields
    ensures "required" in AllowedFields && "enum" in AllowedFields
    ensures "const" !in AllowedFields
    ensures "enum" != "type" && "enum" != "properties" && "enum" != "required" && "enum" != "const"
    ensures "type" != "properties" && "type" != "required" && "properties" != "required"
  {
    assert "enum"[0] != "type"[0];
    assert "enum"[0] != "const"[0];
  }

  /** The keys the Gemini pass reads are not among those it deletes, except `format`. */
  lemma SupportedNames()
    ensures "required" !in GeminiUnsupported && "properties" !in GeminiUnsupported
    ensures "type" !in GeminiUnsupported && "format" in GeminiUnsupported
  {
    assert GeminiUnsupported[12] == "format";
  }

  /** `{reason: {type: 'string', description: 'Reason for calling this tool'}}`. */
  function ReasonProperties(): Json {
    JObj([("reason", JObj([("type", JStr("string")), ("description", JStr("Reason for calling this tool"))]))])
  }

  const ReasonRequired: Json := JArr([JStr("reason")])

  /** The schema given to a tool whose schema is missing or not an object. */
  function Placeholder(): Json {
    JObj([("type", JStr("object")), ("properties", ReasonProperties()), ("required", ReasonRequired)])
  }

  // ---------------------------------------------------------------------------
  // The allowlist pass
  // ---------------------------------------------------------------------------

  /** sanitizeSchema (src/format-converter.js:597-672). */
  function SanitizeSchema(schema: Json): (r: Json)
    ensures r.JObj?
    decreases schema, 2
  {
    if !Truthy(schema) || !IsObject(schema) then Placeholder()
    // An array's entries are keyed "0", "1", ...: none is allowlisted and none is
    // `const`, so an array contributes nothing.
    else if schema.JArr? then Complete([])
    else Complete(SanitizeEntries(schema, 0, []))
  }

  /** The loop over the schema's entries, from entry `i` on, writing into `acc`. */
  function SanitizeEntries(schema: Json, i: nat, acc: seq<(string, Json)>): (r: seq<(string, Json)>)
    requires schema.JObj? && i <= |schema.fields|
    decreases schema, 1, |schema.fields| - i
  {
    if i == |schema.fields| then acc
    else SanitizeEntries(schema, i + 1, SanitizeEntry(schema.fields[i].0, schema.fields[i].1, acc))
  }

  /** One iteration: `const` becomes `enum`, other keys off the allowlist are skipped. */
  function SanitizeEntry(key: string, value: Json, acc: seq<(string, Json)>): (r: seq<(string, Json)>)
    decreases value, 4
  {
    if key == "const" then Put(acc, "enum", JArr([value]))
    else if key !in AllowedFields then acc
    else Put(acc, key, SanitizeValue(key, value))
  }

  /** The value an allowlisted key gets. */
  function SanitizeValue(key: string, value: Json): (r: Json)
    decreases value, 3
  {
    if key == "properties" && Truthy(value) && IsObject(value) then
      JObj(SanitizeProperties(value, 0, []))
    else if key == "items" && Truthy(value) && IsObject(value) then
      if value.JArr? then JArr(SanitizeList(value, 0)) else SanitizeSchema(value)
    else if value.JObj? then SanitizeSchema(value)
    else value
  }

  /** The number of entries of an object or array. */
  function EntryCount(value: Json): nat
    requires IsObject(value)
  {
    if value.JObj? then |value.fields| else |value.items|
  }

  /** Entry `i` of an object or array: an array is keyed by its indices. */
  function EntryAt(value: Json, i: nat): (r: (string, Json))
    requires IsObject(value) && i < EntryCount(value)
    ensures r.1 < value
  {
    if value.JObj? then value.fields[i] else (NatToString(i), value.items[i])
  }

  /** Each property from entry `i` on, sanitised and written under its own name. */
  function SanitizeProperties(props: Json, i: nat, acc: seq<(string, Json)>): (r: seq<(string, Json)>)
    requires IsObject(props) && i <= EntryCount(props)
    decreases props, 1, EntryCount(props) - i
  {
    if i == EntryCount(props) then acc
    else
      var e := EntryAt(props, i);
      SanitizeProperties(props, i + 1, Put(acc, e.0, SanitizeSchema(e.1)))
  }

  /** The items from index `i` on, each sanitised. */
  function SanitizeList(arr: Json, i: nat): (r: seq<Json>)
    requires arr.JArr? && i <= |arr.items|
    ensures |r| == |arr.items| - i
    decreases arr, 1, |arr.items| - i
  {
    if i == |arr.items| then [] else [SanitizeSchema(arr.items[i])] + SanitizeList(arr, i + 1)
  }

  /** The tail of sanitizeSchema: default the type, then give an empty object schema its placeholder property. */
  function Complete(s: seq<(string, Json)>): (r: Json)
    ensures r.JObj?
  {
    var typed := DefaultType(s);
    if Lookup(typed, "type") == Some(JStr("object")) && NoUsableProperties(Lookup(typed, "properties")) then
      JObj(Put(Put(typed, "properties", ReasonProperties()), "required", ReasonRequired))
    else
      JObj(typed)
  }

  /** A falsy or missing `type` becomes `object`. */
  function DefaultType(s: seq<(string, Json)>): (r: seq<(string, Json)>)
    ensures TruthyOpt(Lookup(r, "type"))
    ensures TruthyOpt(Lookup(s, "type")) ==> r == s
    ensures forall k :: k != "type" ==> Lookup(r, k) == Lookup(s, k)
  {
    if TruthyOpt(Lookup(s, "type")) then s else Put(s, "type", JStr("object"))
  }

  /** Properties that are missing, falsy, or have no keys. */
  predicate NoUsableProperties(p: Option<Json>) {
    !TruthyOpt(p) || HasNoKeys(p.value)
  }

  // ---------------------------------------------------------------------------
  // What the allowlist pass guarantees at every level
  // ---------------------------------------------------------------------------

  /**
   * A schema as sanitizeSchema leaves it, at every level reachable through
   * `properties` and `items`: an object with allowlisted keys only, a truthy `type`,
   * and, when that type is `object`, a non-empty `properties`.
   */
  predicate Sanitized(j: Json)
    decreases j, 1
  {
    && j.JObj?
    && AllowedOnly(j.fields)
    && TruthyOpt(Lookup(j.fields, "type"))
    && (Lookup(j.fields, "type") == Some(JStr("object")) ==> !NoUsableProperties(Lookup(j.fields, "properties")))
    && forall p :: p in j.fields ==> SaneMember(p.0, p.1)
  }

  /** The nested schemas under `properties` and `items` are sanitised. */
  predicate SaneMember(k: string, v: Json)
    decreases v, 2
  {
    && (k == "properties" && v.JObj? ==> forall p :: p in v.fields ==> Sanitized(p.1))
    && (k == "items" && v.JObj? ==> Sanitized(v))
    && (k == "items" && v.JArr? ==> forall x :: x in v.items ==> Sanitized(x))
  }

  /** Every key is allowlisted. */
  predicate AllowedOnly(fs: seq<(string, Json)>) {
    forall p :: p in fs ==> p.0 in AllowedFields
  }

  predicate AllSane(fs: seq<(string, Json)>) {
    forall p :: p in fs ==> SaneMember(p.0, p.1)
  }

  /** Whatever it is given, sanitizeSchema returns a sanitised schema; a non-object gets the placeholder. */
  lemma {:induction false} SanitizeSchemaSound(schema: Json)
    ensures Sanitized(SanitizeSchema(schema))
    ensures !Truthy(schema) || !IsObject(schema) ==> SanitizeSchema(schema) == Placeholder()
    decreases schema, 2
  {
    if !Truthy(schema) || !IsObject(schema) {
      PlaceholderSanitized();
    } else if schema.JArr? {
      CompleteSound([]);
    } else {
      EntriesSound(schema, 0, []);
      CompleteSound(SanitizeEntries(schema, 0, []));
    }
  }

  lemma {:induction false} EntriesSound(schema: Json, i: nat, acc: seq<(string, Json)>)
    requires schema.JObj? && i <= |schema.fields|
    requires AllSane(acc) && AllowedOnly(acc)
    ensures var r := SanitizeEntries(schema, i, acc); AllSane(r) && AllowedOnly(r)
    decreases schema, 1, |schema.fields| - i
  {
    if i < |schema.fields| {
      var e := schema.fields[i];
      EntrySound(e.0, e.1, acc);
      EntriesSound(schema, i + 1, SanitizeEntry(e.0, e.1, acc));
    }
  }

  lemma {:induction false} EntrySound(key: string, value: Json, acc: seq<(string, Json)>)
    requires AllSane(acc) && AllowedOnly(acc)
    ensures var r := SanitizeEntry(key, value, acc); AllSane(r) && AllowedOnly(r)
    decreases value, 4
  {
    if key == "const" {
      PutKeeps(acc, "enum", JArr([value]));
    } else if key in AllowedFields {
      ValueSound(key, value);
      PutKeeps(acc, key, SanitizeValue(key, value));
    }
  }

  lemma {:induction false} ValueSound(key: string, value: Json)
    ensures SaneMember(key, SanitizeValue(key, value))
    decreases value, 3
  {
    if key == "properties" && Truthy(value) && IsObject(value) {
      forall j | 0 <= j < EntryCount(value) ensures Sanitized(SanitizeSchema(EntryAt(value, j).1)) {
        SanitizeSchemaSound(EntryAt(value, j).1);
      }
      EntriesSatisfyIntro(value, 0, SanitizeSchema, Sanitized);
      PropertiesArePutEach(value, 0, []);
      PutEachSound(value, 0, [], SanitizeSchema, Sanitized);
      ValuesSatisfyMeans(SanitizeProperties(value, 0, []), Sanitized);
    } else if key == "items" && Truthy(value) && IsObject(value) {
      if value.JArr? {
        ListSound(value, 0);
      } else {
        SanitizeSchemaSound(value);
      }
    } else if value.JObj? {
      SanitizeSchemaSound(value);
    }
  }

  /** Every value of an object's entries satisfies `P`. */
  predicate ValuesSatisfy(fs: seq<(string, Json)>, P: Json -> bool) {
    fs == [] || (P(fs[0].1) && ValuesSatisfy(fs[1..], P))
  }

  lemma {:induction false} ValuesSatisfyMeans(fs: seq<(string, Json)>, P: Json -> bool)
    requires ValuesSatisfy(fs, P)
    ensures forall p :: p in fs ==> P(p.1)
  {
    if fs != [] {
      ValuesSatisfyMeans(fs[1..], P);
      assert forall p :: p in fs ==> p == fs[0] || p in fs[1..];
    }
  }

  /** Writing a value that satisfies `P` keeps every value satisfying `P`. */
  lemma {:induction false} PutSatisfies(fs: seq<(string, Json)>, k: string, v: Json, P: Json -> bool)
    requires ValuesSatisfy(fs, P) && P(v)
    ensures ValuesSatisfy(Put(fs, k, v), P)
  {
    if fs != [] && fs[0].0 != k {
      PutSatisfies(fs[1..], k, v, P);
      assert ([fs[0]] + Put(fs[1..], k, v))[1..] == Put(fs[1..], k, v);
    } else if fs != [] {
      assert ([(k, v)] + fs[1..])[1..] == fs[1..];
    } else {
      assert [(k, v)][1..] == [];
    }
  }

  /** The properties loop with the per-entry function as a parameter. */
  function PutEach(props: Json, i: nat, acc: seq<(string, Json)>, f: Json -> Json): seq<(string, Json)>
    requires IsObject(props) && i <= EntryCount(props)
    decreases EntryCount(props) - i
  {
    if i == EntryCount(props) then acc
    else
      var e := EntryAt(props, i);
      PutEach(props, i + 1, Put(acc, e.0, f(e.1)), f)
  }

  /** The properties loop is `PutEach` with sanitizeSchema as the per-entry function. */
  lemma {:induction false} PropertiesArePutEach(props: Json, i: nat, acc: seq<(string, Json)>)
    requires IsObject(props) && i <= EntryCount(props)
    ensures SanitizeProperties(props, i, acc) == PutEach(props, i, acc, SanitizeSchema)
    decreases EntryCount(props) - i
  {
    if i < EntryCount(props) {
      var e := EntryAt(props, i);
      PropertiesArePutEach(props, i + 1, Put(acc, e.0, SanitizeSchema(e.1)));
    }
  }

  /** `f` of every entry from `i` on satisfies `P`. */
  predicate EntriesSatisfy(props: Json, i: nat, f: Json -> Json, P: Json -> bool)
    requires IsObject(props) && i <= EntryCount(props)
    decreases EntryCount(props) - i
  {
    i == EntryCount(props) || (P(f(EntryAt(props, i).1)) && EntriesSatisfy(props, i + 1, f, P))
  }

  lemma {:induction false} EntriesSatisfyIntro(props: Json, i: nat, f: Json -> Json, P: Json -> bool)
    requires IsObject(props) && i <= EntryCount(props)
    requires forall j :: i <= j < EntryCount(props) ==> P(f(EntryAt(props, j).1))
    ensures EntriesSatisfy(props, i, f, P)
    decreases EntryCount(props) - i
  {
    if i < EntryCount(props) {
      EntriesSatisfyIntro(props, i + 1, f, P);
    }
  }

  /**
   * The loop stores `f` of every entry: when each of those satisfies `P`, and so does
   * everything stored before, so does everything stored after.
   */
  lemma {:induction false} PutEachSound(props: Json, i: nat, acc: seq<(string, Json)>, f: Json -> Json, P: Json -> bool)
    requires IsObject(props) && i <= EntryCount(props)
    requires ValuesSatisfy(acc, P) && EntriesSatisfy(props, i, f, P)
    ensures ValuesSatisfy(PutEach(props, i, acc, f), P)
    decreases EntryCount(props) - i
  {
    if i < EntryCount(props) {
      var e := EntryAt(props, i);
      PutSatisfies(acc, e.0, f(e.1), P);
      PutEachSound(props, i + 1, Put(acc, e.0, f(e.1)), f, P);
    }
  }

  lemma {:induction false} ListSound(arr: Json, i: nat)
    requires arr.JArr? && i <= |arr.items|
    ensures forall x :: x in SanitizeList(arr, i) ==> Sanitized(x)
    decreases arr, 1, |arr.items| - i
  {
    if i < |arr.items| {
      SanitizeSchemaSound(arr.items[i]);
      ListSound(arr, i + 1);
    }
  }

  lemma CompleteSound(s: seq<(string, Json)>)
    requires AllSane(s) && AllowedOnly(s)
    ensures Sanitized(Complete(s))
  {
    var typed := DefaultType(s);
    DefaultTypeKeeps(s);
    if Lookup(typed, "type") == Some(JStr("object")) && NoUsableProperties(Lookup(typed, "properties")) {
      PlaceholderKeeps(typed);
    } else {
      SanitizedIntro(typed);
    }
  }

  lemma DefaultTypeKeeps(s: seq<(string, Json)>)
    requires AllSane(s) && AllowedOnly(s)
    ensures AllSane(DefaultType(s)) && AllowedOnly(DefaultType(s))
  {
    if !TruthyOpt(Lookup(s, "type")) {
      PutKeeps(s, "type", JStr("object"));
    }
  }

  /** Adding the placeholder `properties` and `required` to a typed object makes it sanitised. */
  lemma PlaceholderKeeps(typed: seq<(string, Json)>)
    requires AllSane(typed) && AllowedOnly(typed)
    requires TruthyOpt(Lookup(typed, "type"))
    ensures Sanitized(JObj(Put(Put(typed, "properties", ReasonProperties()), "required", ReasonRequired)))
  {
    var withProps := Put(typed, "properties", ReasonProperties());
    PlaceholderProperties(typed);
    var r := Put(withProps, "required", ReasonRequired);
    PlaceholderRequired(withProps);
    assert Lookup(r, "properties") == Some(ReasonProperties());
    ReasonPropertiesUsable();
    SanitizedIntro(r);
  }

  lemma ReasonPropertiesUsable()
    ensures !NoUsableProperties(Some(ReasonProperties()))
  {
    assert ReasonProperties().fields != [];
  }

  /** The first half of the placeholder: `properties` holds the `reason` property. */
  lemma PlaceholderProperties(typed: seq<(string, Json)>)
    requires AllSane(typed) && AllowedOnly(typed)
    ensures var r := Put(typed, "properties", ReasonProperties());
      AllSane(r) && AllowedOnly(r) && Lookup(r, "type") == Lookup(typed, "type") && Lookup(r, "properties") == Some(ReasonProperties())
  {
    ReasonPropertiesSane();
    AllowedNames();
    PutKeeps(typed, "properties", ReasonProperties());
  }

  /** The second half: `required` lists `reason`; `type` and `properties` are unchanged. */
  lemma PlaceholderRequired(fs: seq<(string, Json)>)
    requires AllSane(fs) && AllowedOnly(fs)
    ensures var r := Put(fs, "required", ReasonRequired);
      AllSane(r) && AllowedOnly(r) && Lookup(r, "type") == Lookup(fs, "type") && Lookup(r, "properties") == Lookup(fs, "properties")
  {
    AllowedNames();
    PutKeeps(fs, "required", ReasonRequired);
  }

  lemma SanitizedIntro(fs: seq<(string, Json)>)
    requires AllSane(fs) && AllowedOnly(fs)
    requires TruthyOpt(Lookup(fs, "type"))
    requires Lookup(fs, "type") == Some(JStr("object")) ==> !NoUsableProperties(Lookup(fs, "properties"))
    ensures Sanitized(JObj(fs))
  {
  }

  lemma PlaceholderSanitized()
    ensures Sanitized(Placeholder())
  {
    var typed := [("type", JStr("object"))];
    AllowedNames();
    assert AllSane(typed) && AllowedOnly(typed);
    PlaceholderKeeps(typed);
    assert Put(typed, "properties", ReasonProperties()) == typed + [("properties", ReasonProperties())];
  }

  lemma ReasonPropertiesSane()
    ensures SaneMember("properties", ReasonProperties())
  {
    var fs := [("type", JStr("string")), ("description", JStr("Reason for calling this tool"))];
    assert Lookup(fs, "type") == Some(JStr("string"));
    assert forall p :: p in fs ==> SaneMember(p.0, p.1);
    assert ReasonProperties().fields == [("reason", JObj(fs))];
  }

  /** Writing an allowlisted key with a sanitised value keeps an object sanitised. */
  lemma PutKeeps(fs: seq<(string, Json)>, k: string, v: Json)
    requires AllSane(fs) && AllowedOnly(fs)
    requires SaneMember(k, v) && k in AllowedFields
    ensures AllSane(Put(fs, k, v)) && AllowedOnly(Put(fs, k, v))
  {
    PutMembers(fs, k, v);
    forall p | p in Put(fs, k, v) ensures SaneMember(p.0, p.1) && p.0 in AllowedFields {
      assert p in fs || p == (k, v);
    }
  }

  // ---------------------------------------------------------------------------
  // What the allowlist pass does to particular keys
  // ---------------------------------------------------------------------------

  /**
   * The tail of sanitizeSchema: the type defaults to `object`; an object schema
   * without usable properties gets the placeholder `properties` and `required`;
   * every other key is left alone.
   */
  lemma CompleteLookups(s: seq<(string, Json)>)
    ensures var r := Complete(s).fields;
      && TruthyOpt(Lookup(r, "type"))
      && (Lookup(r, "type") == Some(JStr("object")) <==>
            !TruthyOpt(Lookup(s, "type")) || Lookup(s, "type") == Some(JStr("object")))
      && (Lookup(r, "type") == Some(JStr("object")) && NoUsableProperties(Lookup(s, "properties")) ==>
            Lookup(r, "properties") == Some(ReasonProperties()) && Lookup(r, "required") == Some(ReasonRequired))
      && (Lookup(r, "type") != Some(JStr("object")) || !NoUsableProperties(Lookup(s, "properties")) ==>
            Lookup(r, "properties") == Lookup(s, "properties") && Lookup(r, "required") == Lookup(s, "required"))
      && forall k :: k != "type" && k != "properties" && k != "required" ==> Lookup(r, k) == Lookup(s, k)
  {
  }

  /**
   * For a schema with distinct keys, every allowlisted key other than `enum` ends up
   * holding its sanitised value, and every other key is absent, before the tail adds
   * `type`, `properties` and `required`.
   */
  lemma {:induction false} EntriesLookup(schema: Json, i: nat, acc: seq<(string, Json)>, k: string)
    requires schema.JObj? && i <= |schema.fields|
    requires DistinctKeys(schema.fields)
    requires k != "enum"
    ensures var rest := schema.fields[i..];
      Lookup(SanitizeEntries(schema, i, acc), k) ==
        if k in Keys(rest) && k in AllowedFields then Some(SanitizeValue(k, Lookup(rest, k).value))
        else Lookup(acc, k)
    decreases |schema.fields| - i
  {
    var fs := schema.fields;
    if i < |fs| {
      var e := fs[i];
      EntriesLookup(schema, i + 1, SanitizeEntry(e.0, e.1, acc), k);
      SuffixHead(fs, i, k);
      EntryLookup(e.0, e.1, acc, k);
    }
  }

  /** One entry of the allowlist pass, read at a key other than `enum`. */
  lemma EntryLookup(key: string, value: Json, acc: seq<(string, Json)>, k: string)
    requires k != "enum"
    ensures Lookup(SanitizeEntry(key, value, acc), k) ==
      if key == k && k in AllowedFields then Some(SanitizeValue(k, value)) else Lookup(acc, k)
  {
  }

  /** The suffix from `i` is its first entry followed by the suffix from `i + 1`, whose keys differ from it. */
  lemma SuffixHead(fs: seq<(string, Json)>, i: nat, k: string)
    requires i < |fs| && DistinctKeys(fs)
    ensures k in Keys(fs[i..]) <==> fs[i].0 == k || k in Keys(fs[i + 1..])
    ensures Lookup(fs[i..], k) == if fs[i].0 == k then Some(fs[i].1) else Lookup(fs[i + 1..], k)
    ensures fs[i].0 == k ==> k !in Keys(fs[i + 1..])
  {
    assert fs[i..] == [fs[i]] + fs[i + 1..];
    KeysCons(fs[i..]);
    assert fs[i..][1..] == fs[i + 1..];
    if fs[i].0 == k {
      forall p | p in fs[i + 1..] ensures p.0 != k {
        var j :| 0 <= j < |fs[i + 1..]| && fs[i + 1..][j] == p;
        assert p == fs[i + 1 + j];
      }
    }
  }

  /**
   * With distinct keys and no `enum` key, a `const: v` becomes exactly `enum: [v]`,
   * and without `const` no `enum` appears.
   */
  lemma {:induction false} EntriesConst(schema: Json, i: nat, acc: seq<(string, Json)>)
    requires schema.JObj? && i <= |schema.fields|
    requires DistinctKeys(schema.fields)
    requires "enum" !in Keys(schema.fields)
    ensures var rest := schema.fields[i..];
      Lookup(SanitizeEntries(schema, i, acc), "enum") ==
        if "const" in Keys(rest) then Some(JArr([Lookup(rest, "const").value])) else Lookup(acc, "enum")
    decreases |schema.fields| - i
  {
    var fs := schema.fields;
    if i < |fs| {
      var e := fs[i];
      assert e in fs;
      EntriesConst(schema, i + 1, SanitizeEntry(e.0, e.1, acc));
      SuffixHead(fs, i, "const");
      EntryEnumLookup(e.0, e.1, acc);
    }
  }

  /** One entry of the allowlist pass, read at `enum`, for a key other than `enum`. */
  lemma EntryEnumLookup(key: string, value: Json, acc: seq<(string, Json)>)
    requires key != "enum"
    ensures Lookup(SanitizeEntry(key, value, acc), "enum") ==
      if key == "const" then Some(JArr([value])) else Lookup(acc, "enum")
  {
    AllowedNames();
  }

  lemma SanitizeObject(fs: seq<(string, Json)>)
    ensures SanitizeSchema(JObj(fs)) == Complete(SanitizeEntries(JObj(fs), 0, []))
  {
  }

  /** `const: v` in a schema without `enum` is rewritten to `enum: [v]`. */
  lemma SanitizeConstBecomesEnum(fs: seq<(string, Json)>, v: Json)
    requires DistinctKeys(fs)
    requires ("const", v) in fs
    requires "enum" !in Keys(fs)
    ensures Lookup(SanitizeSchema(JObj(fs)).fields, "enum") == Some(JArr([v]))
  {
    var schema := JObj(fs);
    SanitizeObject(fs);
    EntriesConst(schema, 0, []);
    assert fs[0..] == fs;
    CompleteLookups(SanitizeEntries(schema, 0, []));
    var i :| 0 <= i < |fs| && fs[i] == ("const", v);
    FirstLookup(fs, i);
  }

  lemma FirstLookup(fs: seq<(string, Json)>, i: int)
    requires DistinctKeys(fs)
    requires 0 <= i < |fs|
    ensures Lookup(fs, fs[i].0) == Some(fs[i].1)
  {
    if i > 0 {
      assert DistinctKeys(fs[1..]) by {
        forall a, b | 0 <= a < b < |fs[1..]| ensures fs[1..][a].0 != fs[1..][b].0 {
          assert fs[1..][a] == fs[a + 1] && fs[1..][b] == fs[b + 1];
        }
      }
      assert fs[1..][i - 1] == fs[i];
      FirstLookup(fs[1..], i - 1);
    }
  }

  /**
   * A schema that brings no usable properties (none, a falsy value, or an empty
   * object or array) and ends up of type `object` gets exactly the placeholder
   * `properties: {reason}` and `required: ['reason']`.
   */
  lemma SanitizeEmptyObjectGetsReason(fs: seq<(string, Json)>)
    requires DistinctKeys(fs)
    requires var p := Lookup(fs, "properties"); p.None? || !Truthy(p.value) || p.value == JObj([]) || p.value == JArr([])
    ensures var r := SanitizeSchema(JObj(fs)).fields;
      Lookup(r, "type") == Some(JStr("object")) ==>
        Lookup(r, "properties") == Some(ReasonProperties()) && Lookup(r, "required") == Some(ReasonRequired)
  {
    var schema := JObj(fs);
    var s := SanitizeEntries(schema, 0, []);
    SanitizeObject(fs);
    assert NoUsableProperties(Lookup(s, "properties")) by {
      AllowedNames();
      EntriesLookup(schema, 0, [], "properties");
      assert fs[0..] == fs;
      var p := Lookup(fs, "properties");
      if p.Some? && Truthy(p.value) {
        assert SanitizeValue("properties", p.value) == JObj([]);
      }
    }
    CompleteLookups(s);
  }

  /**
   * A schema that is only `{const: v}` (the `{const: 'red'}` case) becomes an object
   * schema with `enum: [v]` and the placeholder property, not a schema of v's type.
   */
  lemma SanitizeConstOnly(v: Json)
    ensures var r := SanitizeSchema(JObj([("const", v)])).fields;
      && Lookup(r, "enum") == Some(JArr([v]))
      && Lookup(r, "type") == Some(JStr("object"))
      && Lookup(r, "properties") == Some(ReasonProperties())
      && Lookup(r, "required") == Some(ReasonRequired)
      && forall k :: k !in {"enum", "type", "properties", "required"} ==> Lookup(r, k) == None
  {
    var fs := [("const", v)];
    AllowedNames();
    SanitizeObject(fs);
    var e := [("enum", JArr([v]))];
    assert SanitizeEntries(JObj(fs), 0, []) == e by {
      assert SanitizeEntries(JObj(fs), 1, e) == e;
    }
    CompleteEnumOnly(JArr([v]));
    forall k | k !in {"enum", "type", "properties", "required"} {
      CompleteEnumOnlyNothingElse(JArr([v]), k);
    }
  }

  /** The tail of sanitizeSchema on an object holding only `enum`. */
  lemma CompleteEnumOnly(x: Json)
    ensures var r := Complete([("enum", x)]).fields;
      && Lookup(r, "enum") == Some(x)
      && Lookup(r, "type") == Some(JStr("object"))
      && Lookup(r, "properties") == Some(ReasonProperties())
      && Lookup(r, "required") == Some(ReasonRequired)
  {
    var e := [("enum", x)];
    AllowedNames();
    CompleteLookups(e);
    assert Lookup(e, "type") == None && Lookup(e, "properties") == None && Lookup(e, "required") == None;
  }

  /** ... and nothing else. */
  lemma CompleteEnumOnlyNothingElse(x: Json, k: string)
    requires k !in {"enum", "type", "properties", "required"}
    ensures Lookup(Complete([("enum", x)]).fields, k) == None
  {
    CompleteLookups([("enum", x)]);
  }

  // ---------------------------------------------------------------------------
  // The Gemini pass
  // ---------------------------------------------------------------------------

  /** cleanSchemaForGemini (src/format-converter.js:684-729). */
  function CleanSchemaForGemini(schema: Json): (r: Json)
    ensures !Truthy(schema) || !IsObject(schema) ==> r == schema
    ensures schema.JArr? ==> r.JArr? && |r.items| == |schema.items|
    ensures schema.JObj? ==> r.JObj?
    decreases schema, 2
  {
    if !Truthy(schema) || !IsObject(schema) then schema
    else if schema.JArr? then JArr(CleanList(schema, 0))
    else
      // Deleting the unsupported keywords and cleaning the remaining values are done
      // in one pass over the entries: cleaning keeps keys, so the order does not matter.
      var cleaned := CleanEntries(schema, 0);
      // `format` is one of the deleted keywords, so this check never fires.
      var format := Lookup(cleaned, "format");
      var checked :=
        if Lookup(cleaned, "type") == Some(JStr("string")) && TruthyOpt(format)
          && format.value != JStr("enum") && format.value != JStr("date-time")
        then Remove(cleaned, "format") else cleaned;
      JObj(FilterRequired(checked))
  }

  /** The items from index `i` on, each cleaned. */
  function CleanList(arr: Json, i: nat): (r: seq<Json>)
    requires arr.JArr? && i <= |arr.items|
    ensures |r| == |arr.items| - i
    decreases arr, 1, |arr.items| - i
  {
    if i == |arr.items| then [] else [CleanSchemaForGemini(arr.items[i])] + CleanList(arr, i + 1)
  }

  /** The entries from `i` on, unsupported keywords deleted and object values cleaned. */
  function CleanEntries(schema: Json, i: nat): (r: seq<(string, Json)>)
    requires schema.JObj? && i <= |schema.fields|
    decreases schema, 1, |schema.fields| - i
  {
    if i == |schema.fields| then []
    else
      var (k, v) := schema.fields[i];
      (if k in GeminiUnsupported then [] else [(k, CleanValue(v))]) + CleanEntries(schema, i + 1)
  }

  /** An object or array value is cleaned; any other value is kept. */
  function CleanValue(v: Json): (r: Json)
    ensures !IsObject(v) ==> r == v
    decreases v, 3
  {
    if IsObject(v) then CleanSchemaForGemini(v) else v
  }

  /** The final `required` check: keep only names of defined properties; drop an emptied list. */
  function FilterRequired(fs: seq<(string, Json)>): (r: seq<(string, Json)>)
    ensures RequiredConsistent(r)
    ensures forall k :: k != "required" ==> Lookup(r, k) == Lookup(fs, k)
    ensures Lookup(r, "required").Some? ==> Lookup(fs, "required").Some?
  {
    var req := Lookup(fs, "required");
    var props := Lookup(fs, "properties");
    if TruthyOpt(req) && req.value.JArr? && TruthyOpt(props) then
      var kept := FilterNames(req.value.items, ObjectKeys(props.value));
      if kept == [] then Remove(fs, "required") else Put(fs, "required", JArr(kept))
    else
      fs
  }

  /** The required names that are property names, in order. */
  function FilterNames(xs: seq<Json>, defined: set<string>): (r: seq<Json>)
    ensures forall x :: x in r ==> x in xs && x.JStr? && x.s in defined
    ensures forall x :: x in xs && x.JStr? && x.s in defined ==> x in r
  {
    if xs == [] then []
    else (if xs[0].JStr? && xs[0].s in defined then [xs[0]] else []) + FilterNames(xs[1..], defined)
  }

  /** The own keys of a truthy value, as a set. */
  function ObjectKeys(v: Json): set<string> {
    match v
    case JObj(fs) => Keys(fs)
    case JArr(xs) => set i | 0 <= i < |xs| :: NatToString(i)
    case JStr(s) => set i | 0 <= i < |s| :: NatToString(i)
    case _ => {}
  }

  /** `required` (when checked) is non-empty and lists only defined properties. */
  predicate RequiredConsistent(fs: seq<(string, Json)>) {
    var req := Lookup(fs, "required");
    var props := Lookup(fs, "properties");
    req.Some? && req.value.JArr? && TruthyOpt(props) ==>
      && req.value.items != []
      && forall x :: x in req.value.items ==> x.JStr? && x.s in ObjectKeys(props.value)
  }

  // ---------------------------------------------------------------------------
  // What the Gemini pass guarantees at every level
  // ---------------------------------------------------------------------------

  /**
   * A schema as cleanSchemaForGemini leaves it, at every level: no unsupported keyword
   * is a key of any object, and wherever `required` is an array next to a truthy
   * `properties`, it is non-empty and names only keys of `properties`.
   */
  predicate GeminiClean(j: Json)
    decreases j
  {
    match j
    case JArr(xs) => forall x :: x in xs ==> GeminiClean(x)
    case JObj(fs) =>
      && (forall p :: p in fs ==> p.0 !in GeminiUnsupported)
      && RequiredConsistent(fs)
      && forall p :: p in fs ==> GeminiClean(p.1)
    case _ => true
  }

  /** Whatever it is given, cleanSchemaForGemini returns a clean schema. */
  lemma {:induction false} CleanSound(schema: Json)
    ensures GeminiClean(CleanSchemaForGemini(schema))
    decreases schema, 2
  {
    if Truthy(schema) && IsObject(schema) {
      if schema.JArr? {
        CleanListSound(schema, 0);
      } else {
        var cleaned := CleanEntries(schema, 0);
        CleanEntriesSound(schema, 0);
        FilterRequiredKeeps(cleaned);
      }
    }
  }

  lemma {:induction false} CleanListSound(arr: Json, i: nat)
    requires arr.JArr? && i <= |arr.items|
    ensures forall x :: x in CleanList(arr, i) ==> GeminiClean(x)
    decreases arr, 1, |arr.items| - i
  {
    if i < |arr.items| {
      CleanSound(arr.items[i]);
      CleanListSound(arr, i + 1);
    }
  }

  lemma {:induction false} CleanEntriesSound(schema: Json, i: nat)
    requires schema.JObj? && i <= |schema.fields|
    ensures forall p :: p in CleanEntries(schema, i) ==> p.0 !in GeminiUnsupported && GeminiClean(p.1)
    decreases schema, 1, |schema.fields| - i
  {
    if i < |schema.fields| {
      var v := schema.fields[i].1;
      if IsObject(v) {
        CleanSound(v);
      }
      CleanEntriesSound(schema, i + 1);
    }
  }

  /** The `required` filter writes only a list of strings, so it keeps every level clean. */
  lemma FilterRequiredKeeps(fs: seq<(string, Json)>)
    requires forall p :: p in fs ==> p.0 !in GeminiUnsupported && GeminiClean(p.1)
    ensures GeminiClean(JObj(FilterRequired(fs)))
  {
    var r := FilterRequired(fs);
    var req := Lookup(fs, "required");
    var props := Lookup(fs, "properties");
    if TruthyOpt(req) && req.value.JArr? && TruthyOpt(props) {
      var kept := FilterNames(req.value.items, ObjectKeys(props.value));
      if kept != [] {
        assert GeminiClean(JArr(kept));
        PutMembers(fs, "required", JArr(kept));
        SupportedNames();
      }
    }
  }

  // ---------------------------------------------------------------------------
  // What the Gemini pass does to particular keys
  // ---------------------------------------------------------------------------

  /** Entries keep their order: a supported key maps to its cleaned value, an unsupported one is gone. */
  lemma {:induction false} CleanEntriesLookup(schema: Json, i: nat, k: string)
    requires schema.JObj? && i <= |schema.fields|
    ensures var rest := schema.fields[i..]; var v := Lookup(rest, k);
      Lookup(CleanEntries(schema, i), k) ==
        if k in GeminiUnsupported || v.None? then None
        else Some(CleanValue(v.value))
    decreases |schema.fields| - i
  {
    var fs := schema.fields;
    if i == |fs| {
      assert fs[i..] == [];
    } else {
      CleanEntriesLookup(schema, i + 1, k);
      assert fs[i..] == [fs[i]] + fs[i + 1..];
      LookupCons(fs[i], fs[i + 1..], k);
      var tail := CleanEntries(schema, i + 1);
      if fs[i].0 in GeminiUnsupported {
        assert CleanEntries(schema, i) == tail;
      } else {
        var e := (fs[i].0, CleanValue(fs[i].1));
        assert CleanEntries(schema, i) == [e] + tail;
        LookupCons(e, tail, k);
      }
    }
  }

  /**
   * For an object schema, every key except `required` keeps its (cleaned) value
   * unless it is an unsupported keyword, which is always gone; `format` in particular
   * is deleted even on a string schema whose format is `date-time`.
   */
  lemma CleanObjectLookup(fs: seq<(string, Json)>, k: string)
    requires k != "required"
    ensures var r := CleanSchemaForGemini(JObj(fs)).fields; var v := Lookup(fs, k);
      Lookup(r, k) ==
        if k in GeminiUnsupported || v.None? then None
        else Some(CleanValue(v.value))
  {
    var schema := JObj(fs);
    CleanEntriesLookup(schema, 0, k);
    CleanEntriesLookup(schema, 0, "format");
    assert fs[0..] == fs;
    SupportedNames();
  }

  /** On an object, the format check never fires: the result is the cleaned entries with `required` filtered. */
  lemma CleanObjectShape(fs: seq<(string, Json)>)
    ensures CleanSchemaForGemini(JObj(fs)) == JObj(FilterRequired(CleanEntries(JObj(fs), 0)))
  {
    CleanEntriesLookup(JObj(fs), 0, "format");
    SupportedNames();
  }

  /**
   * For an object schema whose `required` is an array next to a truthy `properties`,
   * `required` keeps exactly the names of the cleaned properties, in order, and is
   * deleted when none is left.
   */
  lemma CleanObjectRequired(fs: seq<(string, Json)>)
    ensures var r := CleanSchemaForGemini(JObj(fs)).fields;
      var req := Lookup(fs, "required"); var props := Lookup(fs, "properties");
      req.Some? && req.value.JArr? && TruthyOpt(props) ==>
        var kept := FilterNames(CleanValue(req.value).items, ObjectKeys(CleanValue(props.value)));
        Lookup(r, "required") == if kept == [] then None else Some(JArr(kept))
  {
    var schema := JObj(fs);
    var req := Lookup(fs, "required");
    var props := Lookup(fs, "properties");
    if req.Some? && req.value.JArr? && TruthyOpt(props) {
      var cleaned := CleanEntries(schema, 0);
      assert fs[0..] == fs;
      CleanObjectShape(fs);
      SupportedNames();
      CleanEntriesLookup(schema, 0, "required");
      CleanEntriesLookup(schema, 0, "properties");
      var creq := CleanValue(req.value);
      var cprops := CleanValue(props.value);
      assert Lookup(cleaned, "required") == Some(creq);
      assert Lookup(cleaned, "properties") == Some(cprops);
      assert creq.JArr? && Truthy(cprops);
      FilterRequiredLookup(cleaned);
    }
  }

  /** What the `required` filter leaves under `required`. */
  lemma FilterRequiredLookup(fs: seq<(string, Json)>)
    ensures var req := Lookup(fs, "required"); var props := Lookup(fs, "properties");
      Lookup(FilterRequired(fs), "required") ==
        if req.Some? && req.value.JArr? && TruthyOpt(props) then
          var kept := FilterNames(req.value.items, ObjectKeys(props.value));
          if kept == [] then None else Some(JArr(kept))
        else req
  {
  }

  /**
   * A property that happens to be named like an unsupported keyword (`format`, say)
   * is deleted along with the keyword, and `required` loses it too:
   * `required: [a, b]` next to properties `a` and `b` becomes `required: [b]`.
   */
  lemma CleanDropsPropertyNamedLikeKeyword(a: string, b: string, va: Json, vb: Json)
    requires a in GeminiUnsupported && b !in GeminiUnsupported
    ensures var props := JObj([(a, va), (b, vb)]);
      var r := CleanSchemaForGemini(JObj([
        ("type", JStr("object")),
        ("properties", props),
        ("required", JArr([JStr(a), JStr(b)]))])).fields;
      && Lookup(r, "properties") == Some(JObj([(b, CleanValue(vb))]))
      && Lookup(r, "required") == Some(JArr([JStr(b)]))
  {
    var props := JObj([(a, va), (b, vb)]);
    var req := JArr([JStr(a), JStr(b)]);
    var fs := [("type", JStr("object")), ("properties", props), ("required", req)];
    SupportedNames();
    assert Lookup(fs, "properties") == Some(props);
    assert Lookup(fs, "required") == Some(req);
    CleanObjectLookup(fs, "properties");
    CleanObjectRequired(fs);
    var cprops := JObj([(b, CleanValue(vb))]);
    CleanTwo(a, b, va, vb);
    CleanNames(a, b);
    assert CleanValue(props) == cprops;
    assert CleanValue(req) == req;
    KeepSecond(a, b, CleanValue(vb));
  }

  lemma KeepSecond(a: string, b: string, v: Json)
    requires a != b
    ensures FilterNames([JStr(a), JStr(b)], ObjectKeys(JObj([(b, v)]))) == [JStr(b)]
  {
    assert Keys([(b, v)]) == {b};
    assert FilterNames([JStr(b)], {b}) == [JStr(b)];
  }

  lemma CleanTwo(a: string, b: string, va: Json, vb: Json)
    requires a in GeminiUnsupported && b !in GeminiUnsupported
    ensures CleanSchemaForGemini(JObj([(a, va), (b, vb)])) == JObj([(b, CleanValue(vb))])
  {
    var props := JObj([(a, va), (b, vb)]);
    CleanObjectShape([(a, va), (b, vb)]);
    assert CleanEntries(props, 2) == [];
    assert CleanEntries(props, 0) == [(b, CleanValue(vb))];
    var e := [(b, CleanValue(vb))];
    assert Lookup(e, "required") == None || Lookup(e, "properties") == None;
    assert FilterRequired(e) == e;
  }

  /** A list of names is its own cleaned form. */
  lemma CleanNames(a: string, b: string)
    ensures CleanSchemaForGemini(JArr([JStr(a), JStr(b)])) == JArr([JStr(a), JStr(b)])
  {
    var arr := JArr([JStr(a), JStr(b)]);
    assert CleanList(arr, 2) == [];
    assert CleanList(arr, 0) == [JStr(a), JStr(b)];
  }
}

=== FILE: session.dfy ===
/**
 * Session-id derivation for prompt caching (deriveSessionId,
 * src/cloudcode/session-manager.js:20-53).
 *
 * SHA-256 (as lower-case hex) is the parameter `sha256Hex`; the random UUID of the
 * fallback is the parameter `uuid`.
 */
module Session {
  import opened Wrappers
  import opened Js
  import opened Anthropic

  /** The session id is the first 32 hex characters of the digest. */
  const SessionIdLength: nat := 32

  /** Whether a block is a text block with non-empty text. */
  predicate IsTextWithText(b: Block) {
    b.Text? && TruthyString(b.text)
  }

  /** The texts of the kept blocks, in order; a null entry throws. */
  function TextsOf(bs: seq<Block>): (r: Result<seq<string>>)
    ensures r.Err? <==> HasNullBlock(bs)
    ensures r.Ok? ==> forall k :: 0 <= k < |r.value| ==> r.value[k] != ""
  {
    if bs == [] then Ok([])
    else if bs[0].Absent? then Err(TypeError)
    else
      var rest := TextsOf(bs[1..]);
      assert HasNullBlock(bs) <==> HasNullBlock(bs[1..]) by {
        assert forall i :: 1 <= i < |bs| ==> bs[1..][i - 1] == bs[i];
      }
      if rest.Err? then Err(TypeError)
      else Ok((if IsTextWithText(bs[0]) then [bs[0].text.value] else []) + rest.value)
  }

  /** The text a user message contributes: a string itself, or its text blocks joined by newlines. */
  function ExtractText(c: Content): (r: Result<string>)
    ensures r.Err? <==> c.BlockContent? && HasNullBlock(c.blocks)
  {
    match c
    case StrContent(s) => Ok(s)
    case BlockContent(bs) =>
      var texts :- TextsOf(bs);
      Ok(Join(texts, "\n"))
    case _ => Ok("")
  }

  /** The text of the first user message whose text is non-empty; `None` when there is none. */
  function SessionText(ms: seq<Message>): (r: Result<Option<string>>)
    ensures r.Ok? && r.value.Some? ==> r.value.value != ""
  {
    if ms == [] then Ok(None)
    else if ms[0].role == "user" then
      var t :- ExtractText(ms[0].content);
      if t != "" then Ok(Some(t)) else SessionText(ms[1..])
    else SessionText(ms[1..])
  }

  /** `${accountEmail}:${content}` when an email is given, the content alone otherwise. */
  function Salted(text: string, email: Option<string>): (r: string)
    ensures TruthyString(email) ==> StartsWith(r, email.value + ":") && r[|email.value| + 1..] == text
    ensures !TruthyString(email) ==> r == text
  {
    if TruthyString(email) then
      assert (email.value + ":" + text)[..|email.value| + 1] == email.value + ":";
      email.value + ":" + text
    else text
  }

  /** deriveSessionId (src/cloudcode/session-manager.js:20-53). */
  function DeriveSessionId(req: Request, email: Option<string>, sha256Hex: string -> string, uuid: string): (r: Result<string>)
    ensures r.Err? <==> SessionText(req.messages).Err?
  {
    var text :- SessionText(req.messages);
    if text.Some? then Ok(Take(sha256Hex(Salted(text.value, email)), SessionIdLength))
    else Ok(uuid)
  }

  // ---------------------------------------------------------------------------
  // Properties
  // ---------------------------------------------------------------------------

  /** Joining non-empty strings gives the empty string exactly when there are none. */
  lemma {:induction false} JoinNonEmpty(xs: seq<string>, sep: string)
    requires forall k :: 0 <= k < |xs| ==> xs[k] != ""
    ensures Join(xs, sep) == "" <==> xs == []
  {
    if |xs| > 1 {
      assert |Join(xs, sep)| >= |xs[0]|;
    }
  }

  /** The blocks yield no text exactly when none is a text block with a non-empty text. */
  lemma {:induction false} TextsOfEmpty(bs: seq<Block>)
    requires !HasNullBlock(bs)
    ensures TextsOf(bs).Ok? && (TextsOf(bs).value == [] <==> forall i :: 0 <= i < |bs| ==> !IsTextWithText(bs[i]))
  {
    if bs != [] {
      assert forall i :: 1 <= i < |bs| ==> bs[1..][i - 1] == bs[i];
      TextsOfEmpty(bs[1..]);
    }
  }

  /** Block content contributes text exactly when some text block has a non-empty text. */
  lemma BlockTextNonEmpty(bs: seq<Block>)
    requires !HasNullBlock(bs)
    ensures ExtractText(BlockContent(bs)).Ok?
    ensures ExtractText(BlockContent(bs)).value != "" <==> exists i :: 0 <= i < |bs| && IsTextWithText(bs[i])
  {
    TextsOfEmpty(bs);
    JoinNonEmpty(TextsOf(bs).value, "\n");
  }

  /** Message `i` is the one that decides the session: a user message with text, and no earlier one has any. */
  predicate Decides(ms: seq<Message>, i: nat, t: string) {
    && i < |ms|
    && ms[i].role == "user" && ExtractText(ms[i].content) == Ok(t) && t != ""
    && forall j :: 0 <= j < i && ms[j].role == "user" ==> ExtractText(ms[j].content) == Ok("")
  }

  /** No user message has text (and none throws). */
  predicate NoUserText(ms: seq<Message>) {
    forall j :: 0 <= j < |ms| && ms[j].role == "user" ==> ExtractText(ms[j].content) == Ok("")
  }

  /** The first user message with text decides, whatever follows it. */
  lemma {:induction false} DecidingMessage(ms: seq<Message>, i: nat, t: string)
    requires Decides(ms, i, t)
    ensures SessionText(ms) == Ok(Some(t))
  {
    if i > 0 {
      assert forall j :: 1 <= j < |ms| ==> ms[1..][j - 1] == ms[j];
      DecidingMessage(ms[1..], i - 1, t);
    }
  }

  /** Conversely, a found text comes from the deciding message, and `None` means no user message has text. */
  lemma {:induction false} SessionTextSound(ms: seq<Message>)
    requires SessionText(ms).Ok?
    ensures SessionText(ms).value.Some? ==> exists i: nat :: Decides(ms, i, SessionText(ms).value.value)
    ensures SessionText(ms).value.None? <==> NoUserText(ms)
  {
    if ms != [] {
      assert forall j :: 1 <= j < |ms| ==> ms[1..][j - 1] == ms[j];
      if ms[0].role == "user" && ExtractText(ms[0].content).value != "" {
        assert Decides(ms, 0, SessionText(ms).value.value);
      } else {
        SessionTextSound(ms[1..]);
        if SessionText(ms).value.Some? {
          var i: nat :| Decides(ms[1..], i, SessionText(ms).value.value);
          assert Decides(ms, i + 1, SessionText(ms).value.value);
        }
      }
    }
  }

  /**
   * Later turns never change the id: once a conversation's messages yield a session
   * text, appending messages yields the same session id.
   */
  lemma {:induction false} AppendedTurnsKeepSession(ms: seq<Message>, more: seq<Message>)
    requires SessionText(ms).Ok? && SessionText(ms).value.Some?
    ensures SessionText(ms + more) == SessionText(ms)
  {
    if ms[0].role != "user" || ExtractText(ms[0].content).value == "" {
      assert (ms + more)[1..] == ms[1..] + more;
      AppendedTurnsKeepSession(ms[1..], more);
    } else {
      assert (ms + more)[0] == ms[0];
    }
  }

  /** The id of a conversation with text is stable across turns and does not depend on the fallback. */
  lemma StableSessionId(req: Request, more: seq<Message>, email: Option<string>, sha256Hex: string -> string, uuid1: string, uuid2: string)
    requires SessionText(req.messages).Ok? && SessionText(req.messages).value.Some?
    ensures var t := SessionText(req.messages).value.value;
      && DeriveSessionId(req, email, sha256Hex, uuid1) == Ok(Take(sha256Hex(Salted(t, email)), SessionIdLength))
      && DeriveSessionId(req.(messages := req.messages + more), email, sha256Hex, uuid2) == DeriveSessionId(req, email, sha256Hex, uuid1)
      && |DeriveSessionId(req, email, sha256Hex, uuid1).value| <= SessionIdLength
  {
    AppendedTurnsKeepSession(req.messages, more);
  }

  /** The random fallback is used exactly when no user message has text. */
  lemma FallbackOnlyWithoutText(req: Request, email: Option<string>, sha256Hex: string -> string, uuid: string)
    requires SessionText(req.messages).Ok?
    ensures NoUserText(req.messages) ==> DeriveSessionId(req, email, sha256Hex, uuid) == Ok(uuid)
    ensures !NoUserText(req.messages) ==> exists t :: t != "" && DeriveSessionId(req, email, sha256Hex, uuid) == Ok(Take(sha256Hex(Salted(t, email)), SessionIdLength))
  {
    SessionTextSound(req.messages);
    if SessionText(req.messages).value.Some? {
      var t := SessionText(req.messages).value.value;
      assert t != "" && DeriveSessionId(req, email, sha256Hex, uuid) == Ok(Take(sha256Hex(Salted(t, email)), SessionIdLength));
    }
  }

  /**
   * The salt separates accounts: the same text hashed for two different accounts, or
   * for an account and for none, gives two different digest inputs.
   */
  lemma SaltSeparatesAccounts(t: string, e1: Option<string>, e2: Option<string>)
    requires TruthyString(e1) && e1 != e2
    ensures Salted(t, e1) != Salted(t, e2)
  {
    if TruthyString(e2) {
      if |e1.value| == |e2.value| {
        assert Salted(t, e1)[..|e1.value|] == e1.value;
        assert Salted(t, e2)[..|e2.value|] == e2.value;
      } else {
        assert |Salted(t, e1)| != |Salted(t, e2)|;
      }
    } else {
      assert |Salted(t, e1)| > |Salted(t, e2)|;
    }
  }
}

=== FILE: stream_adapter.dfy ===
/**
 * The streaming adapter from Anthropic server-sent events to OpenAI chat completion
 * chunks (adaptAnthropicStreamToOpenAI and buildChunk,
 * src/format/openai/stream-adapter.js:16-171), as a fold over a finite event sequence.
 *
 * The upstream generator is the event sequence plus `sourceError`, the error it raises
 * after those events, if any. The random hex of the `chatcmpl-` id and the clock
 * reading `created` are parameters.
 */
module StreamAdapter {
  import opened Wrappers
  import opened Js
  import opened Anthropic
  import opened OpenAIResponse

  /** The `delta` of a content_block_delta event, by `type`; `MissingDelta` is an absent one. */
  datatype Delta =
    | ThinkingDelta(thinking: Option<string>)
    | TextDelta(text: Option<string>)
    | InputJsonDelta(partialJson: Option<string>)
    | OtherDelta
    | MissingDelta

  /** The Anthropic events, by `type`. */
  datatype Event =
    | MessageStart(usage: Option<Usage>)
    | ContentBlockStart(block: Block)
    | ContentBlockDelta(delta: Delta)
    | ContentBlockStop
    | MessageDelta(stopReason: Option<string>, outputTokens: Option<int>)
    | MessageStop
    | OtherEvent

  /** The `delta` of a chunk. */
  datatype ChunkDelta =
    | RoleDelta
    | ToolCallStart(index: int, id: Option<string>, name: Option<string>)
    | ReasoningDelta(reasoning: Option<string>)
    | ContentDelta(content: Option<string>)
    | ArgumentsDelta(index: int, arguments: Option<string>)
    | EmptyDelta

  /** A `chat.completion.chunk` with its single choice at index 0. */
  datatype Chunk = Chunk(id: string, created: int, model: string, delta: ChunkDelta, finishReason: Option<string>, usage: Option<ChatUsage>)

  /** What the generator yields: a chunk, or the `'[DONE]'` sentinel. */
  datatype Item = ChunkItem(chunk: Chunk) | Done

  /** What the consumer sees: the items yielded, then the error raised, if any. */
  datatype Output = Output(items: seq<Item>, error: Option<string>)

  /** The chunk envelope shared by every chunk of one stream. */
  datatype Envelope = Envelope(id: string, created: int, model: string)

  /** The adapter's mutable variables. */
  datatype State = State(toolIndex: int, promptTokens: int, completionTokens: int, roleEmitted: bool)

  const Initial: State := State(-1, 0, 0, false)

  /** buildChunk (src/format/openai/stream-adapter.js:151-171). */
  function BuildChunk(env: Envelope, delta: ChunkDelta, finishReason: Option<string>, usage: Option<ChatUsage>): (c: Chunk)
    ensures c.id == env.id && c.created == env.created && c.model == env.model
  {
    Chunk(env.id, env.created, env.model, delta, finishReason, usage)
  }

  /** One iteration of the loop: the new state and the chunk yielded, if any. */
  function Step(env: Envelope, s: State, e: Event): (r: Result<(State, Option<Chunk>)>)
    ensures r.Err? <==> (e.ContentBlockStart? && e.block.Absent?) || (e.ContentBlockDelta? && e.delta.MissingDelta?)
    ensures r.Ok? && r.value.1.Some? ==> var c := r.value.1.value;
      c.id == env.id && c.created == env.created && c.model == env.model && (c.usage.Some? <==> e.MessageDelta?)
  {
    match e
    case MessageStart(usage) =>
      var chunk := if !s.roleEmitted then Some(BuildChunk(env, RoleDelta, None, None)) else None;
      var prompt := if usage.Some? then PromptTokens(usage.value) else s.promptTokens;
      Ok((s.(roleEmitted := true, promptTokens := prompt), chunk))
    case ContentBlockStart(b) =>
      if b.Absent? then Err(TypeError)
      else if b.ToolUse? then
        var i := s.toolIndex + 1;
        Ok((s.(toolIndex := i), Some(BuildChunk(env, ToolCallStart(i, b.id, b.name), None, None))))
      else Ok((s, None))
    case ContentBlockDelta(d) =>
      (match d
       case ThinkingDelta(t) => Ok((s, Some(BuildChunk(env, ReasoningDelta(t), None, None))))
       case TextDelta(t) => Ok((s, Some(BuildChunk(env, ContentDelta(t), None, None))))
       case InputJsonDelta(pj) => Ok((s, Some(BuildChunk(env, ArgumentsDelta(s.toolIndex, pj), None, None))))
       case OtherDelta => Ok((s, None))
       case MissingDelta => Err(TypeError))
    case ContentBlockStop => Ok((s, None))
    case MessageDelta(stopReason, outputTokens) =>
      var completion := if outputTokens.Some? then outputTokens.value else s.completionTokens;
      var usage := ChatUsage(s.promptTokens, completion, s.promptTokens + completion);
      Ok((s.(completionTokens := completion), Some(BuildChunk(env, EmptyDelta, MappedFinishReason(stopReason), Some(usage)))))
    case MessageStop => Ok((s, None))
    case OtherEvent => Ok((s, None))
  }

  /** The loop after the first `k` events: the state, the chunks so far, and the error that stopped it. */
  datatype Progress = Progress(state: State, chunks: seq<Chunk>, error: Option<string>)

  function Run(env: Envelope, events: seq<Event>, k: nat): (p: Progress)
    requires k <= |events|
    ensures |p.chunks| <= k
  {
    if k == 0 then Progress(Initial, [], None)
    else
      var p := Run(env, events, k - 1);
      if p.error.Some? then p
      else
        match Step(env, p.state, events[k - 1])
        case Err(msg) => Progress(p.state, p.chunks, Some(msg))
        case Ok((s, c)) => Progress(s, p.chunks + (if c.Some? then [c.value] else []), None)
  }

  /** The chunks as yielded items. */
  function Items(cs: seq<Chunk>): (r: seq<Item>)
    ensures |r| == |cs|
    ensures forall i :: 0 <= i < |cs| ==> r[i] == ChunkItem(cs[i])
  {
    seq(|cs|, i requires 0 <= i < |cs| => ChunkItem(cs[i]))
  }

  /** adaptAnthropicStreamToOpenAI (src/format/openai/stream-adapter.js:16-138). */
  function Adapt(events: seq<Event>, sourceError: Option<string>, model: string, hex: string, created: int): (r: Output)
  {
    var env := Envelope("chatcmpl-" + hex, created, model);
    var p := Run(env, events, |events|);
    if p.error.Some? then Output(Items(p.chunks), p.error)
    else if sourceError.Some? then Output(Items(p.chunks), sourceError)
    else Output(Items(p.chunks) + [Done], None)
  }

  // ---------------------------------------------------------------------------
  // Declarative descriptions of the state
  // ---------------------------------------------------------------------------

  /** The number of tool_use block starts among the first `k` events. */
  function ToolStarts(events: seq<Event>, k: nat): (n: nat)
    requires k <= |events|
    ensures n <= k
  {
    if k == 0 then 0
    else ToolStarts(events, k - 1) + (if events[k - 1].ContentBlockStart? && events[k - 1].block.ToolUse? then 1 else 0)
  }

  /** Whether a message_start is among the first `k` events. */
  predicate Started(events: seq<Event>, k: nat)
    requires k <= |events|
  {
    exists i :: 0 <= i < k && events[i].MessageStart?
  }

  /** The prompt tokens of the last message_start with usage among the first `k` events, else 0. */
  function LastPrompt(events: seq<Event>, k: nat): int
    requires k <= |events|
  {
    if k == 0 then 0
    else if events[k - 1].MessageStart? && events[k - 1].usage.Some? then PromptTokens(events[k - 1].usage.value)
    else LastPrompt(events, k - 1)
  }

  /** The output tokens of the last message_delta with usage among the first `k` events, else 0. */
  function LastCompletion(events: seq<Event>, k: nat): int
    requires k <= |events|
  {
    if k == 0 then 0
    else if events[k - 1].MessageDelta? && events[k - 1].outputTokens.Some? then events[k - 1].outputTokens.value
    else LastCompletion(events, k - 1)
  }

  /** The number of role chunks. */
  function RoleChunks(cs: seq<Chunk>): nat {
    if cs == [] then 0 else RoleChunks(cs[..|cs| - 1]) + (if cs[|cs| - 1].delta.RoleDelta? then 1 else 0)
  }

  /** The indices of the tool-call start chunks, in order. */
  function StartIndices(cs: seq<Chunk>): seq<int> {
    if cs == [] then []
    else StartIndices(cs[..|cs| - 1]) + (if cs[|cs| - 1].delta.ToolCallStart? then [cs[|cs| - 1].delta.index] else [])
  }

  /** 0, 1, ..., n - 1. */
  function Range(n: nat): (r: seq<int>)
    ensures |r| == n && forall i :: 0 <= i < n ==> r[i] == i
  {
    seq(n, i requires 0 <= i < n => i)
  }

  /** The state after `k` events, as the declarative descriptions give it. */
  predicate Describes(events: seq<Event>, k: nat, p: Progress)
    requires k <= |events|
  {
    && p.state.toolIndex == ToolStarts(events, k) - 1
    && p.state.promptTokens == LastPrompt(events, k)
    && p.state.completionTokens == LastCompletion(events, k)
    && (p.state.roleEmitted <==> Started(events, k))
    && RoleChunks(p.chunks) == (if Started(events, k) then 1 else 0)
    && StartIndices(p.chunks) == Range(ToolStarts(events, k))
  }

  /** Appending one chunk to the chunks so far. */
  lemma AppendChunk(cs: seq<Chunk>, c: Chunk)
    ensures RoleChunks(cs + [c]) == RoleChunks(cs) + (if c.delta.RoleDelta? then 1 else 0)
    ensures StartIndices(cs + [c]) == StartIndices(cs) + (if c.delta.ToolCallStart? then [c.delta.index] else [])
  {
    assert (cs + [c])[..|cs|] == cs;
  }

  /** What one successful step does to each variable, and which chunk it yields. */
  lemma StepFacts(env: Envelope, s: State, e: Event)
    requires Step(env, s, e).Ok?
    ensures var (s', c) := Step(env, s, e).value;
      var toolStart := e.ContentBlockStart? && e.block.ToolUse?;
      && s'.toolIndex == s.toolIndex + (if toolStart then 1 else 0)
      && s'.promptTokens == (if e.MessageStart? && e.usage.Some? then PromptTokens(e.usage.value) else s.promptTokens)
      && s'.completionTokens == (if e.MessageDelta? && e.outputTokens.Some? then e.outputTokens.value else s.completionTokens)
      && (s'.roleEmitted <==> s.roleEmitted || e.MessageStart?)
      && (c.Some? && c.value.delta.RoleDelta? <==> e.MessageStart? && !s.roleEmitted)
      && (c.Some? && c.value.delta.ToolCallStart? <==> toolStart)
      && (toolStart ==> c.value.delta.index == s.toolIndex + 1)
  {
  }

  /** A message_start among the first `k + 1` events is one among the first `k` or event `k`. */
  lemma StartedStep(events: seq<Event>, k: nat)
    requires k < |events|
    ensures Started(events, k + 1) <==> Started(events, k) || events[k].MessageStart?
  {
    if Started(events, k + 1) && !events[k].MessageStart? {
      var i :| 0 <= i < k + 1 && events[i].MessageStart?;
      assert i < k;
    }
  }

  /** The description survives one event whose effect on the variables is the one StepFacts gives. */
  lemma DescribedExtend(events: seq<Event>, k: nat, p: Progress, s': State, c: Option<Chunk>)
    requires k < |events| && Describes(events, k, p)
    requires var e := events[k];
      var toolStart := e.ContentBlockStart? && e.block.ToolUse?;
      && s'.toolIndex == p.state.toolIndex + (if toolStart then 1 else 0)
      && s'.promptTokens == (if e.MessageStart? && e.usage.Some? then PromptTokens(e.usage.value) else p.state.promptTokens)
      && s'.completionTokens == (if e.MessageDelta? && e.outputTokens.Some? then e.outputTokens.value else p.state.completionTokens)
      && (s'.roleEmitted <==> p.state.roleEmitted || e.MessageStart?)
      && (c.Some? && c.value.delta.RoleDelta? <==> e.MessageStart? && !p.state.roleEmitted)
      && (c.Some? && c.value.delta.ToolCallStart? <==> toolStart)
      && (toolStart ==> c.value.delta.index == p.state.toolIndex + 1)
    ensures Describes(events, k + 1, Progress(s', p.chunks + (if c.Some? then [c.value] else []), None))
  {
    var e := events[k];
    StartedStep(events, k);
    if c.Some? {
      AppendChunk(p.chunks, c.value);
    } else {
      assert p.chunks + [] == p.chunks;
    }
    var n := ToolStarts(events, k);
    if e.ContentBlockStart? && e.block.ToolUse? {
      assert Range(n) + [n] == Range(n + 1);
    }
  }

  /** One more event keeps the description, when it does not fail. */
  lemma StepDescribes(env: Envelope, events: seq<Event>, k: nat)
    requires k < |events|
    requires Run(env, events, k).error.None? && Describes(events, k, Run(env, events, k))
    requires Run(env, events, k + 1).error.None?
    ensures Describes(events, k + 1, Run(env, events, k + 1))
  {
    var p := Run(env, events, k);
    var step := Step(env, p.state, events[k]);
    assert step.Ok?;
    var (s', c) := step.value;
    assert Run(env, events, k + 1) == Progress(s', p.chunks + (if c.Some? then [c.value] else []), None);
    StepFacts(env, p.state, events[k]);
    DescribedExtend(events, k, p, s', c);
  }

  /** Every error-free prefix of the loop is described by the declarative functions. */
  lemma {:induction false} RunDescribed(env: Envelope, events: seq<Event>, k: nat)
    requires k <= |events|
    requires Run(env, events, k).error.None?
    ensures Describes(events, k, Run(env, events, k))
  {
    if k > 0 {
      RunDescribed(env, events, k - 1);
      StepDescribes(env, events, k - 1);
    }
  }

  // ---------------------------------------------------------------------------
  // Properties
  // ---------------------------------------------------------------------------

  /**
   * Without an error the output is the chunks followed by exactly one `[DONE]`; with an
   * error, from the source or from the adapter, no `[DONE]` is yielded.
   */
  lemma DoneExactlyAtEnd(events: seq<Event>, sourceError: Option<string>, model: string, hex: string, created: int)
    ensures var out := Adapt(events, sourceError, model, hex, created);
      && (out.error.None? ==> |out.items| >= 1 && out.items[|out.items| - 1] == Done
                              && forall i :: 0 <= i < |out.items| - 1 ==> out.items[i].ChunkItem?)
      && (out.error.Some? ==> forall i :: 0 <= i < |out.items| ==> out.items[i].ChunkItem?)
      && (sourceError.Some? ==> out.error.Some?)
  {
  }

  /** The role chunk is yielded once when a message_start occurs, and never otherwise. */
  lemma RoleAtMostOnce(env: Envelope, events: seq<Event>)
    requires Run(env, events, |events|).error.None?
    ensures RoleChunks(Run(env, events, |events|).chunks) == if Started(events, |events|) then 1 else 0
  {
    RunDescribed(env, events, |events|);
  }

  /** The k-th tool_use start yields index k: the start chunks carry 0, 1, 2, ... in order. */
  lemma ToolIndicesCount(env: Envelope, events: seq<Event>)
    requires Run(env, events, |events|).error.None?
    ensures StartIndices(Run(env, events, |events|).chunks) == Range(ToolStarts(events, |events|))
  {
    RunDescribed(env, events, |events|);
  }

  /** The index a start chunk carries is the number of earlier tool_use starts. */
  lemma ToolStartChunk(env: Envelope, events: seq<Event>, k: nat)
    requires k < |events| && events[k].ContentBlockStart? && events[k].block.ToolUse?
    requires Run(env, events, k).error.None?
    ensures var cs := Run(env, events, k + 1).chunks;
      && |cs| > 0
      && cs[|cs| - 1] == BuildChunk(env, ToolCallStart(ToolStarts(events, k), events[k].block.id, events[k].block.name), None, None)
  {
    RunDescribed(env, events, k);
  }

  /**
   * An input_json_delta carries the index of the most recently started tool call: the
   * number of tool_use starts before it minus one (-1 when none has started).
   */
  lemma ArgumentsChunkIndex(env: Envelope, events: seq<Event>, k: nat)
    requires k < |events| && events[k].ContentBlockDelta? && events[k].delta.InputJsonDelta?
    requires Run(env, events, k).error.None?
    ensures var cs := Run(env, events, k + 1).chunks;
      && |cs| > 0
      && cs[|cs| - 1] == BuildChunk(env, ArgumentsDelta(ToolStarts(events, k) - 1, events[k].delta.partialJson), None, None)
  {
    RunDescribed(env, events, k);
  }

  /** A thinking_delta streams as `reasoning_content`, a text_delta as `content`, with no finish reason or usage. */
  lemma TextAndThinkingDeltas(env: Envelope, events: seq<Event>, k: nat)
    requires k < |events| && events[k].ContentBlockDelta?
    requires events[k].delta.ThinkingDelta? || events[k].delta.TextDelta?
    requires Run(env, events, k).error.None?
    ensures var cs := Run(env, events, k + 1).chunks;
      && cs[..|cs| - 1] == Run(env, events, k).chunks
      && (events[k].delta.ThinkingDelta? ==> cs[|cs| - 1] == BuildChunk(env, ReasoningDelta(events[k].delta.thinking), None, None))
      && (events[k].delta.TextDelta? ==> cs[|cs| - 1] == BuildChunk(env, ContentDelta(events[k].delta.text), None, None))
  {
  }

  /**
   * A message_delta yields one chunk with an empty delta, the mapped finish reason and
   * the usage: prompt tokens from the last message_start, completion tokens from the
   * last message_delta carrying usage (this one included), and their sum.
   */
  lemma MessageDeltaChunk(env: Envelope, events: seq<Event>, k: nat)
    requires k < |events| && events[k].MessageDelta?
    requires Run(env, events, k).error.None?
    ensures var cs := Run(env, events, k + 1).chunks;
      var prompt := LastPrompt(events, k);
      var completion := LastCompletion(events, k + 1);
      && |cs| > 0
      && cs[|cs| - 1] == BuildChunk(env, EmptyDelta, MappedFinishReason(events[k].stopReason),
                                    Some(ChatUsage(prompt, completion, prompt + completion)))
  {
    RunDescribed(env, events, k);
  }

  /** content_block_stop, message_stop, unknown events and unknown deltas yield nothing. */
  lemma SilentEvents(env: Envelope, events: seq<Event>, k: nat)
    requires k < |events|
    requires events[k].ContentBlockStop? || events[k].MessageStop? || events[k].OtherEvent?
             || (events[k].ContentBlockDelta? && events[k].delta.OtherDelta?)
             || (events[k].ContentBlockStart? && !events[k].block.ToolUse? && !events[k].block.Absent?)
    requires Run(env, events, k).error.None?
    ensures Run(env, events, k + 1).chunks == Run(env, events, k).chunks
  {
    assert Run(env, events, k).chunks + [] == Run(env, events, k).chunks;
  }

  /** Every chunk of a stream shares the id, creation time and model; only message_delta chunks carry usage. */
  lemma {:induction false} SharedEnvelope(env: Envelope, events: seq<Event>, k: nat)
    requires k <= |events|
    ensures forall c :: c in Run(env, events, k).chunks ==>
      c.id == env.id && c.created == env.created && c.model == env.model && (c.usage.Some? <==> c.delta.EmptyDelta?)
  {
    if k > 0 {
      SharedEnvelope(env, events, k - 1);
    }
  }
}

=== FILE: thinking.dfy ===
/**
 * The thinking-block normaliser applied to assistant turns before they are sent to a
 * backend (src/format-converter.js:159-281): the signature gate
 * (restoreThinkingSignatures), the trailing trim (removeTrailingThinkingBlocks) and
 * the reorder (reorderAssistantContent).
 */
module ThinkingBlocks {
  import opened Wrappers
  import opened Js
  import opened Anthropic

  // ---------------------------------------------------------------------------
  // Sanitising a thinking block
  // ---------------------------------------------------------------------------

  /** sanitizeAnthropicThinkingBlock: keeps only `{type, thinking, signature}` or `{type, data}`. */
  function SanitizeThinkingBlock(b: Block): (r: Block)
    ensures r.Thinking? <==> b.Thinking?
    ensures r.RedactedThinking? <==> b.RedactedThinking?
    ensures r.Thinking? ==> r.thinking == b.thinking && r.signature == b.signature && r.extra == map[]
    ensures r.RedactedThinking? ==> r.data == b.data && r.extra == map[]
    ensures !b.Thinking? && !b.RedactedThinking? ==> r == b
  {
    match b
    case Thinking(t, s, _) => Thinking(t, s, map[])
    case RedactedThinking(d, _) => RedactedThinking(d, map[])
    case _ => b
  }

  /** A thinking block as the sanitiser leaves it. */
  predicate IsSanitized(b: Block) {
    (b.Thinking? || b.RedactedThinking?) ==> b.extra == map[]
  }

  // ---------------------------------------------------------------------------
  // Stage 1: the signature gate
  // ---------------------------------------------------------------------------

  /** Whether restoreThinkingSignatures keeps an entry: everything but an unsigned `thinking` block. */
  predicate SurvivesRestore(b: Block) {
    !b.Thinking? || Signed(b.signature)
  }

  /** What restoreThinkingSignatures pushes for a surviving entry. */
  function Restored(b: Block): Block {
    if b.Thinking? then SanitizeThinkingBlock(b) else b
  }

  /** The entries that are not `type: 'thinking'` blocks, in order. */
  function NonThinking(c: seq<Block>): seq<Block> {
    if c == [] then [] else (if c[0].Thinking? then [] else [c[0]]) + NonThinking(c[1..])
  }

  /** Every `thinking` block carries a valid signature and nothing else. */
  predicate SignedThinkingOnly(c: seq<Block>) {
    forall i :: 0 <= i < |c| ==> c[i].Thinking? ==> Signed(c[i].signature) && c[i].extra == map[]
  }

  /** restoreThinkingSignatures (src/format-converter.js:190-214). */
  function RestoreThinkingSignatures(c: seq<Block>): (r: seq<Block>)
    ensures |r| <= |c|
    ensures SignedThinkingOnly(r)
    ensures NonThinking(r) == NonThinking(c)
  {
    if c == [] then []
    else
      var head := if SurvivesRestore(c[0]) then [Restored(c[0])] else [];
      var rest := RestoreThinkingSignatures(c[1..]);
      NonThinkingAppend(head, rest);
      assert c == [c[0]] + c[1..];
      NonThinkingAppend([c[0]], c[1..]);
      head + rest
  }

  lemma {:induction false} NonThinkingAppend(a: seq<Block>, b: seq<Block>)
    ensures NonThinking(a + b) == NonThinking(a) + NonThinking(b)
  {
    if a == [] {
      assert a + b == b;
    } else {
      assert (a + b)[1..] == a[1..] + b;
      NonThinkingAppend(a[1..], b);
    }
  }

  /** The gate acts entry by entry: it distributes over concatenation. */
  lemma {:induction false} RestoreAppend(a: seq<Block>, b: seq<Block>)
    ensures RestoreThinkingSignatures(a + b) == RestoreThinkingSignatures(a) + RestoreThinkingSignatures(b)
  {
    if a == [] {
      assert a + b == b;
    } else {
      assert (a + b)[1..] == a[1..] + b;
      RestoreAppend(a[1..], b);
    }
  }

  /**
   * A `thinking` block survives exactly when its signature reaches the minimum length,
   * and a survivor is reduced to `{type, thinking, signature}`; a block without a
   * signature is dropped. With `RestoreAppend` and `RestoreKeepsOthers` this fixes the
   * gate on every input.
   */
  lemma RestoreSignatureBoundary(t: Option<string>, s: string, extra: Extra)
    ensures |s| >= MinSignatureLength ==>
      RestoreThinkingSignatures([Thinking(t, Some(s), extra)]) == [Thinking(t, Some(s), map[])]
    ensures |s| < MinSignatureLength ==> RestoreThinkingSignatures([Thinking(t, Some(s), extra)]) == []
    ensures RestoreThinkingSignatures([Thinking(t, None, extra)]) == []
  {
    assert [Thinking(t, Some(s), extra)][1..] == [];
    assert [Thinking(t, None, extra)][1..] == [];
  }

  /** Every other entry (redacted_thinking, text, tool_use, null) passes through untouched. */
  lemma RestoreKeepsOthers(b: Block)
    requires !b.Thinking?
    ensures RestoreThinkingSignatures([b]) == [b]
  {
    assert [b][1..] == [];
  }

  /** Running the gate twice changes nothing. */
  lemma {:induction false} RestoreIdempotent(c: seq<Block>)
    ensures RestoreThinkingSignatures(RestoreThinkingSignatures(c)) == RestoreThinkingSignatures(c)
  {
    RestoreFixpoint(RestoreThinkingSignatures(c));
  }

  /** Content whose `thinking` blocks are all signed and bare is a fixpoint of the gate. */
  lemma {:induction false} RestoreFixpoint(c: seq<Block>)
    requires SignedThinkingOnly(c)
    ensures RestoreThinkingSignatures(c) == c
  {
    if c != [] {
      assert SignedThinkingOnly(c[1..]) by {
        forall i | 0 <= i < |c[1..]| ensures c[1..][i] == c[i + 1] { }
      }
      RestoreFixpoint(c[1..]);
      assert c == [c[0]] + c[1..];
    }
  }

  // ---------------------------------------------------------------------------
  // Stage 2: trimming trailing unsigned thinking blocks
  // ---------------------------------------------------------------------------

  /** An object entry that looks like thinking (any format) without a valid signature. */
  predicate Unsigned(b: Block) {
    !b.Absent? && IsThinkingPart(b.AsView()) && !HasValidSignature(b.AsView())
  }

  /** Whether a content array may be sent as it stands: it does not end on an unsigned thinking block. */
  predicate EndsProperly(c: seq<Block>) {
    c == [] || !Unsigned(c[|c| - 1])
  }

  /**
   * removeTrailingThinkingBlocks (src/format-converter.js:126-157): the longest prefix
   * obtained by dropping trailing unsigned thinking blocks.
   */
  function RemoveTrailingThinkingBlocks(c: seq<Block>): (r: seq<Block>)
    ensures r <= c
    ensures EndsProperly(r)
    ensures forall i :: |r| <= i < |c| ==> Unsigned(c[i])
  {
    if c == [] then c
    else if Unsigned(c[|c| - 1]) then RemoveTrailingThinkingBlocks(c[..|c| - 1])
    else c
  }

  /**
   * The three properties of the trim determine it: any prefix that ends properly and
   * leaves only unsigned thinking blocks behind is the trim's result.
   */
  lemma {:induction false} TrimUnique(c: seq<Block>, p: seq<Block>)
    requires p <= c
    requires EndsProperly(p)
    requires forall i :: |p| <= i < |c| ==> Unsigned(c[i])
    ensures RemoveTrailingThinkingBlocks(c) == p
    decreases |c|
  {
    if |p| < |c| {
      assert Unsigned(c[|c| - 1]);
      TrimUnique(c[..|c| - 1], p);
    } else {
      assert p == c;
    }
  }

  /** Trimming twice is trimming once. */
  lemma TrimIdempotent(c: seq<Block>)
    ensures RemoveTrailingThinkingBlocks(RemoveTrailingThinkingBlocks(c)) == RemoveTrailingThinkingBlocks(c)
  {
    var r := RemoveTrailingThinkingBlocks(c);
    TrimUnique(r, r);
  }

  /**
   * The source's backward scan: it stops at the first entry from the end that is null,
   * not thinking, or validly signed, and slices there.
   */
  method RemoveTrailingThinkingBlocksScan(content: seq<Block>) returns (r: seq<Block>)
    ensures r == RemoveTrailingThinkingBlocks(content)
  {
    if |content| == 0 {
      return content;
    }
    var endIndex := |content|;
    var i := |content| - 1;
    while i >= 0
      invariant -1 <= i < |content|
      invariant endIndex == i + 1
      invariant forall k :: endIndex <= k < |content| ==> Unsigned(content[k])
    {
      var block := content[i];
      if block.Absent? {
        break;
      }
      if IsThinkingPart(block.AsView()) {
        if !HasValidSignature(block.AsView()) {
          endIndex := i;
        } else {
          break;
        }
      } else {
        break;
      }
      i := i - 1;
    }
    assert EndsProperly(content[..endIndex]);
    TrimUnique(content, content[..endIndex]);
    if endIndex < |content| {
      return content[..endIndex];
    }
    return content;
  }

  // ---------------------------------------------------------------------------
  // Stage 3: reordering thinking -> text -> tool_use
  // ---------------------------------------------------------------------------

  /** Whether reorderAssistantContent keeps an entry of a longer array: not null, not a blank text block. */
  predicate Kept(b: Block) {
    !b.Absent? && (b.Text? ==> TruthyString(b.text) && !IsBlank(b.text.value))
  }

  /** The bucket an entry goes to: 0 thinking/redacted_thinking, 2 tool_use, 1 everything else. */
  function Slot(b: Block): nat {
    if b.Thinking? || b.RedactedThinking? then 0 else if b.ToolUse? then 2 else 1
  }

  /** What reorderAssistantContent places in a bucket: thinking blocks are sanitised. */
  function Placed(b: Block): (r: Block)
    ensures Slot(r) == Slot(b) && Kept(r) == Kept(b)
    ensures IsSanitized(r) || !(b.Thinking? || b.RedactedThinking?)
    ensures r.Thinking? ==> b.Thinking? && r.signature == b.signature
  {
    if b.Thinking? || b.RedactedThinking? then SanitizeThinkingBlock(b) else b
  }

  /** Bucket `k` of a content array: its kept entries of slot `k`, in order. */
  function Select(c: seq<Block>, k: nat): (r: seq<Block>)
    ensures |r| <= |c|
    ensures forall i :: 0 <= i < |r| ==> Kept(r[i]) && Slot(r[i]) == k
    ensures forall y :: y in r ==> exists x :: x in c && y == Placed(x)
  {
    if c == [] then []
    else
      var rest := Select(c[1..], k);
      assert forall y :: y in rest ==> exists x :: x in c && y == Placed(x) by {
        forall y | y in rest ensures exists x :: x in c && y == Placed(x) {
          var x :| x in c[1..] && y == Placed(x);
          assert x in c;
        }
      }
      (if Kept(c[0]) && Slot(c[0]) == k then [Placed(c[0])] else []) + rest
  }

  /** Thinking blocks precede text-position blocks, which precede tool_use blocks. */
  predicate SlotsSorted(c: seq<Block>) {
    forall i, j :: 0 <= i < j < |c| ==> Slot(c[i]) <= Slot(c[j])
  }

  /** reorderAssistantContent (src/format-converter.js:227-281). */
  function ReorderAssistantContent(c: seq<Block>): (r: seq<Block>)
    ensures |r| <= |c|
    ensures SlotsSorted(r)
    ensures |c| == 1 ==> r == [Placed(c[0])]
    ensures |c| != 1 ==> forall i :: 0 <= i < |r| ==> Kept(r[i])
    ensures |c| != 1 ==> forall k :: Select(r, k) == Select(c, k)
    ensures forall y :: y in r ==> exists x :: x in c && y == Placed(x)
  {
    if |c| == 1 then
      assert c[0] in c;
      [Placed(c[0])]
    else
      var r := Select(c, 0) + Select(c, 1) + Select(c, 2);
      CountSelects(c);
      forall k ensures Select(r, k) == Select(c, k) {
        SelectOfBuckets(c, k);
      }
      r
  }

  lemma CountSelects(c: seq<Block>)
    ensures |Select(c, 0)| + |Select(c, 1)| + |Select(c, 2)| <= |c|
  {
    if c != [] {
      CountSelects(c[1..]);
    }
  }

  lemma {:induction false} SelectAppend(a: seq<Block>, b: seq<Block>, k: nat)
    ensures Select(a + b, k) == Select(a, k) + Select(b, k)
  {
    if a == [] {
      assert a + b == b;
    } else {
      assert (a + b)[1..] == a[1..] + b;
      SelectAppend(a[1..], b, k);
    }
  }

  /** Selecting from an array with a known first entry. */
  lemma SelectCons(x: Block, t: seq<Block>, k: nat)
    ensures Select([x] + t, k) == (if Kept(x) && Slot(x) == k then [Placed(x)] else []) + Select(t, k)
  {
    assert ([x] + t)[1..] == t;
  }

  /** Selecting a bucket from a bucket gives the bucket itself or nothing. */
  lemma {:induction false} SelectSelect(c: seq<Block>, j: nat, k: nat)
    ensures Select(Select(c, j), k) == if j == k then Select(c, k) else []
  {
    if c != [] {
      var h, t := c[0], c[1..];
      assert c == [h] + t;
      SelectSelect(t, j, k);
      var rest := Select(t, j);
      if Kept(h) && Slot(h) == j {
        var x := Placed(h);
        assert Select(c, j) == [x] + rest by { SelectCons(h, t, j); }
        assert Placed(x) == x;
        assert Select([x] + rest, k) == (if j == k then [x] else []) + Select(rest, k) by { SelectCons(x, rest, k); }
        if j == k {
          assert Select(c, k) == [x] + Select(t, k) by { SelectCons(h, t, k); }
        } else {
          var none: seq<Block> := [];
          assert Select(rest, k) == none && none + none == none;
        }
      } else {
        assert Select(c, j) == rest by {
          SelectCons(h, t, j);
          assert [] + rest == rest;
        }
        if j == k {
          assert Select(c, k) == Select(t, k) by {
            SelectCons(h, t, k);
            assert [] + Select(t, k) == Select(t, k);
          }
        }
      }
    }
  }

  lemma SelectOfBuckets(c: seq<Block>, k: nat)
    ensures Select(Select(c, 0) + Select(c, 1) + Select(c, 2), k) == Select(c, k)
  {
    SelectAppend(Select(c, 0) + Select(c, 1), Select(c, 2), k);
    SelectAppend(Select(c, 0), Select(c, 1), k);
    SelectSelect(c, 0, k);
    SelectSelect(c, 1, k);
    SelectSelect(c, 2, k);
    if k > 2 {
      SelectOutOfRange(c, k);
    }
  }

  lemma {:induction false} SelectOutOfRange(c: seq<Block>, k: nat)
    requires k > 2
    ensures Select(c, k) == []
  {
    if c != [] {
      SelectOutOfRange(c[1..], k);
    }
  }

  /** Reordering an already reordered array changes nothing. */
  lemma ReorderIdempotent(c: seq<Block>)
    ensures ReorderAssistantContent(ReorderAssistantContent(c)) == ReorderAssistantContent(c)
  {
    var r := ReorderAssistantContent(c);
    if |c| == 1 {
      assert Placed(Placed(c[0])) == Placed(c[0]);
    } else if |r| == 1 {
      assert r[0] in r;
      var x :| x in c && r[0] == Placed(x);
      assert Placed(Placed(x)) == Placed(x);
    } else {
      forall i | 0 <= i < |r| ensures Placed(r[i]) == r[i] {
        assert r[i] in r;
        var x :| x in c && r[i] == Placed(x);
      }
      SortedKeptIsBuckets(r);
    }
  }

  /** An array with no dropped entry, sorted by bucket and already sanitised, is its own reorder. */
  lemma SortedKeptIsBuckets(r: seq<Block>)
    requires |r| != 1
    requires SlotsSorted(r)
    requires forall i :: 0 <= i < |r| ==> Kept(r[i]) && Placed(r[i]) == r[i]
    ensures ReorderAssistantContent(r) == r
  {
    SplitBySlot(r);
  }

  lemma {:induction false} SplitBySlot(r: seq<Block>)
    requires SlotsSorted(r)
    requires forall i :: 0 <= i < |r| ==> Kept(r[i]) && Placed(r[i]) == r[i]
    ensures Select(r, 0) + Select(r, 1) + Select(r, 2) == r
  {
    if r != [] {
      var x := r[0];
      var t := r[1..];
      assert r == [x] + t;
      assert Kept(x) && Placed(x) == x;
      TailSorted(r);
      SplitBySlot(t);
      SelectCons(x, t, 0);
      SelectCons(x, t, 1);
      SelectCons(x, t, 2);
      var s := Slot(x);
      if s >= 1 {
        NoneBelow(t, 0, s);
      }
      if s >= 2 {
        NoneBelow(t, 1, s);
      }
    }
  }

  lemma TailSorted(r: seq<Block>)
    requires r != []
    requires SlotsSorted(r)
    requires forall i :: 0 <= i < |r| ==> Kept(r[i]) && Placed(r[i]) == r[i]
    ensures SlotsSorted(r[1..])
    ensures forall i :: 0 <= i < |r[1..]| ==> Kept(r[1..][i]) && Placed(r[1..][i]) == r[1..][i]
    ensures forall i :: 0 <= i < |r[1..]| ==> Slot(r[0]) <= Slot(r[1..][i])
  {
    var t := r[1..];
    forall i | 0 <= i < |t| ensures t[i] == r[i + 1] && Slot(r[0]) <= Slot(t[i]) { }
  }

  lemma {:induction false} NoneBelow(t: seq<Block>, k: nat, s: nat)
    requires k < s
    requires forall i :: 0 <= i < |t| ==> s <= Slot(t[i])
    ensures Select(t, k) == []
  {
    if t != [] {
      assert forall i :: 0 <= i < |t[1..]| ==> s <= Slot(t[1..][i]) by {
        forall i | 0 <= i < |t[1..]| ensures s <= Slot(t[1..][i]) {
          assert t[1..][i] == t[i + 1];
        }
      }
      NoneBelow(t[1..], k, s);
    }
  }

  // ---------------------------------------------------------------------------
  // The whole pipeline on an assistant turn
  // ---------------------------------------------------------------------------

  /** The three stages in the order convertAnthropicToGoogle applies them (src/format-converter.js:477-484). */
  function NormalizeAssistantContent(c: seq<Block>): (r: seq<Block>)
    ensures |r| <= |c|
    ensures SlotsSorted(r)
    ensures SignedThinkingOnly(r)
  {
    var restored := RestoreThinkingSignatures(c);
    var trimmed := RemoveTrailingThinkingBlocks(restored);
    var r := ReorderAssistantContent(trimmed);
    assert SignedThinkingOnly(trimmed) by {
      forall i | 0 <= i < |trimmed| ensures trimmed[i].Thinking? ==> Signed(trimmed[i].signature) && trimmed[i].extra == map[] {
        assert trimmed[i] == restored[i];
      }
    }
    forall i | 0 <= i < |r| && r[i].Thinking? ensures Signed(r[i].signature) && r[i].extra == map[] {
      assert r[i] in r;
      var x :| x in trimmed && r[i] == Placed(x);
    }
    r
  }

  /** Every thinking-like entry is a `type: 'thinking'` block (no redacted or duck-typed thinking). */
  predicate ThinkingTagged(c: seq<Block>) {
    forall i :: 0 <= i < |c| ==> !c[i].Absent? && IsThinkingPart(c[i].AsView()) ==> c[i].Thinking?
  }

  /**
   * On content whose thinking-like entries are all `type: 'thinking'` blocks, the
   * normaliser is idempotent and its result never ends on an unsigned thinking block.
   */
  lemma NormalizeIdempotent(c: seq<Block>)
    requires ThinkingTagged(c)
    ensures EndsProperly(NormalizeAssistantContent(c))
    ensures NormalizeAssistantContent(NormalizeAssistantContent(c)) == NormalizeAssistantContent(c)
  {
    var restored := RestoreThinkingSignatures(c);
    var trimmed := RemoveTrailingThinkingBlocks(restored);
    var p := ReorderAssistantContent(trimmed);
    assert p == NormalizeAssistantContent(c);
    assert ThinkingTagged(restored) by {
      forall i | 0 <= i < |restored| && !restored[i].Absent? && IsThinkingPart(restored[i].AsView())
        ensures restored[i].Thinking?
      {
        RestoreProvenance(c, restored[i]);
      }
    }
    assert ThinkingTagged(p) by {
      forall i | 0 <= i < |p| && !p[i].Absent? && IsThinkingPart(p[i].AsView()) ensures p[i].Thinking? {
        assert p[i] in p;
        var x :| x in trimmed && p[i] == Placed(x);
        var j :| 0 <= j < |trimmed| && trimmed[j] == x;
        assert restored[j] == x;
      }
    }
    if p != [] {
      var last := p[|p| - 1];
      if !last.Absent? && IsThinkingPart(last.AsView()) {
        assert last.Thinking?;
        assert Signed(last.signature) && last.extra == map[];
        assert HasValidSignature(last.AsView());
      }
    }
    RestoreFixpoint(p);
    TrimUnique(p, p);
    ReorderIdempotent(trimmed);
  }

  /** Each entry of the gate's output is an input entry or a sanitised input `thinking` block. */
  lemma {:induction false} RestoreProvenance(c: seq<Block>, y: Block)
    requires y in RestoreThinkingSignatures(c)
    ensures exists x :: x in c && (y == x || (x.Thinking? && y == SanitizeThinkingBlock(x)))
  {
    if c != [] {
      var head := if SurvivesRestore(c[0]) then [Restored(c[0])] else [];
      assert RestoreThinkingSignatures(c) == head + RestoreThinkingSignatures(c[1..]);
      if y in head {
        assert c[0] in c;
      } else {
        RestoreProvenance(c[1..], y);
        var x :| x in c[1..] && (y == x || (x.Thinking? && y == SanitizeThinkingBlock(x)));
        assert x in c;
      }
    }
  }

  /**
   * Outside that hypothesis the normaliser is not idempotent: a redacted_thinking block
   * has no `signature`, so the trim treats it as unsigned once the reorder has dropped
   * the blank text block that shielded it.
   */
  lemma NormalizeNotIdempotent()
    ensures var c := [RedactedThinking(None, map[]), Text(Some(" "), map[])];
      && NormalizeAssistantContent(c) == [RedactedThinking(None, map[])]
      && NormalizeAssistantContent(NormalizeAssistantContent(c)) == []
  {
    var c := [RedactedThinking(None, map[]), Text(Some(" "), map[])];
    assert c[1..] == [Text(Some(" "), map[])];
    assert c[1..][1..] == [];
    assert RestoreThinkingSignatures(c) == c;
    assert !Unsigned(c[1]);
    assert RemoveTrailingThinkingBlocks(c) == c;
    assert !Kept(c[1]);
    assert Select(c, 0) == [RedactedThinking(None, map[])];
    assert Select(c, 1) == [];
    assert Select(c, 2) == [];
    var once := [RedactedThinking(None, map[])];
    assert once[1..] == [];
    assert RestoreThinkingSignatures(once) == once;
    assert Unsigned(once[0]);
    assert once[..0] == [];
    assert RemoveTrailingThinkingBlocks(once) == [];
  }
}

=== FILE: wrappers.dfy ===
/** Failure-carrying result types shared by every module of the model. */
module Wrappers {

  /** A value that may be absent: JavaScript's `undefined`/missing property. */
  datatype Option<+T> = None | Some(value: T) {
    function GetOr(default: T): T {
      match this
      case Some(v) => v
      case None => default
    }
  }

  /** The outcome of a JavaScript call that may throw: `Err` carries the error's message. */
  datatype Result<+T> = Ok(value: T) | Err(message: string) {
    predicate IsFailure() {
      Err?
    }

    function PropagateFailure<U>(): Result<U>
      requires Err?
    {
      Err(message)
    }

    function Extract(): T
      requires Ok?
    {
      value
    }
  }
}
